=== FILE: README.md ===
# Sorted-set skip list and SDS strings, modelled in Dafny

This project models the sorted-set engine of `curly-giggle`: a Redis-style skip list
(`ZSkipList`) of `(score, value)` pairs, its nodes (`ZSkipNode`), its level
generator, and the `SDS` dynamic byte string with separate `len`/`free` accounting.

The skip list lives in an arena `seq<Node>`. Handle 0 is the head, and links are
arena handles instead of `NonNull` addresses. A ghost `order: seq<Handle>` lists the real
nodes in level-0 order. The invariant `Valid(sl, order)` ties the arena to it:

- the level-0 pairs are sorted by `(score, value)`;
- every level-`i` link of the node at 1-based position `p` reaches the first later
  node at least `i + 1` high, with `span` equal to the distance, or is empty with
  `span == len - p`;
- `backward` names the level-0 predecessor (none after the head);
- `tail` is the last node (the head when empty);
- `len` is the chain length, `cur_level <= 16`, and the head's unused levels are
  empty.

Every operation is proved against this invariant, with its result stated in terms
of the abstract sequence `Entries(sl, order)`.

Files, one module each:

- `wrappers.dfy`: `Option` and `Result`.
- `zskipnode.dfy`: the node, `ZSkipNode::head` and `ZSkipNode::new`.
- `level_generator.dfy`: `DefaultLevelGenerator` and `generate_random_level`.
- `zskiplist_state.dfy`: the list, the invariant, the abstract view.
- `zskiplist_query.dfy`: create, length, `contains`, rank lookup, the range queries.
- `zskiplist_rank.dfy`: the key-ordered descent and `zsl_get_rank`.
- `zskiplist_iter.dfy`: `iter` and `Iter::next`.
- `zskiplist_insert.dfy`: `zsl_insert`.
- `zskiplist_unlink.dfy`: unlinking one node with span, backward and tail upkeep.
- `zskiplist_delete.dfy`: `zsl_delete` (corrected and as written) and `pop_front`.
- `sds.dfy`: `SDS`.

## Model

| member | source | states |
|---|---|---|
| ZSkipNode.Head | src/collection/skiplist/zskipnode.rs:14-20 | The head holds no value, has level `b - 1` and exactly `b` links, all empty; a zero bound is refused (usize subtraction). |
| ZSkipNode.New | src/collection/skiplist/zskipnode.rs:22-28 | A new node holds `Some(item)` and level `l` and has exactly `l + 1` empty links. |
| LevelGenerator.New | src/collection/skiplist/level_generator.rs:44-56 | Over the reals, the constructor fails exactly when the bound is 0 or `p` lies within 1e-3 of 0 or of 1; otherwise the generator keeps the bound and `p`. |
| LevelGenerator.NewRejectsZeroBound | src/collection/skiplist/level_generator.rs:45-47 | A zero bound is rejected whatever `p` is. |
| LevelGenerator.NewAcceptsOutOfRange | src/collection/skiplist/level_generator.rs:34-50 | `p = 2.0` and `p = -0.5` lie outside (0, 1) yet are accepted, contrary to the documented error. |
| LevelGenerator.NewChecked | src/collection/skiplist/level_generator.rs:34-50 | The constructor as documented accepts exactly the bounds above 0 with `p` in [1e-3, 1 - 1e-3], so every accepted `p` lies in (0, 1). |
| LevelGenerator.NewCheckedAgrees | src/collection/skiplist/level_generator.rs:34-50 | For `p` inside (0, 1) the documented and the written constructor give the same result; at `p = 2.0` they differ. |
| LevelGenerator.Default | src/collection/skiplist/level_generator.rs:17-21 | The default generator is what `new(16, 0.5)` returns, with bound 16. |
| LevelGenerator.LevelBound | src/collection/skiplist/level_generator.rs:62-64 | `level_bound()` bounds every level `random()` draws: each lies below it unless it is 0. |
| LevelGenerator.RandomLoop | src/collection/skiplist/level_generator.rs:71-74 | The counting loop never leaves `[level, level_bound)`. |
| LevelGenerator.Random | src/collection/skiplist/level_generator.rs:67-76 | `random()` is always below the bound, and it is 0 whenever the draw is at least `p`. |
| LevelGenerator.RandomCanReturnZero | src/collection/skiplist/level_generator.rs:67-76 | On the default generator every draw `f >= 1/2` yields level 0. |
| LevelGenerator.RandomReachesTop | src/collection/skiplist/level_generator.rs:67-76 | A small draw reaches level 15, the highest below the bound. |
| LevelGenerator.RandomLevel | src/collection/skiplist/level_generator.rs:67-76 | The corrected level (`random() + 1`) is a usable tower height in `[1, level_bound]`. |
| LevelGenerator.GenerateRandomLevel | src/collection/skiplist/level_generator.rs:79-90 | The result is 1 plus the number of odd draws among `ZSKIPLIST_MAXLEVEL - 1` draws, hence in `[1, ZSKIPLIST_MAXLEVEL]` (taken to be 16). |
| ZSkipListQuery.Create | src/collection/skiplist/zskiplist.rs:27-42 | The new list is valid and empty, with `cur_level` 0, the tail on the head and a 16-link head. |
| ZSkipListQuery.GetLen | src/collection/skiplist/zskiplist.rs:122-124 | `len` is the number of stored pairs. |
| ZSkipListQuery.Contains | src/collection/skiplist/zskiplist.rs:99-120 | A hit means the value is stored; when values are in list order, every stored value is found. |
| ZSkipListQuery.SkipValuesBelow | src/collection/skiplist/zskiplist.rs:103-110 | The inner loop of `contains` moves right only past values below `v`. It stops on the head or a node below `v` whose next node on the level is absent or holds a value at least `v`. |
| ZSkipListQuery.ContainsMissImpossible | src/collection/skiplist/zskiplist.rs:99-120 | A level-0 stop whose successor holds a larger value (or none) proves the value absent. |
| ZSkipListQuery.GetElementByRank | src/collection/skiplist/zskiplist.rs:128-150 | Ranks are 1-based: rank `r` in `[1, len]` gives the `r`-th value; 0 or past the end gives `None`. |
| ZSkipListQuery.SkipToRank | src/collection/skiplist/zskiplist.rs:135-143 | The inner loop never overshoots the rank and stops where the next span would. |
| ZSkipListQuery.IsInRange | src/collection/skiplist/zskiplist.rs:415-443 | The answer is true iff some stored score lies in `[min, max]`. |
| ZSkipListQuery.SkipScoresBelow | src/collection/skiplist/zskiplist.rs:423-438 | The inner loop of `is_in_range` reports a hit only when some stored score lies in `[min, max]`. Otherwise it stops behind scores below `min`, in front of a score above `max` or of nothing. |
| ZSkipListQuery.NoneInRange | src/collection/skiplist/zskiplist.rs:415-443 | A stop below `min` whose successor is past `max` proves the range empty. |
| ZSkipListQuery.FirstInRange | src/collection/skiplist/zskiplist.rs:152-179 | The result is `None` iff no score is in range; otherwise it is the value of the first pair in range. |
| ZSkipListQuery.LastInRange | src/collection/skiplist/zskiplist.rs:181-207 | The result is `None` iff no score is in range; otherwise it is the value of the last pair in range. |
| ZSkipListIter.Begin | src/collection/skiplist/zskiplist.rs:68-76 | A fresh iterator stands before the first pair with `len` values to go. |
| ZSkipListIter.Next | src/collection/skiplist/zskiplist.rs:490-508 | Step `t` yields the `t`-th value in level-0 order and advances; past the end it yields `None` and stays. |
| ZSkipListIter.Collect | src/collection/skiplist/zskiplist.rs:486-508 | Draining the iterator yields exactly the `len` values in level-0 order. |
| ZSkipListRank.SkipKeysBelow | src/collection/skiplist/zskiplist.rs:389-399 | The inner loop of the rank descent keeps every passed pair below the key and the running rank equal to the position reached. |
| ZSkipListRank.KeyPartition | src/collection/skiplist/zskiplist.rs:240-256 | The level-0 stop splits the pairs into those strictly below the key and the rest. |
| ZSkipListRank.KeyAbsent | src/collection/skiplist/zskiplist.rs:382-413 | When the pair after the stop is not the key, the key is not stored. |
| ZSkipListRank.RankLevel | src/collection/skiplist/zskiplist.rs:389-409 | One level of the corrected rank walk: a hit is the index of the pair `k`; otherwise the walk stops behind keys below `k` and in front of a key past `k` or of nothing. |
| ZSkipListRank.GetRank | src/collection/skiplist/zskiplist.rs:382-413 | The corrected rank is present iff the pair is stored, and then it is the pair's 0-based index. |
| ZSkipListRank.RankAsWrittenFrom | src/collection/skiplist/zskiplist.rs:388-410 | A rank returned by the source's descent is at most the index of some pair with that value. With a level still to descend, a stored pair always gets an answer, and the first pair, asked for from the head, gets 0. |
| ZSkipListRank.GetRankAsWritten | src/collection/skiplist/zskiplist.rs:382-413 | The source's `zsl_get_rank` never answers past a pair with the value, answers every stored pair (not always correctly), and gives the first pair rank 0. |
| ZSkipListRank.ThreeNodeListValid | src/collection/skiplist/zskiplist.rs:382-413 | A concrete three-pair list whose first and last nodes are two levels high is valid. |
| ZSkipListRank.GetRankAsWrittenMisranks | src/collection/skiplist/zskiplist.rs:402-405 | On that list the source answers rank 1 for the pair at index 2. |
| ZSkipListInsert.InsertSortedAt | src/collection/skiplist/zskiplist.rs:240-256 | Inserting into a sorted sequence at the first index not below the pair is the sorted insertion. |
| ZSkipListInsert.SearchPath | src/collection/skiplist/zskiplist.rs:236-256 | The descent records, on every level in use, the last node strictly below the key and its rank; the level-0 rank is the insertion index. |
| ZSkipListInsert.RaiseLevel | src/collection/skiplist/zskiplist.rs:261-268 | New levels start at the head with span `len`; the list stays valid and `cur_level` becomes the drawn level. |
| ZSkipListInsert.LinkNewNode | src/collection/skiplist/zskiplist.rs:272-283 | On each level below the drawn one the new node takes the recorded node's link and span less `rank[0] - rank[i]`; the recorded node links to it with span `rank[0] - rank[i] + 1`. |
| ZSkipListInsert.WidenSpans | src/collection/skiplist/zskiplist.rs:285-287 | Recorded nodes on the remaining levels in use count one more step. |
| ZSkipListInsert.InsertedValid | src/collection/skiplist/zskiplist.rs:261-298 | The spliced list is valid, with the new pair at the insertion index. Validity covers the backward links and the tail fixed at lines 289-296. |
| ZSkipListInsert.Splice | src/collection/skiplist/zskiplist.rs:258-300 | Linking a new node of the drawn level along the search path leaves a valid list whose pairs are the old ones with `k` at the insertion index. The new node is the next arena handle, with the drawn level, and `cur_level` is unchanged. |
| ZSkipListInsert.Insert | src/collection/skiplist/zskiplist.rs:235-309 | Insertion always succeeds and adds one pair, even a repeated one. The result is valid, its pairs are the sorted insertion of the new pair, `len` grows by one and `cur_level` is the larger of the old and drawn levels. |
| ZSkipListUnlink.UnlinkLevels | src/collection/skiplist/zskiplist.rs:353-369 | The corrected level loop: on every level in use, the recorded node either links to the removed node and bypasses it, joining both spans less one, or passes over it and counts one step less. |
| ZSkipListUnlink.DeletedValid | src/collection/skiplist/zskiplist.rs:324-380 | Unlinking the node at index `p0` along its recorded path leaves a valid list whose pairs are the old ones without index `p0`. Validity covers the spans, the successor's backward link and the tail, which the source's loop at lines 353-377 leaves stale. |
| ZSkipListUnlink.UnlinkNode | src/collection/skiplist/zskiplist.rs:353-377 | The whole unlink step leaves a valid list with the pair at `p0` gone and `len` one less. |
| ZSkipListDelete.RemoveFirstAt | src/collection/skiplist/zskiplist.rs:324-380 | When index `p` holds the first pair with the value, removing the first such pair removes index `p`. |
| ZSkipListDelete.RemoveFirstAbsent | src/collection/skiplist/zskiplist.rs:325-327 | Removing an absent value changes nothing. |
| ZSkipListDelete.DescendTo | src/collection/skiplist/zskiplist.rs:335-345 | The value-driven descent stops in front of the first pair whose value is at least `v`, on every level in use. |
| ZSkipListDelete.Locate | src/collection/skiplist/zskiplist.rs:329-352 | With the value present, the node after the level-0 stop is the first pair holding it. |
| ZSkipListDelete.Delete | src/collection/skiplist/zskiplist.rs:324-380 | An absent value returns `None` and changes nothing. A present one returns `Some(v)`, removes the first pair holding it and keeps the list valid and value-sorted, and `len` drops by one; with distinct values `v` is then gone. |
| ZSkipListDelete.PopFront | src/collection/skiplist/zskiplist.rs:88-97 | An empty list gives `None` and is unchanged; otherwise the first value is returned and removed. |
| ZSkipListDelete.RewireByValue | src/collection/skiplist/zskiplist.rs:353-369 | The source's rewiring changes forward links only. On each level, a recorded link whose target holds `v` takes over that target's forward link; every other recorded link stays, as do spans, backward links, values and levels. |
| ZSkipListDelete.DeleteAsWritten | src/collection/skiplist/zskiplist.rs:324-380 | The source's delete fails on a list using all 16 levels. Otherwise it returns `Some(v)` and drops `len` by one. The first node holding `v` leaves level 0: its predecessor takes over its level-0 link. Every span, backward link and the tail stay unchanged, so from a one-pair list the result is valid for no order. |
| Sds.SdsNew | src/sds.rs:28-38 | `sdsnew(s)` has `len = free = len(s)` and a `2 * len(s)`-byte buffer starting with `s`, zero after. |
| Sds.Empty | src/sds.rs:15-21 | `new` is the empty, accounted string. |
| Sds.SdsFree | src/sds.rs:49-53 | Freeing empties the buffer and keeps the accounting. |
| Sds.SdsDup | src/sds.rs:64-70 | The copy has the same fields and keeps the accounting. |
| Sds.SdsClear | src/sds.rs:73-77 | Clearing zeroes `len`, leaves `free` as it was and zeroes the first byte; it needs a non-empty buffer. |
| Sds.SdsClearBreaksAccounting | src/sds.rs:73-77 | Clearing a non-empty string breaks `len + free == len(buf)`. |
| Sds.SdsCatAsWritten | src/sds.rs:80-96 | The source's append: `len` grows by `len(o)` and the accounting is kept. The growing branch doubles the buffer and holds the old content, then `o`, then zeros. The in-place branch writes `o` at offset 0 and leaves the bytes after it unchanged. |
| Sds.SdsCatAsWrittenOverwrites | src/sds.rs:90-93 | Appending `c` in place to `ab` gives content `cb\0` instead of `abc`. |
| Sds.SdsCat | src/sds.rs:80-96 | The corrected append's content is the old content followed by `o`, with the source's buffer sizes and the accounting kept. After growing, the rest of the buffer is zeros; in place, the bytes after the new content are unchanged. |
| Sds.SdsCatSds | src/sds.rs:98-103 | Appending another SDS hands its first `len` bytes to the written `sdscat`: appended and followed by zeros when the buffer grows, written at offset 0 in place, accounting kept. |
| Sds.SdsCatSdsOverwrites | src/sds.rs:98-103 | Appending the SDS `c` in place to `ab` also gives content `cb\0`. |
| Sds.SdsCpy | src/sds.rs:106-122 | The content becomes `o` followed by a 0 byte, and the accounting is kept. The buffer doubles to `2 * len(o)` only when `len + free < len(o)`, and is then zero after `o`. Otherwise the bytes after the terminator are unchanged. |
| Sds.SdsGrowZero | src/sds.rs:125-129 | `n` zero bytes are appended and `free` grows by `n`; `len` and the content are unchanged. |
| Sds.SdsRange | src/sds.rs:136-162 | Returns 0. An empty string is unchanged; otherwise the new length is 0 when `start >= len`, else `min(end, len - 1) - start + 1`, those bytes move to the front and a 0 byte follows, and the bytes after that 0 are unchanged. |
| Sds.SdsRangeEmptyAnyBounds | src/sds.rs:138-140 | On an empty string any bounds, `start > end` included, return 0 and change nothing. |
| Sds.SdsTrim | src/sds.rs:165-186 | The content loses its maximal leading and trailing runs of `cset` bytes, and its ends are outside `cset`. The buffer keeps its size, a 0 byte follows the content and the later bytes are unchanged. |
| Sds.CompareEqualIff | src/sds.rs:188-190 | Lexicographic byte comparison is `Equal` iff the sequences are equal. |
| Sds.CompareFlip | src/sds.rs:188-190 | Swapping the arguments reverses the comparison. |
| Sds.SdsCmp | src/sds.rs:188-190 | `sdscmp` compares whole buffers, free bytes included: `Equal` iff the buffers are identical. |
| Sds.SdsCmpSwap | src/sds.rs:188-190 | Swapping the arguments of `sdscmp` reverses the answer. |

## Left out

- Manual memory management (`Box::into_raw`/`from_raw`, `NonNull`, `Drop`, the `IntoIter` drop, the empty `zsl_free`) and `iter_mut`: the arena replaces the addresses. A removed node stays in the arena, unreachable.
- `zsl_delete_range_by_score` and `zsl_delete_range_by_rank`: both are stubs that return 0.
- The random number generator and floating-point arithmetic of `random()`: the draw is an input, and scores are `real`, compared only (no NaN).
- The comparator closure: values are `int` under their natural order.
- `src/collection/hash.rs`, `src/zskiplist.rs`, the Debug printer, `src/main.rs` and the benchmarks: no engine logic of their own.
- SDS bytes of 128 and above: `sdstrim` and `sdscatsds` go through `String`, which re-encodes them, so both require ASCII content.
- Sds.SdsRange: on a non-empty string it requires `start <= end` and `end - start + 1 < 2^64`, because the source's `usize` expression `end - start + 1` underflows or overflows otherwise. At `start = 0, end = usize::MAX` a debug build panics, and a release build wraps the new length to 0 and clears the string; the wrapped release behaviour is not modelled.
- `zskipnode.rs` shows a node without score, span or backward fields. The node follows the richer node `zskiplist.rs` uses.
- ZSkipListQuery.Contains, ZSkipListDelete.Delete, ZSkipListDelete.PopFront: these compare by value only. Delete and PopFront require the values to be in list order (`ValueSorted`), as in the tests where score equals value. Contains promises to find every stored value only under that condition.
- ZSkipListDelete.Delete: keeps `cur_level` as it was, like the source; levels left empty are valid.
- ZSkipListDelete.Locate: the source rechecks that the node after the level-0 stop holds the value. Under `ValueSorted` the check always passes, so it is proved rather than branched on.
- ZSkipListDelete.DeleteAsWritten: the same applies. The branch where the recheck fails would still decrement `len`, and it is not modelled.
- ZSkipListDelete.PopFront: calls the corrected `Delete`, not the source's.
- ZSkipListDelete.DeleteAsWritten: returns `Err` when `cur_level` is 16, because the descent would index `level[16]` of the 16-link head. The source's own generator never draws more than 15 levels, so this only matters with levels in `[1, 16]`.
- LevelGenerator.New: `p` is a `real`, not an `f64`, so the 1e-3 test is exact. In the source, `new(4, 1.001)` fails because `1.001 - 1.0` rounds below 1e-3 in `f64`, while the model accepts it. NaN and the infinities, which the source accepts, have no counterpart.
- ZSkipListRank.GetRank: besides returning `rank + span - 1`, the corrected rank matches the whole (score, value) pair where the source compares the value alone.
- Sds.SdsCatSds: follows the written `sdscat`, overwrite included. The intended append is `SdsCat` applied to the other record's content.
- LevelGenerator.GenerateRandomLevel: the definition of `ZSKIPLIST_MAXLEVEL` is not part of this model. It is taken to be 16, the default generator's `level_bound()`, which also sizes the head. That value fixes the fifteen draws of `generate_random_level` and the length of insert's `update` and `rank` vectors.
- ZSkipListInsert.Insert: takes the level as an input in `[1, 16]` (see the findings on `random()`).

## Findings

| source | as written | input that shows it | evidently intended | confidence | as-written member | corrected member |
|---|---|---|---|---|---|---|
| src/collection/skiplist/zskiplist.rs:353-377 | `zsl_delete` rewires forward links only; spans, the successor's `backward` and `tail` are never updated | delete value 1 from the list holding only `(1.0, 1)`: `len` becomes 0 but `tail` still names the freed node | bypass or shorten the span on every level, fix `backward` and `tail`, and unlink the located node itself on every level rather than whichever node holds the value (with duplicate values the written loop can bypass a different node on a higher level) | not executed | ZSkipListDelete.DeleteAsWritten | ZSkipListDelete.Delete |
| src/collection/skiplist/zskiplist.rs:402-405 | a value match on a level above 0 returns the rank of the node in front of the match | pairs `(1,1)`, `(2,2)`, `(3,3)` with the first and last nodes two levels high: rank of `(3.0, 3)` is 1 | return `rank + span - 1`, the 0-based index of the matched pair, and match the whole (score, value) pair rather than the value alone | not executed | ZSkipListRank.GetRankAsWritten | ZSkipListRank.GetRank |
| src/collection/skiplist/level_generator.rs:67-76 | `random()` counts from 0, so a draw `f >= p` gives level 0, and insert then links the node on no level | default generator, draw `f = 0.75` | a level in `[1, level_bound]` | not executed | LevelGenerator.RandomCanReturnZero | LevelGenerator.RandomLevel |
| src/sds.rs:90-93 | the in-place branch of `sdscat` copies `o` to offset 0; `sdscatsds` (line 102) goes through it and inherits the overwrite | `sdsnew("ab")` then `sdscat("c")`: content `cb\0` | copy `o` to offset `len` | not executed | Sds.SdsCatAsWrittenOverwrites | Sds.SdsCat |
| src/collection/skiplist/level_generator.rs:48-50 | `new` rejects only `p` within 1e-3 of 0 or 1, while its documentation (line 34) promises an error for every `p` outside (0, 1) | `DefaultLevelGenerator::new(4, 2.0)` returns `Ok` | reject every `p` outside (0, 1) as well | not executed | LevelGenerator.NewAcceptsOutOfRange | LevelGenerator.NewChecked |

=== FILE: level_generator.dfy ===
/** The level policy of the skip list (`src/collection/skiplist/level_generator.rs`).
    The random draws are inputs: `random` receives the value `f = 1 - u` that the
    generator computes from its uniform draw `u`, and `generate_random_level`
    receives the fifteen `u32` draws it would make. Probabilities are `real`. */
module LevelGenerator {
  import opened Wrappers

  /** ZSKIPLIST_MAXLEVEL: the tower height bound used by the skip list. Its
      definition is not part of this model; it is taken to be 16, the bound of
      the default generator, which also sizes the head's tower. */
  const MaxLevel: nat := 16

  datatype Generator = Generator(levelBound: nat, p: real)

  function Abs(x: real): real { if x < 0.0 then -x else x }

  /** The tolerance the constructor uses around 0 and 1. */
  const Tolerance: real := 0.001

  /** True when `p` is within the tolerance of 0 or of 1. */
  predicate NearZeroOrOne(p: real) {
    Abs(p - 0.0) < Tolerance || Abs(p - 1.0) < Tolerance
  }

  /** `DefaultLevelGenerator::new`: a zero bound or a probability next to 0 or 1
      is a configuration error; everything else is accepted as given. */
  function New(levelBound: nat, p: real): (r: Result<Generator, string>)
    ensures r.Err? <==> levelBound == 0 || NearZeroOrOne(p)
    ensures r.Ok? ==> LevelBound(r.value) == levelBound && r.value.p == p
  {
    if levelBound == 0 then Err("total must be non-zero.")
    else if NearZeroOrOne(p) then Err("p must be in (0, 1).")
    else Ok(Generator(levelBound, p))
  }

  /** `DefaultLevelGenerator::default`: bound 16, p = 1/2. */
  function Default(): (g: Generator)
    ensures New(16, 0.5) == Ok(g)
    ensures LevelBound(g) == MaxLevel
  {
    Generator(16, 0.5)
  }

  /** `level_bound()`: the bound every level `random()` draws stays below. */
  function LevelBound(g: Generator): (b: nat)
    ensures forall f :: b == 0 || Random(g, f) < b
  {
    g.levelBound
  }

  /** The loop of `random()`: keep counting while `x > f` and the next level
      would still be below the bound, multiplying `x` by `p` each time. */
  function RandomLoop(level: nat, x: real, f: real, g: Generator): (r: nat)
    requires level < g.levelBound
    ensures level <= r < g.levelBound
    decreases g.levelBound - level
  {
    if x > f && level + 1 < g.levelBound then RandomLoop(level + 1, x * g.p, f, g)
    else level
  }

  /** `random()` with the draw `f = 1 - u` as an input. Its result is always
      below `level_bound`, and it is 0 whenever the first comparison fails. */
  function Random(g: Generator, f: real): (level: nat)
    ensures g.levelBound >= 1 ==> level < g.levelBound
    ensures g.levelBound == 0 ==> level == 0
    ensures g.p <= f ==> level == 0
  {
    if g.levelBound == 0 then 0 else RandomLoop(0, g.p, f, g)
  }

  /** Redis-style level: one more than the count `random()` produces, so the
      result is a usable tower height in [1, level_bound]. */
  function RandomLevel(g: Generator, f: real): (level: nat)
    requires g.levelBound >= 1
    ensures 1 <= level <= g.levelBound
  {
    Random(g, f) + 1
  }

  /** The number of odd draws in `draws`. */
  function CountOdd(draws: seq<nat>): (c: nat)
    ensures c <= |draws|
  {
    if |draws| == 0 then 0
    else CountOdd(draws[..|draws| - 1]) + (if draws[|draws| - 1] % 2 == 1 then 1 else 0)
  }

  /** `generate_random_level`: starting from 1, every odd draw among the
      fifteen adds a level, so the result lies in [1, MaxLevel]. */
  method GenerateRandomLevel(draws: seq<nat>) returns (level: nat)
    requires |draws| == MaxLevel - 1
    ensures level == 1 + CountOdd(draws)
    ensures 1 <= level <= MaxLevel
  {
    level := 1;
    var i := 1;
    while i < MaxLevel
      invariant 1 <= i <= MaxLevel
      invariant level == 1 + CountOdd(draws[..i - 1])
    {
      assert draws[..i] [..i - 1] == draws[..i - 1];
      if draws[i - 1] % 2 == 1 {
        level := level + 1;
      }
      i := i + 1;
    }
    assert draws[..MaxLevel - 1] == draws;
  }

  /** The constructor rejects a zero bound. */
  lemma NewRejectsZeroBound(p: real)
    ensures New(0, p).Err?
  {
  }

  /** Probabilities outside (0, 1) that are far from 0 and 1 are accepted,
      although the constructor's documentation promises otherwise. */
  lemma NewAcceptsOutOfRange()
    ensures New(4, 2.0).Ok?
    ensures New(4, -0.5).Ok?
    ensures !(0.0 < 2.0 < 1.0) && !(0.0 < -0.5 < 1.0)
  {
  }

  /** The constructor as its documentation describes it: besides the zero
      bound and the tolerance around 0 and 1, a probability outside (0, 1)
      is an error. The accepted probabilities are exactly those at least the
      tolerance away from both ends, all of them inside (0, 1). */
  function NewChecked(levelBound: nat, p: real): (r: Result<Generator, string>)
    ensures r.Ok? <==> levelBound > 0 && Tolerance <= p <= 1.0 - Tolerance
    ensures r.Ok? ==> 0.0 < r.value.p < 1.0 && LevelBound(r.value) == levelBound
  {
    if levelBound == 0 then Err("total must be non-zero.")
    else if NearZeroOrOne(p) || !(0.0 < p < 1.0) then Err("p must be in (0, 1).")
    else Ok(Generator(levelBound, p))
  }

  /** On probabilities inside (0, 1) the documented constructor and the
      written one agree; they differ only on the out-of-range ones. */
  lemma NewCheckedAgrees(levelBound: nat, p: real)
    ensures 0.0 < p < 1.0 ==> NewChecked(levelBound, p) == New(levelBound, p)
    ensures New(4, 2.0) != NewChecked(4, 2.0)
  {
  }

  /** `random()` on the default generator returns 0 for any draw with
      `f >= 1/2`: the first comparison `x > f` already fails. */
  lemma RandomCanReturnZero(f: real)
    requires 0.5 <= f <= 1.0
    ensures Random(Default(), f) == 0
  {
  }

  /** `2^n` as a real. */
  function Two(n: nat): real
  {
    if n == 0 then 1.0 else 2.0 * Two(n - 1)
  }

  /** On the default generator `random()` reaches the top level 15, and no
      further, for a small enough draw (here `f = 2^-16`). */
  lemma RandomReachesTop()
    ensures Random(Default(), 0.0000152587890625) == 15
  {
    var g := Default();
    var f := 0.0000152587890625;
    var x := 0.5;
    var k: nat := 0;
    assert Two(15) == 32768.0;
    while k < 15
      invariant 0 <= k <= 15
      invariant x >= f * Two(15 - k)
      invariant RandomLoop(0, 0.5, f, g) == RandomLoop(k, x, f, g)
    {
      assert Two(15 - k) == 2.0 * Two(14 - k);
      k, x := k + 1, x * 0.5;
    }
  }
}

=== FILE: sds.dfy ===
/** The dynamic string `SDS` (`src/sds.rs`): a byte buffer with a used length
    `len` and a count `free` of spare bytes. Every operation returns the new
    record instead of mutating in place. A Rust panic (an out-of-range index or
    a `usize` underflow) is a precondition. Byte strings passed as `&str` are
    ASCII, so their UTF-8 encoding is the byte sequence itself. */
module Sds {

  type Byte = bv8

  datatype Sds = Sds(len: nat, free: nat, buf: seq<Byte>)

  datatype Ordering = Less | Equal | Greater

  /** The accounting invariant `len + free == |buf|`. */
  predicate Accounted(s: Sds) {
    s.len + s.free == |s.buf|
  }

  /** The string the record holds: the first `len` bytes. */
  function Content(s: Sds): seq<Byte>
    requires s.len <= |s.buf|
  {
    s.buf[..s.len]
  }

  predicate Ascii(b: seq<Byte>) {
    forall i :: 0 <= i < |b| ==> b[i] < 128
  }

  function Zeros(n: nat): (z: seq<Byte>)
    ensures |z| == n
    ensures forall i :: 0 <= i < n ==> z[i] == 0
  {
    seq(n, _ => 0)
  }

  /** `SDS::new`: an empty record with no buffer. */
  function Empty(): (s: Sds)
    ensures s.len == 0 && s.free == 0 && s.buf == []
    ensures Accounted(s)
  {
    Sds(0, 0, [])
  }

  /** `sdsnew(s)`: a buffer of twice the string's length holding the string
      followed by zero bytes; the second half is free. */
  function SdsNew(str: seq<Byte>): (s: Sds)
    ensures s.len == |str| && s.free == |str| && |s.buf| == 2 * |str|
    ensures Content(s) == str
    ensures forall i :: |str| <= i < |s.buf| ==> s.buf[i] == 0
    ensures Accounted(s)
  {
    Sds(|str|, |str|, str + Zeros(|str|))
  }

  /** `sdsfree`: drop the buffer. */
  function SdsFree(s: Sds): (r: Sds)
    ensures r.len == 0 && r.free == 0 && r.buf == []
    ensures Accounted(r)
  {
    Sds(0, 0, [])
  }

  /** `sdsdup`: an independent record with the same fields. */
  function SdsDup(s: Sds): (r: Sds)
    ensures r.len == s.len && r.free == s.free && r.buf == s.buf
    ensures Accounted(s) ==> Accounted(r)
  {
    Sds(s.len, s.free, s.buf)
  }

  /** `sdsclear` as written: `len` is zeroed BEFORE it is added to `free`, so
      `free` does not change, and the first byte is zeroed (which panics on
      an empty buffer). */
  function SdsClear(s: Sds): (r: Sds)
    requires |s.buf| >= 1
    ensures r.len == 0 && r.free == s.free && |r.buf| == |s.buf|
    ensures r.buf[0] == 0 && r.buf[1..] == s.buf[1..]
  {
    Sds(0, s.free, s.buf[0 := 0])
  }

  /** Clearing a record that holds a non-empty string breaks the accounting. */
  lemma SdsClearBreaksAccounting(s: Sds)
    requires Accounted(s) && s.len >= 1
    ensures !Accounted(SdsClear(s))
  {
  }

  /** Condition under which `sdscat` does not panic: the old content can be
      sliced, and in the in-place branch the appended bytes fit. */
  predicate CatFits(s: Sds, o: seq<Byte>) {
    s.len <= |s.buf| && (s.free < |o| || s.len + |o| <= |s.buf|)
  }

  /** `sdscat` AS WRITTEN. When `free < |o|` the buffer is reallocated to
      `2 * (len + |o|)` bytes holding the old content followed by `o`. Otherwise
      `o` is copied to offset 0, over the existing content. Both branches add
      `|o|` to `len`. */
  function SdsCatAsWritten(s: Sds, o: seq<Byte>): (r: Sds)
    requires s.len <= |s.buf| && (s.free < |o| || |o| <= |s.buf|)
    ensures r.len == s.len + |o|
    ensures s.free < |o| ==> |r.buf| == 2 * (s.len + |o|) && r.free == r.len
    ensures s.free < |o| ==> Content(r) == Content(s) + o
    ensures s.free < |o| ==> forall i :: r.len <= i < |r.buf| ==> r.buf[i] == 0
    ensures s.free >= |o| ==> |r.buf| == |s.buf| && r.buf[..|o|] == o && r.free == s.free - |o|
    ensures s.free >= |o| ==> r.buf[|o|..] == s.buf[|o|..]
    ensures Accounted(s) ==> Accounted(r)
  {
    if s.free < |o| then
      Sds(s.len + |o|, s.len + |o|, s.buf[..s.len] + o + Zeros(s.len + |o|))
    else
      Sds(s.len + |o|, s.free - |o|, o + s.buf[|o|..])
  }

  /** The in-place branch of `sdscat` loses the old content: appending "c" to
      `sdsnew("ab")` yields "cb" followed by a zero byte instead of "abc". */
  lemma SdsCatAsWrittenOverwrites()
    ensures var r := SdsCatAsWritten(SdsNew([0x61, 0x62]), [0x63]);
      r.len <= |r.buf| && Content(r) == [0x63, 0x62, 0x00] && Content(r) != [0x61, 0x62, 0x63]
  {
    var s := SdsNew([0x61, 0x62]);
    assert s.buf == [0x61, 0x62, 0, 0];
    var r := SdsCatAsWritten(s, [0x63]);
    assert r.buf == [0x63, 0x62, 0, 0];
  }

  /** `sdscat` with the in-place branch writing at offset `len`, as the
      reallocating branch does: the content is always the old content followed
      by `o`. */
  function SdsCat(s: Sds, o: seq<Byte>): (r: Sds)
    requires CatFits(s, o)
    ensures r.len == s.len + |o| && r.len <= |r.buf|
    ensures Content(r) == Content(s) + o
    ensures Accounted(s) ==> Accounted(r)
    ensures s.free < |o| ==> |r.buf| == 2 * r.len && r.free == r.len
    ensures s.free < |o| ==> forall i :: r.len <= i < |r.buf| ==> r.buf[i] == 0
    ensures s.free >= |o| ==> |r.buf| == |s.buf| && r.free == s.free - |o|
    ensures s.free >= |o| ==> r.buf[r.len..] == s.buf[r.len..]
  {
    if s.free < |o| then
      var r := Sds(s.len + |o|, s.len + |o|, s.buf[..s.len] + o + Zeros(s.len + |o|));
      assert Content(r) == s.buf[..s.len] + o;
      r
    else
      var r := Sds(s.len + |o|, s.free - |o|, s.buf[..s.len] + o + s.buf[s.len + |o|..]);
      assert Content(r) == s.buf[..s.len] + o;
      r
  }

  /** `sdscatsds`: hand the other record's content (its first `len` bytes,
      which must be ASCII for the string split to land on that byte) to
      `sdscat` as written, so it inherits the overwrite at offset 0. */
  function SdsCatSds(s: Sds, other: Sds): (r: Sds)
    requires other.len <= |other.buf| && Ascii(Content(other))
    requires s.len <= |s.buf| && (s.free < other.len || other.len <= |s.buf|)
    ensures r.len == s.len + other.len
    ensures s.free < other.len ==> r.len <= |r.buf| && Content(r) == Content(s) + Content(other)
    ensures s.free < other.len ==> forall i :: r.len <= i < |r.buf| ==> r.buf[i] == 0
    ensures s.free >= other.len ==> |r.buf| == |s.buf| && r.buf[..other.len] == Content(other)
    ensures s.free >= other.len ==> r.buf[other.len..] == s.buf[other.len..]
    ensures Accounted(s) ==> Accounted(r)
  {
    SdsCatAsWritten(s, Content(other))
  }

  /** Appending the record `sdsnew("c")` to `sdsnew("ab")` yields "cb"
      followed by a zero byte, as plain `sdscat` does. */
  lemma SdsCatSdsOverwrites()
    ensures var r := SdsCatSds(SdsNew([0x61, 0x62]), SdsNew([0x63]));
      r.len <= |r.buf| && Content(r) == [0x63, 0x62, 0x00]
  {
    var s, o := SdsNew([0x61, 0x62]), SdsNew([0x63]);
    assert s.buf == [0x61, 0x62, 0, 0] && Content(o) == [0x63];
    assert SdsCatSds(s, o).buf == [0x63, 0x62, 0, 0];
  }

  /** Condition under which `sdscpy` does not panic: the reallocating branch
      always leaves room for the terminating zero; the in-place branch needs
      `|o| < |buf|` for both the copy and the terminator. */
  predicate CpyFits(s: Sds, o: seq<Byte>) {
    s.len + s.free < |o| || |o| < |s.buf|
  }

  /** `sdscpy`: the buffer starts with `o` followed by a zero byte; it is
      reallocated to `2 * |o|` bytes only when `len + free < |o|`. */
  function SdsCpy(s: Sds, o: seq<Byte>): (r: Sds)
    requires CpyFits(s, o)
    ensures r.len == |o| && r.len < |r.buf|
    ensures Content(r) == o && r.buf[|o|] == 0
    ensures s.len + s.free < |o| ==> |r.buf| == 2 * |o| && r.free == |o|
    ensures s.len + s.free < |o| ==> forall i :: |o| <= i < |r.buf| ==> r.buf[i] == 0
    ensures s.len + s.free >= |o| ==> |r.buf| == |s.buf| && r.free == s.len + s.free - |o|
    ensures s.len + s.free >= |o| ==> r.buf[|o| + 1..] == s.buf[|o| + 1..]
    ensures Accounted(s) ==> Accounted(r)
  {
    if s.len + s.free < |o| then
      var b := o + Zeros(|o|);
      Sds(|o|, |o|, b[|o| := 0])
    else
      var b := o + s.buf[|o|..];
      Sds(|o|, s.free + s.len - |o|, b[|o| := 0])
  }

  /** `sdsgrowzero(n)`: append `n` zero bytes and count them as free. */
  function SdsGrowZero(s: Sds, n: nat): (r: Sds)
    ensures r.len == s.len && r.free == s.free + n
    ensures |r.buf| == |s.buf| + n && r.buf[..|s.buf|] == s.buf
    ensures forall i :: |s.buf| <= i < |r.buf| ==> r.buf[i] == 0
    ensures s.len <= |s.buf| ==> Content(r) == Content(s)
    ensures Accounted(s) ==> Accounted(r)
  {
    Sds(s.len, s.free + n, s.buf + Zeros(n))
  }

  /** The length `sdsrange(start, end)` keeps on a non-empty record: nothing
      when `start` is past the content, else up to `end` clamped to the last
      byte. */
  function RangeLen(len: nat, start: nat, end: nat): nat
    requires start <= end
  {
    if start >= len then 0
    else if end >= len then len - 1 - start + 1
    else end - start + 1
  }

  /** The largest `usize`. */
  const UsizeMax: nat := 0xFFFF_FFFF_FFFF_FFFF

  /** `sdsrange(start, end)`: keep the bytes `[start, end]` (clamped to the
      content), moved to the front and followed by a zero byte, leaving the
      rest of the buffer alone; the call always returns 0. An empty record
      returns before any arithmetic. Otherwise the `usize` expression
      `end - start + 1` needs `start <= end` and must not reach `2^64`, and
      the terminator needs the new length to be below the buffer size. */
  function SdsRange(s: Sds, start: nat, end: nat): (res: (Sds, int))
    requires s.len <= |s.buf|
    requires s.len > 0 ==> start <= end && end - start < UsizeMax
    requires s.len > 0 ==> RangeLen(s.len, start, end) < |s.buf|
    ensures res.1 == 0
    ensures var r := res.0;
      && r.len <= s.len && r.len < |r.buf| + (if s.len == 0 then 1 else 0)
      && |r.buf| == |s.buf|
      && (s.len == 0 ==> r == s)
      && (s.len > 0 && start >= s.len ==> r.len == 0)
      && (s.len > 0 && start < s.len ==>
            r.len == (if end < s.len then end else s.len - 1) - start + 1
            && Content(r) == s.buf[start..start + r.len])
      && (s.len > 0 ==> r.buf[r.len] == 0 && r.buf[r.len + 1..] == s.buf[r.len + 1..])
      && (Accounted(s) ==> Accounted(r))
  {
    if s.len == 0 then (s, 0)
    else
      var newLen := RangeLen(s.len, start, end);
      var moved := if start != 0 && newLen != 0
        then s.buf[start..start + newLen] + s.buf[newLen..]
        else s.buf;
      var r := Sds(newLen, s.free + s.len - newLen, moved[newLen := 0]);
      assert start < s.len ==> Content(r) == moved[..newLen] == s.buf[start..start + newLen];
      (r, 0)
  }

  /** On an empty record `sdsrange` returns before its arithmetic, so any
      bounds are accepted, `start > end` included, and nothing changes. */
  lemma SdsRangeEmptyAnyBounds(start: nat, end: nat)
    ensures SdsRange(Empty(), start, end) == (Empty(), 0)
  {
  }

  /** `sdstrim(cset)` on the content: the bytes between the first and the last
      byte outside `cset`. The scan starts at `len - 1` (a `u64` subtraction)
      and the final length `ep - sp + 1` underflows unless some byte is outside
      `cset`; the final `sdscpy` needs the trimmed length below the buffer
      size, which fails only when nothing is trimmed from a full buffer. */
  method SdsTrim(s: Sds, cset: seq<Byte>) returns (r: Sds)
    requires 1 <= s.len <= |s.buf| && Ascii(Content(s))
    requires exists i :: 0 <= i < s.len && s.buf[i] !in cset
    requires s.len < |s.buf| || s.buf[0] in cset || s.buf[s.len - 1] in cset
    ensures 1 <= r.len <= s.len && r.len < |r.buf|
    ensures Content(r)[0] !in cset && Content(r)[r.len - 1] !in cset
    ensures exists a :: TrimmedAt(s, cset, a, Content(r))
    ensures |r.buf| == |s.buf| && r.buf[r.len] == 0 && r.buf[r.len + 1..] == s.buf[r.len + 1..]
    ensures Accounted(s) ==> Accounted(r)
  {
    var bytes := s.buf;
    var sp := 0;
    var ep := s.len - 1;
    var end := ep;
    while sp <= end && bytes[sp] in cset
      invariant 0 <= sp <= s.len
      invariant forall i :: 0 <= i < sp ==> bytes[i] in cset
    {
      sp := sp + 1;
    }
    assert sp < s.len && bytes[sp] !in cset;
    while ep > sp && bytes[ep] in cset
      invariant sp <= ep < s.len
      invariant forall i :: ep < i < s.len ==> bytes[i] in cset
    {
      ep := ep - 1;
    }
    var trimmed := bytes[sp..ep + 1];
    // The trimmed string is no longer than the content, so `sdscpy` works in place.
    assert |trimmed| <= s.len + s.free;
    r := SdsCpy(s, trimmed);
    assert TrimmedAt(s, cset, sp, Content(r));
  }

  /** `t` is the content of `s` with a run of `cset` bytes of length `a`
      removed in front and the rest of the content after `t` made of `cset`
      bytes. */
  predicate TrimmedAt(s: Sds, cset: seq<Byte>, a: nat, t: seq<Byte>)
    requires s.len <= |s.buf|
  {
    && a + |t| <= s.len
    && t == s.buf[a..a + |t|]
    && (forall i :: 0 <= i < a ==> s.buf[i] in cset)
    && (forall i :: a + |t| <= i < s.len ==> s.buf[i] in cset)
  }

  /** Lexicographic comparison of byte sequences, as `Vec<u8>::cmp`: the first
      differing byte decides, and a proper prefix is smaller. */
  function Compare(a: seq<Byte>, b: seq<Byte>): Ordering
  {
    if |a| == 0 && |b| == 0 then Equal
    else if |a| == 0 then Less
    else if |b| == 0 then Greater
    else if a[0] < b[0] then Less
    else if a[0] > b[0] then Greater
    else Compare(a[1..], b[1..])
  }

  function Flip(o: Ordering): Ordering {
    match o
    case Less => Greater
    case Equal => Equal
    case Greater => Less
  }

  lemma {:induction false} CompareEqualIff(a: seq<Byte>, b: seq<Byte>)
    ensures Compare(a, b) == Equal <==> a == b
  {
    if |a| > 0 && |b| > 0 && a[0] == b[0] {
      CompareEqualIff(a[1..], b[1..]);
      if a[1..] == b[1..] {
        assert a == [a[0]] + a[1..] && b == [b[0]] + b[1..];
      }
    }
  }

  lemma {:induction false} CompareFlip(a: seq<Byte>, b: seq<Byte>)
    ensures Compare(b, a) == Flip(Compare(a, b))
  {
    if |a| > 0 && |b| > 0 && a[0] == b[0] {
      CompareFlip(a[1..], b[1..]);
    }
  }

  /** `sdscmp`: compares the WHOLE buffers, free bytes included. It reports
      `Equal` exactly for identical buffers. */
  function SdsCmp(x: Sds, y: Sds): (o: Ordering)
    ensures o == Equal <==> x.buf == y.buf
  {
    CompareEqualIff(x.buf, y.buf);
    Compare(x.buf, y.buf)
  }

  /** Swapping the arguments of `sdscmp` reverses the answer. */
  lemma SdsCmpSwap(x: Sds, y: Sds)
    ensures SdsCmp(y, x) == Flip(SdsCmp(x, y))
  {
    CompareFlip(x.buf, y.buf);
  }
}

=== FILE: wrappers.dfy ===
/** Option and Result, the two failure-carrying types the modelled code uses
    (Rust's `Option<T>` and `Result<T, String>`). */
module Wrappers {

  datatype Option<+T> = None | Some(value: T)

  datatype Result<+T, +E> = Ok(value: T) | Err(error: E)
}

=== FILE: zskiplist_delete.dfy ===
/** `zsl_delete` and `pop_front` (`zskiplist.rs`), with the span and
    backward-link upkeep the engine needs: look the value up with `contains`,
    descend recording on every level the last node before it, unlink the
    first node holding it on each level where it is linked (widening the
    recorded span over it) or shorten the recorded span by one where it is
    not, and fix the backward link after it or the tail. */
module ZSkipListDelete {
  import opened Wrappers
  import opened ZSkipNode
  import opened ZSkipListState
  import opened ZSkipListQuery
  import opened ZSkipListInsert
  import opened ZSkipListUnlink

  /** Reference definition: `es` without its first pair holding value `v`. */
  ghost function RemoveFirst(es: seq<Entry>, v: int): seq<Entry> {
    if |es| == 0 then []
    else if es[0].value == v then es[1..]
    else [es[0]] + RemoveFirst(es[1..], v)
  }

  /** When index `p` holds the first pair with value `v`, removing the first
      such pair drops index `p`. */
  lemma {:induction false} RemoveFirstAt(es: seq<Entry>, v: int, p: nat)
    requires p < |es| && es[p].value == v
    requires forall t :: 0 <= t < p ==> es[t].value != v
    ensures RemoveFirst(es, v) == es[..p] + es[p + 1..]
    decreases p
  {
    if p == 0 {
    } else {
      assert es[0].value != v;
      RemoveFirstAt(es[1..], v, p - 1);
      assert es[1..][..p - 1] == es[1..p];
      assert es[1..][p..] == es[p + 1..];
      assert [es[0]] + es[1..p] == es[..p];
    }
  }

  /** A value absent from `es` removes nothing. */
  lemma {:induction false} RemoveFirstAbsent(es: seq<Entry>, v: int)
    requires forall t :: 0 <= t < |es| ==> es[t].value != v
    ensures RemoveFirst(es, v) == es
    decreases |es|
  {
    if |es| > 0 {
      assert es[0].value != v;
      RemoveFirstAbsent(es[1..], v);
    }
  }

  /** What the descent leaves on level `j`: position `r`, the head or a value
      below `v`, whose next node on that level is absent or holds at least `v`. */
  ghost predicate ValueStop(sl: ZSkipList, order: seq<Handle>, v: int, r: nat, j: nat)
    requires Valid(sl, order)
  {
    r <= |order| && j < Active(sl, order, r) && BelowValue(sl, order, r, v) && StopsAtOrAbove(sl, order, r, j, v)
  }

  /** In a value-sorted list, the level-0 stop splits the values: those
      before it are below `v`, the rest are at least `v`. */
  lemma ValuePartition(sl: ZSkipList, order: seq<Handle>, p: nat, v: int)
    requires Valid(sl, order) && ValueSorted(sl, order) && p <= |order| && BelowValue(sl, order, p, v)
    requires sl.curLevel > 0 ==> 0 < Active(sl, order, p) && StopsAtOrAbove(sl, order, p, 0, v)
    ensures forall t :: 0 <= t < p ==> Values(sl, order)[t] < v
    ensures forall t :: p <= t < |order| ==> Values(sl, order)[t] >= v
  {
    var vs := Values(sl, order);
    if |order| == 0 {
      return;
    }
    NonEmptyHasLevel(sl, order);
    Level0Step(sl, order, p);
    forall t | 0 <= t < |order|
      ensures t < p ==> vs[t] < v
      ensures t >= p ==> vs[t] >= v
    {
      if t < p - 1 {
        assert vs[t] <= vs[p - 1];
      } else if t > p {
        assert vs[p] <= vs[t];
      }
    }
  }

  /** A level-`j` stop of the descent is where that level changes for the
      value's first index `p0`. */
  lemma ValueStopIsUpdate(sl: ZSkipList, order: seq<Handle>, v: int, p0: nat, r: nat, j: nat)
    requires Valid(sl, order) && p0 <= |order|
    requires forall t :: 0 <= t < p0 ==> Values(sl, order)[t] < v
    requires forall t :: p0 <= t < |order| ==> Values(sl, order)[t] >= v
    requires ValueStop(sl, order, v, r, j)
    ensures UpdateAt(sl, order, p0, r, j)
  {
    if r > 0 {
      assert Values(sl, order)[r - 1] < v;
    }
    if sl.nodes[HandleAt(order, r)].links[j].forward.Some? {
      var q := FollowLink(sl, order, r, j);
      assert Values(sl, order)[q - 1] >= v;
    }
  }

  /** Once every level is searched, the level-0 stop is the value's first
      index and every recorded position is where its level changes. */
  lemma DescentPath(sl: ZSkipList, order: seq<Handle>, v: int, p0: nat, update: seq<Handle>, rank: seq<nat>)
    requires Valid(sl, order) && ValueSorted(sl, order) && |update| == MaxLevel && |rank| == MaxLevel
    requires p0 <= |order| && BelowValue(sl, order, p0, v) && p0 == if sl.curLevel == 0 then 0 else rank[0]
    requires forall j :: 0 <= j < sl.curLevel ==> ValueStop(sl, order, v, rank[j], j) && update[j] == HandleAt(order, rank[j])
    ensures forall t :: 0 <= t < p0 ==> Values(sl, order)[t] < v
    ensures forall t :: p0 <= t < |order| ==> Values(sl, order)[t] >= v
    ensures PathTo(sl, order, p0, update, rank, sl.curLevel)
  {
    if sl.curLevel > 0 {
      assert ValueStop(sl, order, v, rank[0], 0);
    }
    ValuePartition(sl, order, p0, v);
    forall j | 0 <= j < sl.curLevel
      ensures UpdateAt(sl, order, p0, rank[j], j)
    {
      ValueStopIsUpdate(sl, order, v, p0, rank[j], j);
    }
  }

  /** The descent of `zsl_delete`: from the top level down, move right while
      the next value is below `v` and record the node reached. */
  method DescendTo(sl: ZSkipList, ghost order: seq<Handle>, v: int)
    returns (update: seq<Handle>, ghost rank: seq<nat>, ghost p0: nat)
    requires Valid(sl, order) && ValueSorted(sl, order)
    ensures p0 <= |order|
    ensures forall t :: 0 <= t < p0 ==> Values(sl, order)[t] < v
    ensures forall t :: p0 <= t < |order| ==> Values(sl, order)[t] >= v
    ensures PathTo(sl, order, p0, update, rank, sl.curLevel)
    ensures sl.curLevel > 0 ==> rank[0] == p0
  {
    update := seq(MaxLevel, _ => HeadHandle);
    rank := seq(MaxLevel, _ => 0);
    var cur := HeadHandle;
    ghost var pc: nat := 0;
    var i := sl.curLevel;
    while i > 0
      invariant 0 <= i <= sl.curLevel
      invariant |update| == MaxLevel && |rank| == MaxLevel
      invariant pc <= |order| && cur == HandleAt(order, pc) && BelowValue(sl, order, pc, v)
      invariant i <= Active(sl, order, pc)
      invariant i < sl.curLevel ==> pc == rank[i]
      invariant forall j :: i <= j < sl.curLevel ==> ValueStop(sl, order, v, rank[j], j) && update[j] == HandleAt(order, rank[j])
    {
      i := i - 1;
      cur, pc := SkipValuesBelow(sl, order, cur, pc, i, v);
      assert ValueStop(sl, order, v, pc, i);
      update := update[i := cur];
      rank := rank[i := pc];
    }
    p0 := pc;
    DescentPath(sl, order, v, p0, update, rank);
  }

  /** Removing one pair keeps the values in order. */
  lemma RemoveKeepsValueSorted(sl: ZSkipList, order: seq<Handle>, p0: nat, sl2: ZSkipList, o2: seq<Handle>)
    requires Shaped(sl, order) && Shaped(sl2, o2) && ValueSorted(sl, order) && p0 < |order|
    requires Entries(sl2, o2) == Entries(sl, order)[..p0] + Entries(sl, order)[p0 + 1..]
    ensures ValueSorted(sl2, o2)
  {
    var es := Entries(sl, order);
    forall a, b | 0 <= a < b < |o2|
      ensures Values(sl2, o2)[a] <= Values(sl2, o2)[b]
    {
      var a1, b1 := if a < p0 then a else a + 1, if b < p0 then b else b + 1;
      assert Entries(sl2, o2)[a] == es[a1] && Entries(sl2, o2)[b] == es[b1];
      assert Values(sl, order)[a1] <= Values(sl, order)[b1];
    }
  }

  /** No value occurs twice. */
  ghost predicate Distinct(vs: seq<int>) {
    forall a, b :: 0 <= a < b < |vs| ==> vs[a] != vs[b]
  }

  /** With distinct values, dropping the pair at `p0` drops its value. */
  lemma DistinctRemoved(sl: ZSkipList, order: seq<Handle>, p0: nat, sl2: ZSkipList, o2: seq<Handle>)
    requires Shaped(sl, order) && Shaped(sl2, o2) && p0 < |order| && Distinct(Values(sl, order))
    requires Entries(sl2, o2) == Entries(sl, order)[..p0] + Entries(sl, order)[p0 + 1..]
    ensures Values(sl, order)[p0] !in Values(sl2, o2)
  {
    var es := Entries(sl, order);
    forall t | 0 <= t < |o2|
      ensures Values(sl2, o2)[t] != Values(sl, order)[p0]
    {
      var t1 := if t < p0 then t else t + 1;
      assert Entries(sl2, o2)[t] == es[t1];
      assert Values(sl, order)[t1] == es[t1].value;
    }
  }

  /** Once the descent has stopped in front of index `p0`, the level-0 link
      of the node reached leads to the node at `p0`. */
  lemma StopLeadsTo(sl: ZSkipList, order: seq<Handle>, p0: nat, update: seq<Handle>, rank: seq<nat>)
    requires Valid(sl, order) && p0 < |order| && PathTo(sl, order, p0, update, rank, sl.curLevel)
    requires sl.curLevel > 0 && rank[0] == p0
    ensures update[0] < |sl.nodes| && 0 < |sl.nodes[update[0]].links|
    ensures sl.nodes[update[0]].links[0].forward == Some(order[p0])
  {
    assert UpdateAt(sl, order, p0, p0, 0);
    if p0 > 0 {
      assert NodeShaped(sl.nodes[order[p0 - 1]], sl.curLevel);
    }
    Level0Step(sl, order, p0);
  }

  /** The search `zsl_delete` runs once `contains` has found `v`: descend
      recording the path, then read the node after the level-0 stop, which
      is the first one holding `v`. */
  method Locate(sl: ZSkipList, ghost order: seq<Handle>, v: int)
    returns (update: seq<Handle>, ghost rank: seq<nat>, ghost p0: nat, x: Handle)
    requires Valid(sl, order) && ValueSorted(sl, order) && v in Values(sl, order)
    ensures p0 < |order| && x == order[p0] && sl.nodes[x].val == Some(v)
    ensures forall t :: 0 <= t < p0 ==> Entries(sl, order)[t].value != v
    ensures Entries(sl, order)[p0].value == v
    ensures PathTo(sl, order, p0, update, rank, sl.curLevel)
    ensures sl.curLevel > 0 && rank[0] == p0 && update[0] == HandleAt(order, p0)
    ensures update[0] < |sl.nodes| && 0 < |sl.nodes[update[0]].links|
    ensures sl.nodes[update[0]].links[0].forward == Some(x)
    ensures Values(sl, order)[p0] == v && forall t :: 0 <= t < p0 ==> Values(sl, order)[t] != v
  {
    update, rank, p0 := DescendTo(sl, order, v);
    ghost var t :| 0 <= t < |order| && Values(sl, order)[t] == v;
    assert p0 <= t;
    NonEmptyHasLevel(sl, order);
    StopLeadsTo(sl, order, p0, update, rank);
    x := sl.nodes[update[0]].links[0].forward.value;
    assert sl.nodes[x].val == Some(v) by {
      assert Values(sl, order)[p0] >= v && Values(sl, order)[p0] <= Values(sl, order)[t];
    }
    forall t | 0 <= t < p0
      ensures Entries(sl, order)[t].value != v
    {
      assert Values(sl, order)[t] == Entries(sl, order)[t].value;
    }
  }

  /** `zsl_delete`, with the span, backward-link and tail upkeep the
      invariant needs: when `v` is stored, the first pair holding it goes and
      `Some(v)` comes back; otherwise nothing changes and `None` comes back. */
  method Delete(sl: ZSkipList, ghost order: seq<Handle>, v: int)
    returns (sl': ZSkipList, r: Option<int>, ghost order': seq<Handle>)
    requires Valid(sl, order) && ValueSorted(sl, order)
    ensures Valid(sl', order') && ValueSorted(sl', order')
    ensures Entries(sl', order') == RemoveFirst(Entries(sl, order), v)
    ensures r == if v in Values(sl, order) then Some(v) else None
    ensures v !in Values(sl, order) ==> sl' == sl
    ensures v in Values(sl, order) ==> sl'.len + 1 == sl.len
    ensures Distinct(Values(sl, order)) ==> v !in Values(sl', order')
    ensures sl'.curLevel == sl.curLevel
  {
    var found := Contains(sl, order, v);
    if !found {
      forall t | 0 <= t < |order|
        ensures Entries(sl, order)[t].value != v
      {
        assert Values(sl, order)[t] == Entries(sl, order)[t].value;
      }
      RemoveFirstAbsent(Entries(sl, order), v);
      return sl, None, order;
    }
    var update, rank, p0, x := Locate(sl, order, v);
    r := sl.nodes[x].val;
    sl', order' := UnlinkNode(sl, order, p0, update, rank, x);
    RemoveFirstAt(Entries(sl, order), v, p0);
    RemoveKeepsValueSorted(sl, order, p0, sl', order');
    if Distinct(Values(sl, order)) {
      DistinctRemoved(sl, order, p0, sl', order');
    }
  }

  /** `pop_front`: remove and return the first stored value, if any, by
      deleting its value. */
  method PopFront(sl: ZSkipList, ghost order: seq<Handle>)
    returns (sl': ZSkipList, r: Option<int>, ghost order': seq<Handle>)
    requires Valid(sl, order) && ValueSorted(sl, order)
    ensures Valid(sl', order') && ValueSorted(sl', order')
    ensures |order| == 0 ==> r == None && sl' == sl
    ensures |order| > 0 ==> r == Some(Values(sl, order)[0]) && Entries(sl', order') == Entries(sl, order)[1..]
  {
    assert 0 < |sl.nodes[HeadHandle].links|;
    match sl.nodes[HeadHandle].links[0].forward
    case None =>
      if |order| > 0 {
        NonEmptyHasLevel(sl, order);
        Level0Step(sl, order, 0);
      }
      return sl, None, order;
    case Some(f) =>
      if |order| == 0 {
        if sl.curLevel > 0 {
          Level0Step(sl, order, 0);
        }
        assert false;
      }
      NonEmptyHasLevel(sl, order);
      Level0Step(sl, order, 0);
      assert f == order[0];
      var v := sl.nodes[f].val.value;
      assert Values(sl, order)[0] == v == Entries(sl, order)[0].value;
      sl', r, order' := Delete(sl, order, v);
  }

  /** What the value-driven rewiring of `zsl_delete` reads on the levels
      below `top`: the recorded node has that level, and the node it links to
      has it too. */
  ghost predicate RewireFrame(nodes: seq<Node>, update: seq<Handle>, top: nat) {
    && |update| == MaxLevel && top <= MaxLevel
    && forall j :: 0 <= j < top ==>
         && update[j] < |nodes| && j < |nodes[update[j]].links|
         && (nodes[update[j]].links[j].forward.Some? ==>
               nodes[update[j]].links[j].forward.value < |nodes|
               && j < |nodes[nodes[update[j]].links[j].forward.value].links|)
  }

  /** `nodes` differs from `n0` in forward links only. */
  ghost predicate OnlyForwards(n0: seq<Node>, nodes: seq<Node>) {
    && |nodes| == |n0|
    && (forall h :: 0 <= h < |n0| ==>
          && nodes[h].val == n0[h].val && nodes[h].level == n0[h].level && nodes[h].score == n0[h].score
          && nodes[h].backward == n0[h].backward && |nodes[h].links| == |n0[h].links|)
    && (forall h, j :: 0 <= h < |n0| && 0 <= j < |n0[h].links| ==> nodes[h].links[j].span == n0[h].links[j].span)
  }

  /** The rewiring loop of `zsl_delete` as written: from level `top - 1`
      down, where the recorded node links to a node holding `v`, take over
      that node's forward link on the level; every other recorded link stays.
      Spans are left alone. */
  method RewireByValue(n0: seq<Node>, update: seq<Handle>, v: int, top: nat) returns (nodes: seq<Node>)
    requires RewireFrame(n0, update, top)
    ensures OnlyForwards(n0, nodes)
    ensures forall j :: 0 <= j < top ==>
              var l := n0[update[j]].links[j];
              l.forward.Some? && n0[l.forward.value].val == Some(v) ==>
                nodes[update[j]].links[j] == l.(forward := n0[l.forward.value].links[j].forward)
    ensures forall j :: 0 <= j < top ==>
              var l := n0[update[j]].links[j];
              l.forward.Some? && n0[l.forward.value].val != Some(v) ==> nodes[update[j]].links[j] == l
  {
    nodes := n0;
    var i := top;
    while i > 0
      invariant 0 <= i <= top
      invariant OnlyForwards(n0, nodes)
      invariant forall h, j :: 0 <= h < |n0| && 0 <= j < |n0[h].links| && j < i ==> nodes[h].links[j] == n0[h].links[j]
      invariant forall j :: i <= j < top ==>
                  var l := n0[update[j]].links[j];
                  l.forward.Some? && n0[l.forward.value].val == Some(v) ==>
                    nodes[update[j]].links[j] == l.(forward := n0[l.forward.value].links[j].forward)
      invariant forall j :: i <= j < top ==>
                  var l := n0[update[j]].links[j];
                  l.forward.Some? && n0[l.forward.value].val != Some(v) ==> nodes[update[j]].links[j] == l
    {
      i := i - 1;
      var u := update[i];
      var un := nodes[u];
      var ul := un.links[i];
      if ul.forward.Some? && nodes[ul.forward.value].val == Some(v) {
        var next := nodes[ul.forward.value].links[i].forward;
        nodes := nodes[u := un.(links := un.links[i := ul.(forward := next)])];
      }
    }
  }

  /** The path `zsl_delete` records also covers level `curLevel`, where the
      head has no successor, and every link it reads is in range. */
  lemma AsWrittenFrame(sl: ZSkipList, order: seq<Handle>, p0: nat, update: seq<Handle>, rank: seq<nat>)
    requires Valid(sl, order) && p0 <= |order| && PathTo(sl, order, p0, update, rank, sl.curLevel)
    requires sl.curLevel < MaxLevel && update[sl.curLevel] == HeadHandle
    ensures RewireFrame(sl.nodes, update, sl.curLevel + 1)
  {
    forall j | 0 <= j <= sl.curLevel
      ensures update[j] < |sl.nodes| && j < |sl.nodes[update[j]].links|
      ensures sl.nodes[update[j]].links[j].forward.Some? ==>
                sl.nodes[update[j]].links[j].forward.value < |sl.nodes|
                && j < |sl.nodes[sl.nodes[update[j]].links[j].forward.value].links|
    {
      if j < sl.curLevel {
        var r := rank[j];
        assert UpdateAt(sl, order, p0, r, j) && update[j] == HandleAt(order, r);
        if r > 0 {
          assert NodeShaped(sl.nodes[order[r - 1]], sl.curLevel);
        }
        assert LinkOk(sl, order, r, j);
        if sl.nodes[update[j]].links[j].forward.Some? {
          var q := FollowLink(sl, order, r, j);
          assert NodeShaped(sl.nodes[order[q - 1]], sl.curLevel);
        }
      }
    }
  }

  /** An empty list whose tail is not the head is invalid for every order. */
  lemma StaleTail(sl: ZSkipList, o: seq<Handle>)
    requires sl.len == 0 && sl.tail != HeadHandle
    ensures !Valid(sl, o)
  {
  }

  /** Index `p` holds the first occurrence of `v`. */
  predicate FirstHolder(vs: seq<int>, v: int, p: nat) {
    p < |vs| && vs[p] == v && forall t :: 0 <= t < p ==> vs[t] != v
  }

  /** Only one index holds the first occurrence of a value. */
  lemma FirstHolderUnique(vs: seq<int>, v: int, p: nat, p0: nat)
    requires FirstHolder(vs, v, p) && FirstHolder(vs, v, p0)
    ensures p == p0
  {
  }

  /** `zsl_delete` exactly as written. It walks levels `0..=cur_level`, so
      with all 16 levels in use it indexes the head's tower out of bounds
      (`Err`). It unlinks, level by level, whichever node after the recorded
      one holds `v`, and never updates a span, a backward link or the tail.
      The removed single pair of a one-pair list leaves the tail on the freed
      node, so no level-0 order makes the result valid. */
  method DeleteAsWritten(sl: ZSkipList, ghost order: seq<Handle>, v: int)
    returns (res: Result<(ZSkipList, Option<int>), string>)
    requires Valid(sl, order) && ValueSorted(sl, order)
    ensures v !in Values(sl, order) ==> res == Ok((sl, None))
    ensures v in Values(sl, order) && sl.curLevel == MaxLevel ==> res.Err?
    ensures v in Values(sl, order) && sl.curLevel < MaxLevel ==>
              && res.Ok? && res.value.1 == Some(v)
              && res.value.0.len + 1 == sl.len && res.value.0.tail == sl.tail
              && res.value.0.curLevel == sl.curLevel
              && OnlyForwards(sl.nodes, res.value.0.nodes)
    ensures v in Values(sl, order) && sl.curLevel < MaxLevel ==>
              res.Ok? && forall p :: 0 <= p < |order| && FirstHolder(Values(sl, order), v, p) ==>
                && HandleAt(order, p) < |res.value.0.nodes| && 0 < |res.value.0.nodes[HandleAt(order, p)].links|
                && 0 < |sl.nodes[order[p]].links|
                && res.value.0.nodes[HandleAt(order, p)].links[0].forward == sl.nodes[order[p]].links[0].forward
    ensures v in Values(sl, order) && sl.curLevel < MaxLevel && |order| == 1 ==>
              res.Ok? && forall o :: !Valid(res.value.0, o)
  {
    var found := Contains(sl, order, v);
    if !found {
      return Ok((sl, None));
    }
    if sl.curLevel == MaxLevel {
      return Err("index out of bounds");
    }
    var update, rank, p0, x := Locate(sl, order, v);
    // Level `cur_level`: the head has no successor there, so the head is recorded.
    assert sl.nodes[HeadHandle].links[sl.curLevel].forward == None;
    update := update[sl.curLevel := HeadHandle];
    assert PathTo(sl, order, p0, update, rank, sl.curLevel);
    AsWrittenFrame(sl, order, p0, update, rank);
    var nodes := RewireByValue(sl.nodes, update, v, sl.curLevel + 1);
    var sl' := ZSkipList(nodes, sl.tail, sl.curLevel, sl.len - 1);
    res := Ok((sl', sl.nodes[x].val));
    // The first holder of `v` leaves level 0: its predecessor takes over its link.
    assert update[0] == HandleAt(order, p0);
    assert nodes[update[0]].links[0].forward == sl.nodes[x].links[0].forward;
    forall p | 0 <= p < |order| && FirstHolder(Values(sl, order), v, p)
      ensures p == p0
    {
      assert FirstHolder(Values(sl, order), v, p0);
      FirstHolderUnique(Values(sl, order), v, p, p0);
    }
    if |order| == 1 {
      assert sl.tail == order[0] != HeadHandle;
      forall o
        ensures !Valid(sl', o)
      {
        StaleTail(sl', o);
      }
    }
  }
}

=== FILE: zskiplist_insert.dfy ===
/** `zsl_insert` (`zskiplist.rs`): the key-ordered search that records, per
    level, the last node before the new pair and its rank; raising the list's
    level; splicing the new node in on its own levels and widening the spans
    that pass over it on the levels above; and fixing the backward links and
    the tail. */
module ZSkipListInsert {
  import opened Wrappers
  import opened ZSkipNode
  import opened ZSkipListState
  import opened ZSkipListRank

  /** Reference definition: `k` placed into the sorted sequence `es` after
      every pair strictly before it. */
  ghost function InsertSorted(es: seq<Entry>, k: Entry): seq<Entry> {
    if |es| == 0 then [k]
    else if EntryLt(es[0], k) then [es[0]] + InsertSorted(es[1..], k)
    else [k] + es
  }

  /** When the first `p` pairs are exactly those before `k`, inserting `k`
      puts it at index `p`. */
  lemma {:induction false} InsertSortedAt(es: seq<Entry>, k: Entry, p: nat)
    requires p <= |es|
    requires forall t :: 0 <= t < p ==> EntryLt(es[t], k)
    requires forall t :: p <= t < |es| ==> !EntryLt(es[t], k)
    ensures InsertSorted(es, k) == es[..p] + [k] + es[p..]
    decreases |es|
  {
    if |es| == 0 {
    } else if p == 0 {
      assert !EntryLt(es[0], k);
    } else {
      assert EntryLt(es[0], k);
      InsertSortedAt(es[1..], k, p - 1);
      assert es[1..][..p - 1] == es[1..p];
      assert es[1..][p - 1..] == es[p..];
      assert [es[0]] + es[1..p] == es[..p];
    }
  }

  /** Position `r` is where the level-`j` links change for a pair going in
      at 0-based index `p0`: at or before `p0`, tall enough for level `j`,
      with a level-`j` link that reaches past `p0` or nowhere. */
  ghost predicate UpdateAt(sl: ZSkipList, order: seq<Handle>, p0: nat, r: nat, j: nat)
    requires Valid(sl, order)
  {
    && r <= p0 <= |order| && j < Active(sl, order, r)
    && (LinkAt(sl, order, r, j).forward.None? || r + LinkAt(sl, order, r, j).span > p0)
  }

  /** `update` and `rank` hold, for every level below `top`, the node where
      that level changes and its position. */
  ghost predicate PathTo(sl: ZSkipList, order: seq<Handle>, p0: nat, update: seq<Handle>, rank: seq<nat>, top: nat)
    requires Valid(sl, order)
  {
    && |update| == MaxLevel && |rank| == MaxLevel && top <= MaxLevel
    && forall j :: 0 <= j < top ==> UpdateAt(sl, order, p0, rank[j], j) && update[j] == HandleAt(order, rank[j])
  }

  /** What the descent leaves on level `j`: position `r`, behind `k`, in front
      of the first key at or after `k`. */
  ghost predicate Searched(sl: ZSkipList, order: seq<Handle>, k: Entry, r: nat, j: nat)
    requires Valid(sl, order)
  {
    r <= |order| && j < Active(sl, order, r) && BeforeKey(sl, order, r, k) && StopsAtKey(sl, order, r, j, k)
  }

  lemma SearchedIsUpdate(sl: ZSkipList, order: seq<Handle>, k: Entry, p0: nat, r: nat, j: nat)
    requires Valid(sl, order) && p0 <= |order|
    requires forall t :: 0 <= t < p0 ==> EntryLt(Entries(sl, order)[t], k)
    requires forall t :: p0 <= t < |order| ==> !EntryLt(Entries(sl, order)[t], k)
    requires Searched(sl, order, k, r, j)
    ensures UpdateAt(sl, order, p0, r, j)
  {
    if r > 0 {
      assert EntryLt(Entries(sl, order)[r - 1], k);
    }
    if sl.nodes[HandleAt(order, r)].links[j].forward.Some? {
      var q := FollowLink(sl, order, r, j);
      assert !EntryLt(Entries(sl, order)[q - 1], k);
    }
  }

  /** The search half of `zsl_insert`: descend from the top level; on each
      level start from the rank reached on the level above, move right past
      keys before `k` adding spans, and record the node and its rank. */
  method SearchPath(sl: ZSkipList, ghost order: seq<Handle>, k: Entry)
    returns (update: seq<Handle>, rank: seq<nat>, ghost p0: nat)
    requires Valid(sl, order)
    ensures p0 <= |order|
    ensures forall t :: 0 <= t < p0 ==> EntryLt(Entries(sl, order)[t], k)
    ensures forall t :: p0 <= t < |order| ==> !EntryLt(Entries(sl, order)[t], k)
    ensures PathTo(sl, order, p0, update, rank, sl.curLevel)
    ensures forall j :: sl.curLevel <= j < MaxLevel ==> update[j] == HeadHandle && rank[j] == 0
    ensures rank[0] == p0
  {
    update := seq(MaxLevel, _ => HeadHandle);
    rank := seq(MaxLevel, _ => 0);
    var x := HeadHandle;
    ghost var pos: nat := 0;
    var i := sl.curLevel;
    while i > 0
      invariant 0 <= i <= sl.curLevel
      invariant |update| == MaxLevel && |rank| == MaxLevel
      invariant forall j :: sl.curLevel <= j < MaxLevel ==> update[j] == HeadHandle && rank[j] == 0
      invariant pos <= |order| && x == HandleAt(order, pos) && BeforeKey(sl, order, pos, k)
      invariant i <= Active(sl, order, pos)
      invariant pos == if i == sl.curLevel then 0 else rank[i]
      invariant forall j :: i <= j < sl.curLevel ==> Searched(sl, order, k, rank[j], j) && update[j] == HandleAt(order, rank[j])
    {
      i := i - 1;
      var start := if i == sl.curLevel - 1 then 0 else rank[i + 1];
      var step := SkipKeysBelow(sl, order, x, start, i, k);
      x, pos := step.0, step.1;
      assert Searched(sl, order, k, pos, i);
      rank := rank[i := step.1];
      update := update[i := x];
    }
    p0 := pos;
    SearchedPath(sl, order, k, p0, update, rank);
  }

  /** Once every level is searched, the level-0 stop is the insertion index
      and every recorded position is where its level changes. */
  lemma SearchedPath(sl: ZSkipList, order: seq<Handle>, k: Entry, p0: nat, update: seq<Handle>, rank: seq<nat>)
    requires Valid(sl, order) && |update| == MaxLevel && |rank| == MaxLevel
    requires p0 <= |order| && BeforeKey(sl, order, p0, k) && p0 == if sl.curLevel == 0 then 0 else rank[0]
    requires forall j :: 0 <= j < sl.curLevel ==> Searched(sl, order, k, rank[j], j) && update[j] == HandleAt(order, rank[j])
    ensures forall t :: 0 <= t < p0 ==> EntryLt(Entries(sl, order)[t], k)
    ensures forall t :: p0 <= t < |order| ==> !EntryLt(Entries(sl, order)[t], k)
    ensures PathTo(sl, order, p0, update, rank, sl.curLevel)
  {
    NonEmptyHasLevel(sl, order);
    if sl.curLevel > 0 {
      assert Searched(sl, order, k, rank[0], 0);
    }
    KeyPartition(sl, order, p0, k);
    forall j | 0 <= j < sl.curLevel
      ensures UpdateAt(sl, order, p0, rank[j], j)
    {
      SearchedIsUpdate(sl, order, k, p0, rank[j], j);
    }
  }

  /** The head after `zsl_insert` has set the span of each level in
      [curLevel, top) to the length; nothing else about it changes. */
  ghost predicate HeadRaised(sl: ZSkipList, head: Node, top: nat)
    requires |sl.nodes| >= 1 && |sl.nodes[HeadHandle].links| == MaxLevel
  {
    var old_ := sl.nodes[HeadHandle];
    && head.val == old_.val && head.level == old_.level && head.score == old_.score
    && head.backward == old_.backward && |head.links| == MaxLevel
    && forall m :: 0 <= m < MaxLevel ==>
         head.links[m] == if sl.curLevel <= m < top then old_.links[m].(span := sl.len) else old_.links[m]
  }

  /** Raising the level keeps the list valid: the new head levels are empty
      links spanning the whole list, and no node reaches them. The recorded
      path stays correct, with the head on the new levels. */
  lemma RaisedValid(sl: ZSkipList, order: seq<Handle>, sl1: ZSkipList, p0: nat, update: seq<Handle>, rank: seq<nat>)
    requires Valid(sl, order) && sl.curLevel <= sl1.curLevel <= MaxLevel
    requires |sl1.nodes| == |sl.nodes| && sl1.tail == sl.tail && sl1.len == sl.len
    requires forall h :: 1 <= h < |sl.nodes| ==> sl1.nodes[h] == sl.nodes[h]
    requires HeadRaised(sl, sl1.nodes[HeadHandle], sl1.curLevel)
    requires p0 <= |order| && PathTo(sl, order, p0, update, rank, sl.curLevel)
    requires forall j :: sl.curLevel <= j < MaxLevel ==> update[j] == HeadHandle && rank[j] == 0
    ensures Valid(sl1, order) && Entries(sl1, order) == Entries(sl, order)
    ensures PathTo(sl1, order, p0, update, rank, sl1.curLevel)
  {
    forall t | 0 <= t < |order|
      ensures sl1.nodes[order[t]] == sl.nodes[order[t]]
      ensures NodeShaped(sl1.nodes[order[t]], sl1.curLevel)
    {
      assert NodeShaped(sl.nodes[order[t]], sl.curLevel);
    }
    assert Shaped(sl1, order);
    assert Entries(sl1, order) == Entries(sl, order);
    forall t | 1 <= t <= |order|
      ensures Hgt(sl1, order, t) == Hgt(sl, order, t) <= sl.curLevel
    {
      assert NodeShaped(sl.nodes[order[t - 1]], sl.curLevel);
    }
    forall p, i | 0 <= p <= |order| && 0 <= i < Active(sl1, order, p)
      ensures LinkOk(sl1, order, p, i)
    {
      if p > 0 || i < sl.curLevel {
        assert LinkOk(sl, order, p, i);
      }
      RaisedLink(sl, order, sl1, p, i);
    }
    forall j | 0 <= j < sl1.curLevel
      ensures UpdateAt(sl1, order, p0, rank[j], j) && update[j] == HandleAt(order, rank[j])
    {
      if j < sl.curLevel {
        assert UpdateAt(sl, order, p0, rank[j], j);
      }
    }
  }

  lemma RaisedLink(sl: ZSkipList, order: seq<Handle>, sl1: ZSkipList, p: nat, i: nat)
    requires Shaped(sl, order) && Shaped(sl1, order)
    requires forall t :: 1 <= t <= |order| ==> Hgt(sl1, order, t) == Hgt(sl, order, t) <= sl.curLevel
    requires p <= |order| && i < Active(sl1, order, p)
    requires p > 0 || i < sl.curLevel ==>
      i < Active(sl, order, p) && LinkOk(sl, order, p, i) && LinkAt(sl1, order, p, i) == LinkAt(sl, order, p, i)
    requires p == 0 && i >= sl.curLevel ==> LinkAt(sl1, order, p, i) == Link(None, |order|)
    ensures LinkOk(sl1, order, p, i)
  {
  }

  /** The level-raising step of `zsl_insert`: for each level from the
      current one up to the drawn `level`, point the path at the head with
      rank 0 and set the head's span there to the length. */
  method RaiseLevel(sl: ZSkipList, ghost order: seq<Handle>, level: nat,
                    update: seq<Handle>, rank: seq<nat>, ghost p0: nat)
    returns (sl1: ZSkipList, update': seq<Handle>, rank': seq<nat>)
    requires Valid(sl, order) && level <= MaxLevel
    requires p0 <= |order| && PathTo(sl, order, p0, update, rank, sl.curLevel)
    requires forall j :: sl.curLevel <= j < MaxLevel ==> update[j] == HeadHandle && rank[j] == 0
    ensures Valid(sl1, order) && Entries(sl1, order) == Entries(sl, order)
    ensures sl1.curLevel == if level > sl.curLevel then level else sl.curLevel
    ensures |sl1.nodes| == |sl.nodes| && sl1.len == sl.len
    ensures PathTo(sl1, order, p0, update', rank', sl1.curLevel)
    ensures rank' == rank
  {
    var nodes := sl.nodes;
    update', rank' := update, rank;
    var curLevel := sl.curLevel;
    if level > sl.curLevel {
      var i := sl.curLevel;
      while i < level
        invariant sl.curLevel <= i <= level
        invariant |nodes| == |sl.nodes| && forall h :: 1 <= h < |nodes| ==> nodes[h] == sl.nodes[h]
        invariant HeadRaised(sl, nodes[HeadHandle], i)
        invariant update' == update && rank' == rank
      {
        rank' := rank'[i := 0];
        update' := update'[i := HeadHandle];
        var head := nodes[HeadHandle];
        nodes := nodes[HeadHandle := head.(links := head.links[i := head.links[i].(span := sl.len)])];
        i := i + 1;
      }
      curLevel := level;
    }
    sl1 := ZSkipList(nodes, sl.tail, curLevel, sl.len);
    RaisedValid(sl, order, sl1, p0, update', rank');
  }

  /** What the splice needs to be well defined on the arena `n1`, whose last
      handle is the new node of level `level`: every recorded node below
      `top` is an old node with a link on its level, no recorded rank passes
      `rank[0]`, and on the new node's levels the old span covers the
      distance to `rank[0]`. */
  ghost predicate SpliceFrame(n1: seq<Node>, update: seq<Handle>, rank: seq<nat>, level: nat, top: nat) {
    && |n1| >= 2 && |update| == MaxLevel && |rank| == MaxLevel
    && 1 <= level <= top <= MaxLevel
    && |n1[|n1| - 1].links| == level + 1
    && n1[|n1| - 1].links[level] == Link(None, 0)
    && (forall j :: 0 <= j < top ==>
          && update[j] < |n1| - 1 && j < |n1[update[j]].links| && rank[j] <= rank[0]
          && (update[j] == HeadHandle || j < n1[update[j]].level))
    && (forall j :: 0 <= j < level ==> rank[0] - rank[j] <= n1[update[j]].links[j].span)
  }

  /** The level-`j` link of handle `h` once `zsl_insert` has run: the new
      node takes over the recorded node's link, less the distance from that
      node to the new one; the recorded node links to the new node one step
      past that distance; above the new node's levels the recorded node's
      span grows by one. Every other link is as before. */
  ghost function SplicedLink(n1: seq<Node>, update: seq<Handle>, rank: seq<nat>, level: nat, top: nat,
                             h: Handle, j: nat): Link
    requires SpliceFrame(n1, update, rank, level, top) && h < |n1| && j < |n1[h].links|
  {
    var node := |n1| - 1;
    if h == node then
      if j < level then
        var u := n1[update[j]].links[j];
        Link(u.forward, u.span - (rank[0] - rank[j]))
      else
        n1[h].links[j]
    else if j < top && h == update[j] then
      if j < level then Link(Some(node), rank[0] - rank[j] + 1)
      else n1[h].links[j].(span := n1[h].links[j].span + 1)
    else
      n1[h].links[j]
  }

  /** Node `a` is `b` with (possibly) other links. */
  predicate SameButLinks(a: Node, b: Node) {
    a.val == b.val && a.level == b.level && a.score == b.score && a.backward == b.backward
    && |a.links| == |b.links|
  }

  /** The arena `nodes` has the links of `zsl_insert` on levels below `i`
      and those of `n1` from level `i` up. */
  ghost predicate SplicedBelow(n1: seq<Node>, update: seq<Handle>, rank: seq<nat>, level: nat, top: nat,
                               nodes: seq<Node>, i: nat)
    requires SpliceFrame(n1, update, rank, level, top)
  {
    && |nodes| == |n1|
    && (forall h :: 0 <= h < |n1| ==> SameButLinks(nodes[h], n1[h]))
    && (forall h, j :: 0 <= h < |n1| && 0 <= j < |n1[h].links| ==>
          nodes[h].links[j] == if j < i then SplicedLink(n1, update, rank, level, top, h, j) else n1[h].links[j])
  }

  /** The first loop after the search in `zsl_insert`: on each of the new
      node's levels, the new node takes the recorded node's forward link and
      the rest of its span, and the recorded node now links to the new node. */
  method LinkNewNode(n1: seq<Node>, update: seq<Handle>, rank: seq<nat>, level: nat, ghost top: nat)
    returns (nodes: seq<Node>)
    requires SpliceFrame(n1, update, rank, level, top)
    ensures SplicedBelow(n1, update, rank, level, top, nodes, level)
  {
    var node := |n1| - 1;
    nodes := n1;
    var i := 0;
    while i < level
      invariant 0 <= i <= level
      invariant SplicedBelow(n1, update, rank, level, top, nodes, i)
    {
      var u := update[i];
      var ul := nodes[u].links[i];
      var nn := nodes[node];
      nodes := nodes[node := nn.(links := nn.links[i := Link(ul.forward, ul.span - (rank[0] - rank[i]))])];
      var un := nodes[u];
      nodes := nodes[u := un.(links := un.links[i := Link(Some(node), (rank[0] - rank[i]) + 1)])];
      i := i + 1;
    }
  }

  /** The second loop: on the levels from the new node's up to the list's,
      the recorded node's link now passes over one more node. */
  method WidenSpans(n1: seq<Node>, update: seq<Handle>, rank: seq<nat>, level: nat, top: nat,
                    nodes0: seq<Node>)
    returns (nodes: seq<Node>)
    requires SpliceFrame(n1, update, rank, level, top)
    requires SplicedBelow(n1, update, rank, level, top, nodes0, level)
    ensures SplicedBelow(n1, update, rank, level, top, nodes, top)
  {
    nodes := nodes0;
    var i := level;
    while i < top
      invariant level <= i <= top
      invariant SplicedBelow(n1, update, rank, level, top, nodes, i)
    {
      var u := update[i];
      var un := nodes[u];
      nodes := nodes[u := un.(links := un.links[i := un.links[i].(span := un.links[i].span + 1)])];
      i := i + 1;
    }
  }

  /** The end of `zsl_insert`: the new node points back at the recorded
      level-0 node (nothing when that is the head), and the node after it,
      if any, points back at the new node. */
  function FixEnds(n1: seq<Node>, update: seq<Handle>, rank: seq<nat>, level: nat, top: nat,
                   nodes: seq<Node>): (r: seq<Node>)
    requires SpliceFrame(n1, update, rank, level, top)
    requires SplicedBelow(n1, update, rank, level, top, nodes, top)
    ensures |r| == |nodes|
    ensures forall h :: 0 <= h < |r| ==> r[h].links == nodes[h].links && r[h].val == nodes[h].val
                                          && r[h].level == nodes[h].level && r[h].score == nodes[h].score
    ensures forall h :: 0 <= h < |r| ==>
              r[h].backward ==
                if h == |n1| - 1 then (if update[0] == HeadHandle then None else Some(update[0]))
                else if nodes[|n1| - 1].links[0].forward == Some(h) then Some(|n1| - 1)
                else nodes[h].backward
  {
    var node := |n1| - 1;
    var nn := nodes[node];
    var r := nodes[node := nn.(backward := if update[0] == HeadHandle then None else Some(update[0]))];
    match nn.links[0].forward
    case Some(f) =>
      if f < |r| && f != node then r[f := r[f].(backward := Some(node))] else r
    case None => r
  }

  /** The level-0 order with `node` placed at 0-based index `p0`. */
  function Ins(order: seq<Handle>, p0: nat, node: Handle): (o: seq<Handle>)
    requires p0 <= |order|
    ensures |o| == |order| + 1 && o[p0] == node
    ensures forall t :: 0 <= t < p0 ==> o[t] == order[t]
    ensures forall t :: p0 < t <= |order| ==> o[t] == order[t - 1]
  {
    order[..p0] + [node] + order[p0..]
  }

  /** The arena before splicing: the old nodes and the new node at the end. */
  function NewArena(sl: ZSkipList, k: Entry, level: nat): seq<Node> {
    sl.nodes + [ZSkipNode.New(k.value, level, k.score)]
  }

  /** `sl2` is what `zsl_insert` makes of `sl1` (the list after the level is
      raised) when the pair `k` goes in with the drawn `level`: links as
      spliced, the new node's backward link to the recorded level-0 node
      (none when that is the head), the node after it pointing back to it,
      and the tail moved to it when nothing follows. */
  ghost predicate Inserted(sl1: ZSkipList, update: seq<Handle>, rank: seq<nat>, level: nat, k: Entry, sl2: ZSkipList)
    requires SpliceFrame(NewArena(sl1, k, level), update, rank, level, sl1.curLevel)
  {
    var n1 := NewArena(sl1, k, level);
    var node := |sl1.nodes|;
    && |sl2.nodes| == |n1| && sl2.curLevel == sl1.curLevel && sl2.len == sl1.len + 1
    && (forall h :: 0 <= h < |n1| ==>
          && sl2.nodes[h].val == n1[h].val && sl2.nodes[h].level == n1[h].level
          && sl2.nodes[h].score == n1[h].score && |sl2.nodes[h].links| == |n1[h].links|)
    && (forall h, j :: 0 <= h < |n1| && 0 <= j < |n1[h].links| ==>
          sl2.nodes[h].links[j] == SplicedLink(n1, update, rank, level, sl1.curLevel, h, j))
    && (forall h :: 0 <= h < |n1| ==>
          sl2.nodes[h].backward ==
            if h == node then (if update[0] == HeadHandle then None else Some(update[0]))
            else if sl2.nodes[node].links[0].forward == Some(h) then Some(node)
            else n1[h].backward)
    && sl2.tail == if sl2.nodes[node].links[0].forward.None? then node else sl1.tail
  }

  /** Distinct positions hold distinct handles. */
  lemma HandleAtInjective(sl: ZSkipList, order: seq<Handle>, a: nat, b: nat)
    requires Shaped(sl, order) && a <= |order| && b <= |order|
    ensures HandleAt(order, a) == HandleAt(order, b) <==> a == b
  {
  }

  /** Heights after the insertion: positions up to `p0` keep theirs, the new
      node at `p0 + 1` has `level`, and later positions move up by one. */
  ghost predicate HgtShifted(sl1: ZSkipList, order: seq<Handle>, sl2: ZSkipList, o2: seq<Handle>, p0: nat, level: nat)
    requires Shaped(sl1, order) && Shaped(sl2, o2) && |o2| == |order| + 1 && p0 <= |order|
  {
    forall t {:trigger Hgt(sl2, o2, t)} :: 1 <= t <= |o2| ==>
      Hgt(sl2, o2, t) == if t <= p0 then Hgt(sl1, order, t) else if t == p0 + 1 then level else Hgt(sl1, order, t - 1)
  }

  /** The new node's links: it takes over the recorded node's link on level
      `i`, which reaches past the insertion point, minus the distance from
      the recorded node at `r` to the insertion point. */
  lemma CaseNewNode(sl1: ZSkipList, order: seq<Handle>, sl2: ZSkipList, o2: seq<Handle>, p0: nat, level: nat, r: nat, i: nat)
    requires Shaped(sl1, order) && Shaped(sl2, o2) && p0 <= |order| && |o2| == |order| + 1
    requires o2 == Ins(order, p0, o2[p0])
    requires HgtShifted(sl1, order, sl2, o2, p0, level) && i < level
    requires r <= p0 && i < Active(sl1, order, r) && LinkOk(sl1, order, r, i)
    requires LinkAt(sl1, order, r, i).forward.None? || r + LinkAt(sl1, order, r, i).span > p0
    requires i < Active(sl2, o2, p0 + 1)
    requires LinkAt(sl2, o2, p0 + 1, i).forward == LinkAt(sl1, order, r, i).forward
    requires LinkAt(sl2, o2, p0 + 1, i).span + p0 == LinkAt(sl1, order, r, i).span + r
    ensures LinkOk(sl2, o2, p0 + 1, i)
  {
    var l1, l2 := LinkAt(sl1, order, r, i), LinkAt(sl2, o2, p0 + 1, i);
    var end := if l1.forward.None? then |order| + 1 else r + l1.span;
    forall t | p0 + 1 < t < end + 1
      ensures Hgt(sl2, o2, t) <= i
    {
      assert Hgt(sl2, o2, t) == Hgt(sl1, order, t - 1);
    }
    if l1.forward.Some? {
      assert o2[end] == order[end - 1];
      assert Hgt(sl2, o2, end + 1) == Hgt(sl1, order, end);
    }
  }

  /** The recorded node on one of the new node's levels now links to it. */
  lemma CaseRecordedLinks(sl1: ZSkipList, order: seq<Handle>, sl2: ZSkipList, o2: seq<Handle>, p0: nat, level: nat, r: nat, i: nat)
    requires Shaped(sl1, order) && Shaped(sl2, o2) && p0 <= |order| && |o2| == |order| + 1
    requires o2 == Ins(order, p0, o2[p0])
    requires HgtShifted(sl1, order, sl2, o2, p0, level) && i < level
    requires r <= p0 && i < Active(sl1, order, r) && LinkOk(sl1, order, r, i)
    requires LinkAt(sl1, order, r, i).forward.None? || r + LinkAt(sl1, order, r, i).span > p0
    requires i < Active(sl2, o2, r)
    requires LinkAt(sl2, o2, r, i) == Link(Some(o2[p0]), p0 - r + 1)
    ensures LinkOk(sl2, o2, r, i)
  {
    forall t | r < t < p0 + 1
      ensures Hgt(sl2, o2, t) <= i
    {
      assert Hgt(sl2, o2, t) == Hgt(sl1, order, t);
    }
    assert Hgt(sl2, o2, p0 + 1) == level;
  }

  /** The recorded node above the new node's levels passes over one more. */
  lemma CaseRecordedWidens(sl1: ZSkipList, order: seq<Handle>, sl2: ZSkipList, o2: seq<Handle>, p0: nat, level: nat, r: nat, i: nat)
    requires Shaped(sl1, order) && Shaped(sl2, o2) && p0 <= |order| && |o2| == |order| + 1
    requires o2 == Ins(order, p0, o2[p0])
    requires HgtShifted(sl1, order, sl2, o2, p0, level) && level <= i
    requires r <= p0 && i < Active(sl1, order, r) && LinkOk(sl1, order, r, i)
    requires LinkAt(sl1, order, r, i).forward.None? || r + LinkAt(sl1, order, r, i).span > p0
    requires i < Active(sl2, o2, r)
    requires LinkAt(sl2, o2, r, i) == LinkAt(sl1, order, r, i).(span := LinkAt(sl1, order, r, i).span + 1)
    ensures LinkOk(sl2, o2, r, i)
  {
    var l1 := LinkAt(sl1, order, r, i);
    var end := if l1.forward.None? then |order| + 1 else r + l1.span;
    forall t | r < t < end + 1
      ensures Hgt(sl2, o2, t) <= i
    {
      if t > p0 + 1 {
        assert Hgt(sl2, o2, t) == Hgt(sl1, order, t - 1);
      } else if t <= p0 {
        assert Hgt(sl2, o2, t) == Hgt(sl1, order, t);
      }
    }
    if l1.forward.Some? {
      assert o2[end] == order[end - 1];
      assert Hgt(sl2, o2, end + 1) == Hgt(sl1, order, end);
    }
  }

  /** A link before the recorded node of its level ends at or before it, so
      it is untouched by the insertion. */
  lemma CaseBefore(sl1: ZSkipList, order: seq<Handle>, sl2: ZSkipList, o2: seq<Handle>, p0: nat, level: nat,
                   p: nat, r: nat, i: nat)
    requires Shaped(sl1, order) && Shaped(sl2, o2) && p0 <= |order| && |o2| == |order| + 1
    requires o2 == Ins(order, p0, o2[p0])
    requires HgtShifted(sl1, order, sl2, o2, p0, level)
    requires r <= p0 && i < Active(sl1, order, r) && LinkOk(sl1, order, r, i)
    requires LinkAt(sl1, order, r, i).forward.None? || r + LinkAt(sl1, order, r, i).span > p0
    requires p <= p0 && p != r && i < Active(sl1, order, p) && LinkOk(sl1, order, p, i)
    requires i < Active(sl2, o2, p) && LinkAt(sl2, o2, p, i) == LinkAt(sl1, order, p, i)
    ensures LinkOk(sl2, o2, p, i)
  {
    if 0 < p {
      assert Active(sl1, order, p) == Hgt(sl1, order, p);
    }
    assert p < r;
    assert 0 < r && Hgt(sl1, order, r) > i;
    var l := LinkAt(sl1, order, p, i);
    assert l.forward.Some? && p + l.span <= r;
    forall t | p < t <= p + l.span
      ensures Hgt(sl2, o2, t) == Hgt(sl1, order, t)
    {
    }
    assert o2[p + l.span - 1] == order[p + l.span - 1];
  }

  /** A link after the insertion point keeps its target, one position on. */
  lemma CaseAfter(sl1: ZSkipList, order: seq<Handle>, sl2: ZSkipList, o2: seq<Handle>, p0: nat, level: nat, p2: nat, i: nat)
    requires Shaped(sl1, order) && Shaped(sl2, o2) && p0 <= |order| && |o2| == |order| + 1
    requires o2 == Ins(order, p0, o2[p0])
    requires HgtShifted(sl1, order, sl2, o2, p0, level)
    requires p0 + 1 < p2 <= |o2| && i < Active(sl1, order, p2 - 1) && LinkOk(sl1, order, p2 - 1, i)
    requires i < Active(sl2, o2, p2) && LinkAt(sl2, o2, p2, i) == LinkAt(sl1, order, p2 - 1, i)
    ensures LinkOk(sl2, o2, p2, i)
  {
    var l := LinkAt(sl1, order, p2 - 1, i);
    var end := if l.forward.None? then |order| + 1 else p2 - 1 + l.span;
    forall t | p2 < t < end + 1
      ensures Hgt(sl2, o2, t) <= i
    {
      assert Hgt(sl2, o2, t) == Hgt(sl1, order, t - 1);
    }
    if l.forward.Some? {
      assert o2[end] == order[end - 1];
      assert Hgt(sl2, o2, end + 1) == Hgt(sl1, order, end);
    }
  }

  /** Everything the link proofs need about one insertion: `sl1` is valid,
      the path recorded for index `p0` is `update`/`rank`, `sl2` is the
      spliced list and `o2` its level-0 order. */
  ghost predicate InsertBase(sl1: ZSkipList, order: seq<Handle>, p0: nat, update: seq<Handle>, rank: seq<nat>,
                             level: nat, k: Entry, sl2: ZSkipList, o2: seq<Handle>)
  {
    && Valid(sl1, order) && p0 <= |order|
    && PathTo(sl1, order, p0, update, rank, sl1.curLevel) && rank[0] == p0
    && SpliceFrame(NewArena(sl1, k, level), update, rank, level, sl1.curLevel)
    && Inserted(sl1, update, rank, level, k, sl2)
    && |o2| == |order| + 1 && o2 == Ins(order, p0, |sl1.nodes|)
  }

  /** `InsertBase` together with the shape of the new list. */
  ghost predicate InsertStep(sl1: ZSkipList, order: seq<Handle>, p0: nat, update: seq<Handle>, rank: seq<nat>,
                             level: nat, k: Entry, sl2: ZSkipList, o2: seq<Handle>)
  {
    && InsertBase(sl1, order, p0, update, rank, level, k, sl2, o2)
    && Shaped(sl2, o2) && HgtShifted(sl1, order, sl2, o2, p0, level)
  }

  /** Each node along the new order is well shaped: the new node is a fresh
      handle with its own level, and no splice touches a node's top slot. */
  lemma InsertedNodeShaped(sl1: ZSkipList, order: seq<Handle>, p0: nat, update: seq<Handle>, rank: seq<nat>,
                           level: nat, k: Entry, sl2: ZSkipList, o2: seq<Handle>, t: nat)
    requires Shaped(sl1, order) && p0 <= |order| && level <= sl1.curLevel
    requires SpliceFrame(NewArena(sl1, k, level), update, rank, level, sl1.curLevel)
    requires Inserted(sl1, update, rank, level, k, sl2)
    requires |o2| == |order| + 1 && o2 == Ins(order, p0, |sl1.nodes|) && t < |o2|
    ensures 1 <= o2[t] < |sl2.nodes| && NodeShaped(sl2.nodes[o2[t]], sl2.curLevel)
    ensures sl2.nodes[o2[t]].level == if t == p0 then level else sl1.nodes[o2[t]].level
  {
    var n1 := NewArena(sl1, k, level);
    var h := o2[t];
    if t != p0 {
      var t1 := if t < p0 then t else t - 1;
      assert h == order[t1];
      assert NodeShaped(sl1.nodes[h], sl1.curLevel);
      assert n1[h] == sl1.nodes[h];
    }
    assert sl2.nodes[h].links[n1[h].level] == SplicedLink(n1, update, rank, level, sl1.curLevel, h, n1[h].level);
  }

  /** The new order holds distinct handles. */
  lemma InsertedDistinct(sl1: ZSkipList, order: seq<Handle>, p0: nat, o2: seq<Handle>)
    requires Shaped(sl1, order) && p0 <= |order|
    requires |o2| == |order| + 1 && o2 == Ins(order, p0, |sl1.nodes|)
    ensures forall a, b :: 0 <= a < b < |o2| ==> o2[a] != o2[b]
  {
    forall a, b | 0 <= a < b < |o2|
      ensures o2[a] != o2[b]
    {
      if a != p0 && b != p0 {
        var a1, b1 := if a < p0 then a else a - 1, if b < p0 then b else b - 1;
        assert o2[a] == order[a1] && o2[b] == order[b1];
      } else if a == p0 {
        assert o2[b] == order[b - 1];
      } else {
        assert o2[a] == order[a];
      }
    }
  }

  /** The spliced arena is well shaped along the new order, with the heights
      shifted past the insertion point. */
  lemma InsertedShaped(sl1: ZSkipList, order: seq<Handle>, p0: nat, update: seq<Handle>, rank: seq<nat>,
                       level: nat, k: Entry, sl2: ZSkipList, o2: seq<Handle>)
    requires Shaped(sl1, order) && p0 <= |order| && level <= sl1.curLevel
    requires SpliceFrame(NewArena(sl1, k, level), update, rank, level, sl1.curLevel)
    requires Inserted(sl1, update, rank, level, k, sl2)
    requires |o2| == |order| + 1 && o2 == Ins(order, p0, |sl1.nodes|)
    ensures Shaped(sl2, o2) && HgtShifted(sl1, order, sl2, o2, p0, level)
  {
    forall t | 0 <= t < |o2|
      ensures 1 <= o2[t] < |sl2.nodes| && NodeShaped(sl2.nodes[o2[t]], sl2.curLevel)
      ensures sl2.nodes[o2[t]].level == if t == p0 then level else sl1.nodes[o2[t]].level
    {
      InsertedNodeShaped(sl1, order, p0, update, rank, level, k, sl2, o2, t);
    }
    InsertedDistinct(sl1, order, p0, o2);
    assert Shaped(sl2, o2);
    forall t | 1 <= t <= |o2|
      ensures Hgt(sl2, o2, t) == if t <= p0 then Hgt(sl1, order, t) else if t == p0 + 1 then level else Hgt(sl1, order, t - 1)
    {
    }
  }

  /** The level-`i` link at position `p2` of the new list, in terms of the
      splice. */
  lemma SplicedAt(sl1: ZSkipList, order: seq<Handle>, p0: nat, update: seq<Handle>, rank: seq<nat>,
                  level: nat, k: Entry, sl2: ZSkipList, o2: seq<Handle>, p2: nat, i: nat)
    requires InsertStep(sl1, order, p0, update, rank, level, k, sl2, o2)
    requires p2 <= |o2| && i < Active(sl2, o2, p2)
    ensures HandleAt(o2, p2) < |NewArena(sl1, k, level)|
    ensures i < |NewArena(sl1, k, level)[HandleAt(o2, p2)].links|
    ensures LinkAt(sl2, o2, p2, i)
         == SplicedLink(NewArena(sl1, k, level), update, rank, level, sl1.curLevel, HandleAt(o2, p2), i)
  {
    var h := HandleAt(o2, p2);
    if p2 > 0 {
      assert NodeShaped(sl2.nodes[o2[p2 - 1]], sl2.curLevel);
    }
  }

  /** The new node's links are correct. */
  lemma NewNodeLink(sl1: ZSkipList, order: seq<Handle>, p0: nat, update: seq<Handle>, rank: seq<nat>,
                    level: nat, k: Entry, sl2: ZSkipList, o2: seq<Handle>, i: nat)
    requires InsertStep(sl1, order, p0, update, rank, level, k, sl2, o2)
    requires i < Active(sl2, o2, p0 + 1)
    ensures LinkOk(sl2, o2, p0 + 1, i)
  {
    var n1 := NewArena(sl1, k, level);
    SplicedAt(sl1, order, p0, update, rank, level, k, sl2, o2, p0 + 1, i);
    assert HandleAt(o2, p0 + 1) == |sl1.nodes|;
    assert i < level;
    assert UpdateAt(sl1, order, p0, rank[i], i) && update[i] == HandleAt(order, rank[i]);
    assert n1[update[i]] == sl1.nodes[update[i]];
    CaseNewNode(sl1, order, sl2, o2, p0, level, rank[i], i);
  }

  /** The links of the head and of the nodes before the new one are correct. */
  lemma EarlierLink(sl1: ZSkipList, order: seq<Handle>, p0: nat, update: seq<Handle>, rank: seq<nat>,
                    level: nat, k: Entry, sl2: ZSkipList, o2: seq<Handle>, p2: nat, i: nat)
    requires InsertStep(sl1, order, p0, update, rank, level, k, sl2, o2)
    requires p2 <= p0 && i < Active(sl2, o2, p2)
    ensures LinkOk(sl2, o2, p2, i)
  {
    SplicedAt(sl1, order, p0, update, rank, level, k, sl2, o2, p2, i);
    var h := HandleAt(order, p2);
    assert HandleAt(o2, p2) == h;
    assert Active(sl2, o2, p2) == Active(sl1, order, p2);
    assert UpdateAt(sl1, order, p0, rank[i], i) && update[i] == HandleAt(order, rank[i]);
    HandleAtInjective(sl1, order, p2, rank[i]);
    if p2 == rank[i] {
      if i < level {
        CaseRecordedLinks(sl1, order, sl2, o2, p0, level, rank[i], i);
      } else {
        CaseRecordedWidens(sl1, order, sl2, o2, p0, level, rank[i], i);
      }
    } else {
      assert LinkOk(sl1, order, p2, i);
      CaseBefore(sl1, order, sl2, o2, p0, level, p2, rank[i], i);
    }
  }

  /** The links of the nodes after the new one are correct. */
  lemma LaterLink(sl1: ZSkipList, order: seq<Handle>, p0: nat, update: seq<Handle>, rank: seq<nat>,
                  level: nat, k: Entry, sl2: ZSkipList, o2: seq<Handle>, p2: nat, i: nat)
    requires InsertStep(sl1, order, p0, update, rank, level, k, sl2, o2)
    requires p0 + 1 < p2 <= |o2| && i < Active(sl2, o2, p2)
    ensures LinkOk(sl2, o2, p2, i)
  {
    SplicedAt(sl1, order, p0, update, rank, level, k, sl2, o2, p2, i);
    var h := HandleAt(order, p2 - 1);
    assert HandleAt(o2, p2) == h;
    assert Active(sl2, o2, p2) == Active(sl1, order, p2 - 1);
    assert UpdateAt(sl1, order, p0, rank[i], i) && update[i] == HandleAt(order, rank[i]);
    HandleAtInjective(sl1, order, p2 - 1, rank[i]);
    assert h < |sl1.nodes| && h != update[i];
    assert NewArena(sl1, k, level)[h] == sl1.nodes[h];
    assert LinkAt(sl2, o2, p2, i) == LinkAt(sl1, order, p2 - 1, i);
    assert LinkOk(sl1, order, p2 - 1, i);
    CaseAfter(sl1, order, sl2, o2, p0, level, p2, i);
  }

  /** The stored pairs after the splice: `k` at index `p0`, the old pairs
      around it. */
  lemma InsertedEntries(sl1: ZSkipList, order: seq<Handle>, p0: nat, update: seq<Handle>, rank: seq<nat>,
                        level: nat, k: Entry, sl2: ZSkipList, o2: seq<Handle>)
    requires Shaped(sl1, order) && Shaped(sl2, o2) && p0 <= |order|
    requires SpliceFrame(NewArena(sl1, k, level), update, rank, level, sl1.curLevel)
    requires Inserted(sl1, update, rank, level, k, sl2)
    requires |o2| == |order| + 1 && o2 == Ins(order, p0, |sl1.nodes|)
    ensures Entries(sl2, o2) == Entries(sl1, order)[..p0] + [k] + Entries(sl1, order)[p0..]
  {
    var n1 := NewArena(sl1, k, level);
    var es1, es2 := Entries(sl1, order), Entries(sl2, o2);
    var want := es1[..p0] + [k] + es1[p0..];
    forall t | 0 <= t < |o2|
      ensures es2[t] == want[t]
    {
      var h := o2[t];
      assert EntryOf(sl2.nodes[h]) == EntryOf(n1[h]);
      if t < p0 {
        assert h == order[t] && n1[h] == sl1.nodes[h];
      } else if t > p0 {
        assert h == order[t - 1] && n1[h] == sl1.nodes[h];
      }
    }
  }

  /** Placing `k` between the pairs before it and the rest keeps the
      sequence sorted. */
  lemma InsertKeepsSorted(es: seq<Entry>, k: Entry, p0: nat)
    requires Sorted(es) && p0 <= |es|
    requires forall t :: 0 <= t < p0 ==> EntryLt(es[t], k)
    requires forall t :: p0 <= t < |es| ==> !EntryLt(es[t], k)
    ensures Sorted(es[..p0] + [k] + es[p0..])
  {
    var s := es[..p0] + [k] + es[p0..];
    forall a, b | 0 <= a < b < |s|
      ensures EntryLe(s[a], s[b])
    {
      if b < p0 {
        assert s[a] == es[a] && s[b] == es[b];
      } else if b == p0 {
        assert EntryLt(s[a], k);
      } else if a == p0 {
        assert !EntryLt(es[b - 1], k);
      } else if a < p0 {
        assert EntryLt(es[a], k) && !EntryLt(es[b - 1], k);
      } else {
        assert s[a] == es[a - 1] && s[b] == es[b - 1];
      }
    }
  }

  /** The new node's level-0 link: to the pair that was at index `p0`, one
      step on, or nowhere when it is last. */
  lemma NewNodeLevel0(sl1: ZSkipList, order: seq<Handle>, p0: nat, update: seq<Handle>, rank: seq<nat>,
                      level: nat, k: Entry, sl2: ZSkipList, o2: seq<Handle>)
    requires InsertBase(sl1, order, p0, update, rank, level, k, sl2, o2)
    ensures 0 < |sl2.nodes[|sl1.nodes|].links|
    ensures sl2.nodes[|sl1.nodes|].links[0] == if p0 < |order| then Link(Some(order[p0]), 1) else Link(None, 0)
  {
    assert UpdateAt(sl1, order, p0, rank[0], 0) && update[0] == HandleAt(order, p0);
    Level0Step(sl1, order, p0);
    assert NewArena(sl1, k, level)[update[0]] == sl1.nodes[update[0]];
  }

  /** Backward links after the splice: the new node points back at the
      node before it and the node after it points back at the new node. */
  lemma InsertedBackward(sl1: ZSkipList, order: seq<Handle>, p0: nat, update: seq<Handle>, rank: seq<nat>,
                         level: nat, k: Entry, sl2: ZSkipList, o2: seq<Handle>, t: nat)
    requires Shaped(sl1, order) && p0 <= |order|
    requires forall t :: 0 <= t < |order| ==> sl1.nodes[order[t]].backward == (if t == 0 then None else Some(order[t - 1]))
    requires SpliceFrame(NewArena(sl1, k, level), update, rank, level, sl1.curLevel)
    requires Inserted(sl1, update, rank, level, k, sl2) && update[0] == HandleAt(order, p0)
    requires |o2| == |order| + 1 && o2 == Ins(order, p0, |sl1.nodes|) && t < |o2|
    requires 0 < |sl2.nodes[|sl1.nodes|].links|
    requires sl2.nodes[|sl1.nodes|].links[0].forward == if p0 < |order| then Some(order[p0]) else None
    ensures sl2.nodes[o2[t]].backward == if t == 0 then None else Some(o2[t - 1])
  {
    var node := |sl1.nodes|;
    var n1 := NewArena(sl1, k, level);
    if t == p0 {
      if p0 > 0 {
        assert update[0] == order[p0 - 1] != HeadHandle;
      }
    } else {
      var t1 := if t < p0 then t else t - 1;
      var h := order[t1];
      assert o2[t] == h && n1[h] == sl1.nodes[h] && h != node;
      if t == p0 + 1 {
        assert sl2.nodes[node].links[0].forward == Some(h);
      } else {
        assert p0 < |order| ==> order[p0] != h;
        assert sl2.nodes[h].backward == sl1.nodes[h].backward;
        if t1 > 0 {
          assert sl1.nodes[order[t1]].backward == Some(order[t1 - 1]);
          assert o2[t - 1] == order[t1 - 1];
        }
      }
    }
  }

  /** Every link of the new list is correct. */
  lemma InsertedLinks(sl1: ZSkipList, order: seq<Handle>, p0: nat, update: seq<Handle>, rank: seq<nat>,
                      level: nat, k: Entry, sl2: ZSkipList, o2: seq<Handle>)
    requires InsertStep(sl1, order, p0, update, rank, level, k, sl2, o2)
    ensures forall p, i :: 0 <= p <= |o2| && 0 <= i < Active(sl2, o2, p) ==> LinkOk(sl2, o2, p, i)
  {
    forall p2, i | 0 <= p2 <= |o2| && 0 <= i < Active(sl2, o2, p2)
      ensures LinkOk(sl2, o2, p2, i)
    {
      if p2 == p0 + 1 {
        NewNodeLink(sl1, order, p0, update, rank, level, k, sl2, o2, i);
      } else if p2 <= p0 {
        EarlierLink(sl1, order, p0, update, rank, level, k, sl2, o2, p2, i);
      } else {
        LaterLink(sl1, order, p0, update, rank, level, k, sl2, o2, p2, i);
      }
    }
  }

  /** Backward links, the tail and the head's unused levels after the
      splice. */
  lemma InsertedEnds(sl1: ZSkipList, order: seq<Handle>, p0: nat, update: seq<Handle>, rank: seq<nat>,
                     level: nat, k: Entry, sl2: ZSkipList, o2: seq<Handle>)
    requires InsertBase(sl1, order, p0, update, rank, level, k, sl2, o2)
    ensures forall i :: sl2.curLevel <= i < MaxLevel ==> sl2.nodes[HeadHandle].links[i].forward == None
    ensures forall t :: 0 <= t < |o2| ==>
              sl2.nodes[o2[t]].backward == (if t == 0 then None else Some(o2[t - 1]))
    ensures sl2.tail == o2[|o2| - 1]
  {
    forall i | sl2.curLevel <= i < MaxLevel
      ensures sl2.nodes[HeadHandle].links[i].forward == None
    {
      assert sl2.nodes[HeadHandle].links[i] == sl1.nodes[HeadHandle].links[i];
    }
    NewNodeLevel0(sl1, order, p0, update, rank, level, k, sl2, o2);
    assert UpdateAt(sl1, order, p0, rank[0], 0) && update[0] == HandleAt(order, p0);
    forall t | 0 <= t < |o2|
      ensures sl2.nodes[o2[t]].backward == if t == 0 then None else Some(o2[t - 1])
    {
      InsertedBackward(sl1, order, p0, update, rank, level, k, sl2, o2, t);
    }
  }

  /** The splice keeps the list valid, and the stored pairs are the old ones
      with `k` at index `p0`. */
  lemma InsertedValid(sl1: ZSkipList, order: seq<Handle>, p0: nat, update: seq<Handle>, rank: seq<nat>,
                      level: nat, k: Entry, sl2: ZSkipList, o2: seq<Handle>)
    requires InsertBase(sl1, order, p0, update, rank, level, k, sl2, o2) && level <= sl1.curLevel
    requires forall t :: 0 <= t < p0 ==> EntryLt(Entries(sl1, order)[t], k)
    requires forall t :: p0 <= t < |order| ==> !EntryLt(Entries(sl1, order)[t], k)
    ensures Valid(sl2, o2)
    ensures Entries(sl2, o2) == Entries(sl1, order)[..p0] + [k] + Entries(sl1, order)[p0..]
  {
    InsertedShaped(sl1, order, p0, update, rank, level, k, sl2, o2);
    InsertedEntries(sl1, order, p0, update, rank, level, k, sl2, o2);
    InsertKeepsSorted(Entries(sl1, order), k, p0);
    InsertedLinks(sl1, order, p0, update, rank, level, k, sl2, o2);
    InsertedEnds(sl1, order, p0, update, rank, level, k, sl2, o2);
  }

  /** The arena the three loops and the end fix-up produce is the one
      `Inserted` describes. */
  lemma SplicedIsInserted(sl1: ZSkipList, update: seq<Handle>, rank: seq<nat>, level: nat, k: Entry,
                          nodes: seq<Node>, sl2: ZSkipList)
    requires SpliceFrame(NewArena(sl1, k, level), update, rank, level, sl1.curLevel)
    requires SplicedBelow(NewArena(sl1, k, level), update, rank, level, sl1.curLevel, nodes, sl1.curLevel)
    requires sl2.nodes == FixEnds(NewArena(sl1, k, level), update, rank, level, sl1.curLevel, nodes)
    requires sl2.curLevel == sl1.curLevel && sl2.len == sl1.len + 1
    requires sl2.tail == if sl2.nodes[|sl1.nodes|].links[0].forward.None? then |sl1.nodes| else sl1.tail
    ensures Inserted(sl1, update, rank, level, k, sl2)
  {
  }

  /** The recorded path satisfies what the splice needs. */
  lemma PathFrame(sl1: ZSkipList, order: seq<Handle>, p0: nat, update: seq<Handle>, rank: seq<nat>, level: nat, k: Entry)
    requires Valid(sl1, order) && p0 <= |order| && PathTo(sl1, order, p0, update, rank, sl1.curLevel)
    requires rank[0] == p0 && 1 <= level <= sl1.curLevel
    ensures SpliceFrame(NewArena(sl1, k, level), update, rank, level, sl1.curLevel)
  {
    var n1 := NewArena(sl1, k, level);
    forall j | 0 <= j < sl1.curLevel
      ensures update[j] < |n1| - 1 && j < |n1[update[j]].links| && rank[j] <= rank[0]
      ensures update[j] == HeadHandle || j < n1[update[j]].level
      ensures j < level ==> rank[0] - rank[j] <= n1[update[j]].links[j].span
    {
      assert UpdateAt(sl1, order, p0, rank[j], j) && update[j] == HandleAt(order, rank[j]);
      assert n1[update[j]] == sl1.nodes[update[j]];
      if rank[j] > 0 {
        assert NodeShaped(sl1.nodes[order[rank[j] - 1]], sl1.curLevel);
      }
      assert LinkOk(sl1, order, rank[j], j);
    }
  }

  /** Before the ends are fixed, the new node's level-0 link already is the
      one `NewNodeLevel0` describes. */
  lemma SplicedLevel0(sl1: ZSkipList, order: seq<Handle>, p0: nat, update: seq<Handle>, rank: seq<nat>, level: nat, k: Entry)
    requires Valid(sl1, order) && p0 <= |order| && PathTo(sl1, order, p0, update, rank, sl1.curLevel)
    requires rank[0] == p0 && SpliceFrame(NewArena(sl1, k, level), update, rank, level, sl1.curLevel)
    ensures SplicedLink(NewArena(sl1, k, level), update, rank, level, sl1.curLevel, |sl1.nodes|, 0)
         == if p0 < |order| then Link(Some(order[p0]), 1) else Link(None, 0)
    ensures p0 < |order| ==> 1 <= order[p0] < |sl1.nodes|
  {
    assert UpdateAt(sl1, order, p0, rank[0], 0) && update[0] == HandleAt(order, p0);
    Level0Step(sl1, order, p0);
    assert NewArena(sl1, k, level)[update[0]] == sl1.nodes[update[0]];
  }

  /** The splice half of `zsl_insert`, on the list whose level has been
      raised: link the new node in on its levels, widen the spans above, fix
      the backward links and the tail, and count the new pair. */
  method Splice(sl1: ZSkipList, ghost order: seq<Handle>, ghost p0: nat, update: seq<Handle>, rank: seq<nat>,
                level: nat, k: Entry)
    returns (sl2: ZSkipList, node: Handle, ghost o2: seq<Handle>)
    requires Valid(sl1, order) && p0 <= |order| && PathTo(sl1, order, p0, update, rank, sl1.curLevel)
    requires rank[0] == p0 && 1 <= level <= sl1.curLevel
    requires forall t :: 0 <= t < p0 ==> EntryLt(Entries(sl1, order)[t], k)
    requires forall t :: p0 <= t < |order| ==> !EntryLt(Entries(sl1, order)[t], k)
    ensures Valid(sl2, o2)
    ensures Entries(sl2, o2) == Entries(sl1, order)[..p0] + [k] + Entries(sl1, order)[p0..]
    ensures node == |sl1.nodes| && |sl2.nodes| == |sl1.nodes| + 1 && o2[p0] == node
    ensures sl2.curLevel == sl1.curLevel && sl2.nodes[node].level == level
  {
    var n1 := NewArena(sl1, k, level);
    PathFrame(sl1, order, p0, update, rank, level, k);
    SplicedLevel0(sl1, order, p0, update, rank, level, k);
    var nodes := LinkNewNode(n1, update, rank, level, sl1.curLevel);
    nodes := WidenSpans(n1, update, rank, level, sl1.curLevel, nodes);
    node := |sl1.nodes|;
    var fixed := FixEnds(n1, update, rank, level, sl1.curLevel, nodes);
    var tail := if fixed[node].links[0].forward.None? then node else sl1.tail;
    sl2 := ZSkipList(fixed, tail, sl1.curLevel, sl1.len + 1);
    SplicedIsInserted(sl1, update, rank, level, k, nodes, sl2);
    o2 := Ins(order, p0, node);
    InsertedValid(sl1, order, p0, update, rank, level, k, sl2, o2);
  }

  /** `zsl_insert(score, value)` with the drawn `level`: the new list is
      valid, holds the old pairs with the new one in its sorted place, and
      its new node, the returned handle, carries the pair and the level. */
  method Insert(sl: ZSkipList, ghost order: seq<Handle>, score: real, value: int, level: nat)
    returns (sl': ZSkipList, node: Handle, ghost order': seq<Handle>)
    requires Valid(sl, order) && 1 <= level <= MaxLevel
    ensures Valid(sl', order')
    ensures Entries(sl', order') == InsertSorted(Entries(sl, order), Entry(score, value))
    ensures sl'.len == sl.len + 1 && node == |sl.nodes| && |sl'.nodes| == |sl.nodes| + 1
    ensures node in order' && sl'.nodes[node].val == Some(value) && sl'.nodes[node].score == score
    ensures sl'.nodes[node].level == level
    ensures sl'.curLevel == if level > sl.curLevel then level else sl.curLevel
  {
    var k := Entry(score, value);
    var update, rank, p0 := SearchPath(sl, order, k);
    var sl1, update1, rank1 := RaiseLevel(sl, order, level, update, rank, p0);
    sl', node, order' := Splice(sl1, order, p0, update1, rank1, level, k);
    assert Entries(sl', order')[p0] == k;
    InsertSortedAt(Entries(sl, order), k, p0);
  }
}

=== FILE: zskiplist_iter.dfy ===
/** The borrowing iterator of the skip list (`Iter` in `zskiplist.rs`): a
    cursor on level 0 and a count of the pairs it has still to yield. */
module ZSkipListIter {
  import opened Wrappers
  import opened ZSkipNode
  import opened ZSkipListState

  datatype Iter = Iter(head: Option<Handle>, len: nat)

  /** The iterator that has yielded the first `t` values: it points at the
      node at 0-based index `t` (nothing past the end) and has `len - t`
      values to go. */
  ghost predicate IterAt(sl: ZSkipList, order: seq<Handle>, it: Iter, t: nat) {
    && t <= |order|
    && it.len == |order| - t
    && it.head == (if t < |order| then Some(order[t]) else None)
  }

  /** The head's level-0 link names the first node, or nothing when the list
      is empty (then no level is in use and every head link is empty). */
  lemma HeadLevel0(sl: ZSkipList, order: seq<Handle>)
    requires Valid(sl, order)
    ensures sl.nodes[HeadHandle].links[0].forward == (if |order| > 0 then Some(order[0]) else None)
  {
    NonEmptyHasLevel(sl, order);
    if sl.curLevel > 0 {
      Level0Step(sl, order, 0);
    }
  }

  /** `ZSkipList::iter`: start at the head's level-0 successor with the
      list's length. */
  function Begin(sl: ZSkipList, ghost order: seq<Handle>): (it: Iter)
    requires Valid(sl, order)
    ensures IterAt(sl, order, it, 0)
  {
    HeadLevel0(sl, order);
    Iter(sl.nodes[HeadHandle].links[0].forward, sl.len)
  }

  /** `Iter::next`: nothing once the count is spent or the cursor is empty;
      otherwise the cursor's value, with the cursor moved one step along
      level 0 and the count lowered. From the iterator at index `t` it
      yields the `t`-th value and leaves the iterator at `t + 1`; at the end
      it yields nothing and stays put. */
  function Next(sl: ZSkipList, ghost order: seq<Handle>, ghost t: nat, it: Iter): (r: (Option<int>, Iter))
    requires Valid(sl, order) && IterAt(sl, order, it, t)
    ensures t < |order| ==> r.0 == Some(Values(sl, order)[t]) && IterAt(sl, order, r.1, t + 1)
    ensures t == |order| ==> r.0 == None && r.1 == it
  {
    if it.len == 0 then
      (None, it)
    else
      match it.head
      case None => (None, it)
      case Some(h) =>
        assert NodeShaped(sl.nodes[h], sl.curLevel);
        Level0Step(sl, order, t + 1);
        (sl.nodes[h].val, Iter(sl.nodes[h].links[0].forward, it.len - 1))
  }

  /** Draining the iterator yields exactly the stored values in list order,
      as many as `get_len` reports. */
  method Collect(sl: ZSkipList, ghost order: seq<Handle>) returns (vs: seq<int>)
    requires Valid(sl, order)
    ensures vs == Values(sl, order)
    ensures |vs| == sl.len
  {
    var it := Begin(sl, order);
    ghost var t: nat := 0;
    vs := [];
    while true
      invariant IterAt(sl, order, it, t)
      invariant vs == Values(sl, order)[..t]
      decreases it.len
    {
      var step := Next(sl, order, t, it);
      if step.0.None? {
        break;
      }
      vs := vs + [step.0.value];
      it := step.1;
      t := t + 1;
    }
    assert t == |order|;
  }
}

=== FILE: zskiplist_query.dfy ===
/** The read-only operations of the skip list (`zskiplist.rs`): creation,
    length, membership, the rank queries, the score-range queries and
    iteration. Each walks the arena exactly as the source walks its node links. */
module ZSkipListQuery {
  import opened Wrappers
  import opened ZSkipNode
  import opened ZSkipListState
  import LevelGenerator

  /** `zsl_create`: an empty list whose head is sized by the default level
      policy's bound. */
  function Create(): (sl: ZSkipList)
    ensures Valid(sl, [])
    ensures sl.len == 0 && sl.curLevel == 0 && sl.tail == HeadHandle
    ensures |sl.nodes[HeadHandle].links| == MaxLevel
  {
    var g := LevelGenerator.Default();
    ZSkipList([Head(LevelGenerator.LevelBound(g))], HeadHandle, 0, 0)
  }

  /** `get_len`: the number of stored pairs. */
  function GetLen(sl: ZSkipList, ghost order: seq<Handle>): (n: nat)
    requires Valid(sl, order)
    ensures n == |Entries(sl, order)|
  {
    sl.len
  }

  /** The value of a real node reached through a link. */
  function ValAt(sl: ZSkipList, h: Handle): int
    requires h < |sl.nodes| && sl.nodes[h].val.Some?
  {
    sl.nodes[h].val.value
  }

  /** What a descent at level `i` from position `p` stops on when looking for
      value `v`: the next node on that level is absent or holds a value above `v`. */
  ghost predicate StopsAbove(sl: ZSkipList, order: seq<Handle>, p: nat, i: nat, v: int)
    requires Valid(sl, order) && p <= |order| && i < Active(sl, order, p)
  {
    assert LinkOk(sl, order, p, i);
    var l := LinkAt(sl, order, p, i);
    l.forward.None? || sl.nodes[l.forward.value].val.value > v
  }

  /** The next node on level `i` after position `p` is absent or holds a
      value of at least `v`. */
  ghost predicate StopsAtOrAbove(sl: ZSkipList, order: seq<Handle>, p: nat, i: nat, v: int)
    requires Valid(sl, order) && p <= |order| && i < Active(sl, order, p)
  {
    assert LinkOk(sl, order, p, i);
    var l := LinkAt(sl, order, p, i);
    l.forward.None? || sl.nodes[l.forward.value].val.value >= v
  }

  /** Position `p` is the head or holds a value below `v`. */
  ghost predicate BelowValue(sl: ZSkipList, order: seq<Handle>, p: nat, v: int)
    requires Shaped(sl, order) && p <= |order|
  {
    p == 0 || sl.nodes[order[p - 1]].val.value < v
  }

  /** The inner loop shared by `contains` and `zsl_delete`: on level `i`, move
      right while the next node's value is below `v`. */
  method SkipValuesBelow(sl: ZSkipList, ghost order: seq<Handle>, cur: Handle, ghost pc: nat, i: nat, v: int)
    returns (cur': Handle, ghost pc': nat)
    requires Valid(sl, order) && pc <= |order| && cur == HandleAt(order, pc)
    requires i < Active(sl, order, pc) && BelowValue(sl, order, pc, v)
    ensures pc <= pc' <= |order| && cur' == HandleAt(order, pc')
    ensures i < Active(sl, order, pc') && BelowValue(sl, order, pc', v)
    ensures StopsAtOrAbove(sl, order, pc', i, v)
    ensures cur' < |sl.nodes| && i < |sl.nodes[cur'].links|
    ensures cur' == HeadHandle || ValAt(sl, cur') < v
    ensures var l := sl.nodes[cur'].links[i];
      l.forward.None? || (l.forward.value < |sl.nodes| && sl.nodes[l.forward.value].val.Some? && ValAt(sl, l.forward.value) >= v)
  {
    cur', pc' := cur, pc;
    while sl.nodes[cur'].links[i].forward.Some?
          && ValAt(sl, sl.nodes[cur'].links[i].forward.value) < v
      invariant pc <= pc' <= |order| && cur' == HandleAt(order, pc')
      invariant BelowValue(sl, order, pc', v)
      invariant i < Active(sl, order, pc') && LinkOk(sl, order, pc', i)
      decreases |order| - pc'
    {
      cur' := sl.nodes[cur'].links[i].forward.value;
      pc' := FollowLink(sl, order, pc', i);
    }
  }

  /** `contains`: descend from the top level, moving right while the next
      value is smaller than `v`, and report a hit as soon as the next value
      equals `v`. A hit always names a stored value; when the values are in
      list order every stored value is found. */
  method Contains(sl: ZSkipList, ghost order: seq<Handle>, v: int) returns (found: bool)
    requires Valid(sl, order)
    ensures found ==> v in Values(sl, order)
    ensures ValueSorted(sl, order) && v in Values(sl, order) ==> found
  {
    var cur := HeadHandle;
    ghost var pc: nat := 0;
    var i := sl.curLevel;
    while i > 0
      invariant 0 <= i <= sl.curLevel
      invariant pc <= |order| && cur == HandleAt(order, pc)
      invariant BelowValue(sl, order, pc, v)
      invariant i <= Active(sl, order, pc)
      invariant i < sl.curLevel ==> i < Active(sl, order, pc) && StopsAbove(sl, order, pc, i, v)
    {
      i := i - 1;
      cur, pc := SkipValuesBelow(sl, order, cur, pc, i, v);
      var next := sl.nodes[cur].links[i].forward;
      if next.Some? {
        ghost var q := FollowLink(sl, order, pc, i);
        if ValAt(sl, next.value) == v {
          return true;
        }
      }
    }
    if ValueSorted(sl, order) && v in Values(sl, order) {
      ContainsMissImpossible(sl, order, pc, v);
    }
    return false;
  }

  /** A level-0 stop just before any value above `v`, after only values below
      `v`, rules out `v` in a value-sorted list. */
  lemma ContainsMissImpossible(sl: ZSkipList, order: seq<Handle>, pc: nat, v: int)
    requires Valid(sl, order) && ValueSorted(sl, order) && pc <= |order|
    requires BelowValue(sl, order, pc, v)
    requires sl.curLevel > 0 ==> 0 < Active(sl, order, pc) && StopsAbove(sl, order, pc, 0, v)
    ensures v !in Values(sl, order)
  {
    var vs := Values(sl, order);
    if |order| == 0 {
      return;
    }
    NonEmptyHasLevel(sl, order);
    Level0Step(sl, order, pc);
    forall t | 0 <= t < |order|
      ensures vs[t] != v
    {
      if t < pc - 1 {
        assert vs[t] <= vs[pc - 1];
      } else if t >= pc && pc < |order| {
        assert vs[pc] <= vs[t];
      }
    }
  }

  /** `zsl_get_element_by_rank`: 1-based. Descend, adding a link's span while
      it does not overshoot `rank`, and return the value where the running
      total equals `rank` (the head's empty value for rank 0). */
  method GetElementByRank(sl: ZSkipList, ghost order: seq<Handle>, rank: nat) returns (r: Option<int>)
    requires Valid(sl, order)
    ensures 1 <= rank <= |order| ==> r == Some(Values(sl, order)[rank - 1])
    ensures rank == 0 || rank > |order| ==> r == None
  {
    var traversed: nat := 0;
    var cur := HeadHandle;
    var i := sl.curLevel;
    while i > 0
      invariant 0 <= i <= sl.curLevel
      invariant traversed <= rank && traversed <= |order|
      invariant cur == HandleAt(order, traversed)
      invariant i <= Active(sl, order, traversed)
      invariant i < sl.curLevel ==> i < Active(sl, order, traversed)
      invariant i < sl.curLevel ==> traversed != rank
      invariant i < sl.curLevel ==>
        LinkAt(sl, order, traversed, i).forward.None? || LinkAt(sl, order, traversed, i).span + traversed > rank
    {
      i := i - 1;
      cur, traversed := SkipToRank(sl, order, cur, traversed, i, rank);
      if traversed == rank {
        return sl.nodes[cur].val;
      }
    }
    if 1 <= rank <= |order| {
      NonEmptyHasLevel(sl, order);
      Level0Step(sl, order, traversed);
      assert false;
    }
    return None;
  }

  /** The inner loop of `zsl_get_element_by_rank`: on level `i`, follow links
      while the running total plus the span does not pass `rank`. */
  method SkipToRank(sl: ZSkipList, ghost order: seq<Handle>, cur: Handle, traversed: nat, i: nat, rank: nat)
    returns (cur': Handle, traversed': nat)
    requires Valid(sl, order) && traversed <= rank && traversed <= |order|
    requires cur == HandleAt(order, traversed) && i < Active(sl, order, traversed)
    ensures traversed <= traversed' <= rank && traversed' <= |order|
    ensures cur' == HandleAt(order, traversed') && i < Active(sl, order, traversed')
    ensures LinkAt(sl, order, traversed', i).forward.None?
            || traversed' + LinkAt(sl, order, traversed', i).span > rank
  {
    cur', traversed' := cur, traversed;
    while sl.nodes[cur'].links[i].forward.Some? && sl.nodes[cur'].links[i].span + traversed' <= rank
      invariant traversed <= traversed' <= rank && traversed' <= |order|
      invariant cur' == HandleAt(order, traversed')
      invariant i < Active(sl, order, traversed')
      decreases |order| - traversed'
    {
      ghost var q := FollowLink(sl, order, traversed', i);
      traversed' := traversed' + sl.nodes[cur'].links[i].span;
      cur' := sl.nodes[cur'].links[i].forward.value;
    }
  }

  predicate InRange(e: Entry, min: real, max: real) {
    min <= e.score <= max
  }

  /** Scores never decrease along a sorted list. */
  lemma ScoreMonotone(sl: ZSkipList, order: seq<Handle>, a: nat, b: nat)
    requires Valid(sl, order) && a <= b < |order|
    ensures Entries(sl, order)[a].score <= Entries(sl, order)[b].score
  {
    SortedBefore(Entries(sl, order), a, b);
  }

  /** What the range scan stops on at level `i` from position `p`: nothing, or
      a node whose score is above `max`. */
  ghost predicate StopsPastMax(sl: ZSkipList, order: seq<Handle>, p: nat, i: nat, max: real)
    requires Valid(sl, order) && p <= |order| && i < Active(sl, order, p)
  {
    assert LinkOk(sl, order, p, i);
    var l := LinkAt(sl, order, p, i);
    l.forward.None? || sl.nodes[l.forward.value].score > max
  }

  /** `zsl_is_in_range`: descend, skipping nodes whose score is below `min`,
      and answer true on the first node whose score lies in [min, max]. It is
      true exactly when some stored score lies in [min, max]. */
  method IsInRange(sl: ZSkipList, ghost order: seq<Handle>, min: real, max: real) returns (b: bool)
    requires Valid(sl, order)
    ensures b <==> exists t :: 0 <= t < |order| && InRange(Entries(sl, order)[t], min, max)
  {
    var cur := HeadHandle;
    ghost var pc: nat := 0;
    var i := sl.curLevel;
    while i > 0
      invariant 0 <= i <= sl.curLevel
      invariant pc <= |order| && cur == HandleAt(order, pc)
      invariant BelowScore(sl, order, pc, min)
      invariant i <= Active(sl, order, pc)
      invariant i < sl.curLevel ==> i < Active(sl, order, pc)
      invariant i < sl.curLevel ==> StopsPastMax(sl, order, pc, i, max)
    {
      i := i - 1;
      var hit;
      cur, pc, hit := SkipScoresBelow(sl, order, cur, pc, i, min, max);
      if hit {
        return true;
      }
    }
    NoneInRange(sl, order, pc, min, max);
    return false;
  }

  /** The inner loop of `zsl_is_in_range`: on level `i`, stop at a node whose
      score is above `max`, report a hit on one whose score lies in
      [min, max], and skip the rest. */
  method SkipScoresBelow(sl: ZSkipList, ghost order: seq<Handle>, cur: Handle, ghost pc: nat, i: nat,
                         min: real, max: real)
    returns (cur': Handle, ghost pc': nat, hit: bool)
    requires Valid(sl, order) && pc <= |order| && cur == HandleAt(order, pc)
    requires BelowScore(sl, order, pc, min)
    requires i < Active(sl, order, pc)
    ensures hit ==> exists t :: 0 <= t < |order| && InRange(Entries(sl, order)[t], min, max)
    ensures pc' <= |order| && cur' == HandleAt(order, pc') && i < Active(sl, order, pc')
    ensures BelowScore(sl, order, pc', min)
    ensures !hit ==> StopsPastMax(sl, order, pc', i, max)
    ensures cur' < |sl.nodes| && i < |sl.nodes[cur'].links|
    ensures cur' == HeadHandle || sl.nodes[cur'].score < min
    ensures !hit ==> var l := sl.nodes[cur'].links[i];
      l.forward.None? || (l.forward.value < |sl.nodes| && sl.nodes[l.forward.value].score > max)
  {
    cur', pc' := cur, pc;
    while sl.nodes[cur'].links[i].forward.Some?
      invariant pc' <= |order| && cur' == HandleAt(order, pc')
      invariant BelowScore(sl, order, pc', min)
      invariant i < Active(sl, order, pc')
      decreases |order| - pc'
    {
      ghost var q := FollowLink(sl, order, pc', i);
      var next := sl.nodes[cur'].links[i].forward.value;
      if sl.nodes[next].score > max {
        return cur', pc', false;
      }
      if sl.nodes[next].score >= min {
        assert InRange(Entries(sl, order)[q - 1], min, max);
        return cur', pc', true;
      }
      pc' := q;
      cur' := next;
    }
    assert LinkOk(sl, order, pc', i);
    hit := false;
  }

  /** Position `p` is the head or holds a score below `min`. */
  ghost predicate BelowScore(sl: ZSkipList, order: seq<Handle>, p: nat, min: real)
    requires Shaped(sl, order) && p <= |order|
  {
    p == 0 || sl.nodes[order[p - 1]].score < min
  }

  /** A level-0 stop past `max` after only scores below `min` means no score
      lies in [min, max]. */
  lemma NoneInRange(sl: ZSkipList, order: seq<Handle>, pc: nat, min: real, max: real)
    requires Valid(sl, order) && pc <= |order|
    requires BelowScore(sl, order, pc, min)
    requires sl.curLevel > 0 ==> 0 < Active(sl, order, pc) && StopsPastMax(sl, order, pc, 0, max)
    ensures !exists t :: 0 <= t < |order| && InRange(Entries(sl, order)[t], min, max)
  {
    var es := Entries(sl, order);
    if |order| == 0 {
      return;
    }
    NonEmptyHasLevel(sl, order);
    Level0Step(sl, order, pc);
    forall t | 0 <= t < |order|
      ensures !InRange(es[t], min, max)
    {
      if t < pc {
        ScoreMonotone(sl, order, t, pc - 1);
      } else {
        ScoreMonotone(sl, order, pc, t);
      }
    }
  }

  /** Index `t` holds the first pair whose score lies in [min, max]. */
  ghost predicate FirstInRangeAt(es: seq<Entry>, t: nat, min: real, max: real) {
    && t < |es| && InRange(es[t], min, max)
    && forall s :: 0 <= s < t ==> !InRange(es[s], min, max)
  }

  /** Index `t` holds the last pair whose score lies in [min, max]. */
  ghost predicate LastInRangeAt(es: seq<Entry>, t: nat, min: real, max: real) {
    && t < |es| && InRange(es[t], min, max)
    && forall s :: t < s < |es| ==> !InRange(es[s], min, max)
  }

  /** `zsl_first_in_range`: a level-0 scan that stops at the first score above
      `max` and returns the first value whose score is at least `min`. */
  method FirstInRange(sl: ZSkipList, ghost order: seq<Handle>, min: real, max: real) returns (r: Option<int>)
    requires Valid(sl, order)
    ensures r.None? <==> !exists t :: 0 <= t < |order| && InRange(Entries(sl, order)[t], min, max)
    ensures r.Some? ==> exists t: nat :: FirstInRangeAt(Entries(sl, order), t, min, max)
                                    && r.value == Entries(sl, order)[t].value
  {
    var cur := HeadHandle;
    ghost var pc: nat := 0;
    if sl.curLevel == 0 {
      NoneInRange(sl, order, pc, min, max);
      return None;
    }
    while sl.nodes[cur].links[0].forward.Some?
      invariant pc <= |order| && cur == HandleAt(order, pc)
      invariant BelowScore(sl, order, pc, min)
      invariant 0 < Active(sl, order, pc)
      decreases |order| - pc
    {
      Level0Step(sl, order, pc);
      var next := sl.nodes[cur].links[0].forward.value;
      if sl.nodes[next].score > max {
        break;
      }
      if sl.nodes[next].score >= min {
        forall s | 0 <= s < pc
          ensures !InRange(Entries(sl, order)[s], min, max)
        {
          ScoreMonotone(sl, order, s, pc - 1);
        }
        assert FirstInRangeAt(Entries(sl, order), pc, min, max);
        return sl.nodes[next].val;
      }
      pc := pc + 1;
      cur := next;
    }
    Level0Step(sl, order, pc);
    NoneInRange(sl, order, pc, min, max);
    return None;
  }

  /** `zsl_last_in_range`: a level-0 scan that advances while the next score
      is at most `max`, then returns the value it stopped on if that score is
      at least `min` (the head yields its empty value). */
  method LastInRange(sl: ZSkipList, ghost order: seq<Handle>, min: real, max: real) returns (r: Option<int>)
    requires Valid(sl, order)
    ensures r.None? <==> !exists t :: 0 <= t < |order| && InRange(Entries(sl, order)[t], min, max)
    ensures r.Some? ==> exists t: nat :: LastInRangeAt(Entries(sl, order), t, min, max)
                                    && r.value == Entries(sl, order)[t].value
  {
    var cur := HeadHandle;
    ghost var pc: nat := 0;
    if sl.curLevel > 0 {
      while sl.nodes[cur].links[0].forward.Some?
        invariant pc <= |order| && cur == HandleAt(order, pc)
        invariant pc == 0 || Entries(sl, order)[pc - 1].score <= max
        invariant 0 < Active(sl, order, pc)
        decreases |order| - pc
      {
        Level0Step(sl, order, pc);
        var next := sl.nodes[cur].links[0].forward.value;
        if sl.nodes[next].score > max {
          break;
        }
        pc := pc + 1;
        cur := next;
      }
      Level0Step(sl, order, pc);
    }
    var es := Entries(sl, order);
    // Every later position has a score above `max`.
    forall s | pc <= s < |order|
      ensures es[s].score > max
    {
      ScoreMonotone(sl, order, pc, s);
    }
    if sl.nodes[cur].score >= min && sl.nodes[cur].score <= max {
      if pc > 0 {
        assert LastInRangeAt(es, pc - 1, min, max);
      } else {
        forall t | 0 <= t < |order|
          ensures !InRange(es[t], min, max)
        {
          assert es[t].score > max;
        }
      }
      return sl.nodes[cur].val;
    }
    forall t | 0 <= t < |order|
      ensures !InRange(es[t], min, max)
    {
      if t < pc {
        ScoreMonotone(sl, order, t, pc - 1);
      }
    }
    return None;
  }
}

=== FILE: zskiplist_rank.dfy ===
/** The key-ordered descent of `zsl_insert` and `zsl_get_rank`, and the rank
    query itself, both as the source writes it and as it is meant to work.
    A key is a (score, value) pair ordered by score, then value. */
module ZSkipListRank {
  import opened Wrappers
  import opened ZSkipNode
  import opened ZSkipListState

  /** The comparison both descents make: the node's (score, value) comes
      strictly before `k`. */
  predicate KeyBelow(n: Node, k: Entry)
    requires n.val.Some?
  {
    EntryLt(EntryOf(n), k)
  }

  /** Position `p` is the head or holds a key strictly before `k`. */
  ghost predicate BeforeKey(sl: ZSkipList, order: seq<Handle>, p: nat, k: Entry)
    requires Shaped(sl, order) && p <= |order|
  {
    p == 0 || EntryLt(EntryOf(sl.nodes[order[p - 1]]), k)
  }

  /** The next node on level `i` after position `p` is absent or does not
      come before `k`. */
  ghost predicate StopsAtKey(sl: ZSkipList, order: seq<Handle>, p: nat, i: nat, k: Entry)
    requires Valid(sl, order) && p <= |order| && i < Active(sl, order, p)
  {
    assert LinkOk(sl, order, p, i);
    var l := LinkAt(sl, order, p, i);
    l.forward.None? || !EntryLt(EntryOf(sl.nodes[l.forward.value]), k)
  }

  /** The next node on level `i` after position `p` is absent or comes
      strictly after `k`. */
  ghost predicate StopsPastKey(sl: ZSkipList, order: seq<Handle>, p: nat, i: nat, k: Entry)
    requires Valid(sl, order) && p <= |order| && i < Active(sl, order, p)
  {
    assert LinkOk(sl, order, p, i);
    var l := LinkAt(sl, order, p, i);
    l.forward.None? || EntryLt(k, EntryOf(sl.nodes[l.forward.value]))
  }

  /** The inner loop of `zsl_insert` and `zsl_get_rank`: on level `i`, follow
      links while the next node's key comes before `k`, adding each span to
      the running rank. The rank stays the 1-based position of the node
      reached, and the walk stops in front of the first key at or after `k`. */
  function SkipKeysBelow(sl: ZSkipList, ghost order: seq<Handle>, cur: Handle, rank: nat, i: nat, k: Entry)
    : (r: (Handle, nat))
    requires Valid(sl, order) && rank <= |order| && cur == HandleAt(order, rank)
    requires i < Active(sl, order, rank) && BeforeKey(sl, order, rank, k)
    ensures rank <= r.1 <= |order| && r.0 == HandleAt(order, r.1)
    ensures i < Active(sl, order, r.1) && BeforeKey(sl, order, r.1, k)
    ensures StopsAtKey(sl, order, r.1, i, k)
    decreases |order| - rank
  {
    var l := sl.nodes[cur].links[i];
    if l.forward.None? then
      (cur, rank)
    else
      var q := rank + l.span;
      assert q == FollowLink(sl, order, rank, i);
      if KeyBelow(sl.nodes[l.forward.value], k) then
        SkipKeysBelow(sl, order, l.forward.value, q, i, k)
      else
        (cur, rank)
  }

  /** Where a level-0 descent for `k` stops, position `p`, splits the pairs:
      the first `p` come before `k` and the rest do not. So `p` is the number
      of stored pairs below `k`, which is where `k` belongs. */
  lemma KeyPartition(sl: ZSkipList, order: seq<Handle>, p: nat, k: Entry)
    requires Valid(sl, order) && p <= |order| && BeforeKey(sl, order, p, k)
    requires sl.curLevel > 0 ==> 0 < Active(sl, order, p) && StopsAtKey(sl, order, p, 0, k)
    ensures forall t :: 0 <= t < p ==> EntryLt(Entries(sl, order)[t], k)
    ensures forall t :: p <= t < |order| ==> !EntryLt(Entries(sl, order)[t], k)
  {
    var es := Entries(sl, order);
    if |order| == 0 {
      return;
    }
    NonEmptyHasLevel(sl, order);
    Level0Step(sl, order, p);
    forall t | 0 <= t < |order|
      ensures t < p ==> EntryLt(es[t], k)
      ensures t >= p ==> !EntryLt(es[t], k)
    {
      if t < p {
        SortedBefore(es, t, p - 1);
      } else {
        SortedBefore(es, p, t);
      }
    }
  }

  /** A level-0 stop in front of a key strictly after `k`, behind keys
      strictly before it, means `k` is not stored. */
  lemma KeyAbsent(sl: ZSkipList, order: seq<Handle>, p: nat, k: Entry)
    requires Valid(sl, order) && p <= |order| && BeforeKey(sl, order, p, k)
    requires sl.curLevel > 0 ==> 0 < Active(sl, order, p) && StopsPastKey(sl, order, p, 0, k)
    ensures k !in Entries(sl, order)
  {
    var es := Entries(sl, order);
    if |order| == 0 {
      return;
    }
    NonEmptyHasLevel(sl, order);
    Level0Step(sl, order, p);
    forall t | 0 <= t < |order|
      ensures es[t] != k
    {
      if t < p {
        SortedBefore(es, t, p - 1);
      } else {
        SortedBefore(es, p, t);
      }
    }
  }

  /** One level of the corrected `zsl_get_rank`: skip the keys below `k`,
      then either the next node holds `k`, whose 0-based rank is
      `rank + span - 1`, or the walk stops in front of a key past `k`. */
  method RankLevel(sl: ZSkipList, ghost order: seq<Handle>, cur: Handle, rank: nat, i: nat, k: Entry)
    returns (cur': Handle, rank': nat, hit: Option<nat>)
    requires Valid(sl, order) && rank <= |order| && cur == HandleAt(order, rank)
    requires i < Active(sl, order, rank) && BeforeKey(sl, order, rank, k)
    ensures hit.Some? ==> hit.value < |order| && Entries(sl, order)[hit.value] == k
    ensures hit.None? ==>
      && rank <= rank' <= |order| && cur' == HandleAt(order, rank')
      && i < Active(sl, order, rank') && BeforeKey(sl, order, rank', k)
      && StopsPastKey(sl, order, rank', i, k)
  {
    var step := SkipKeysBelow(sl, order, cur, rank, i, k);
    cur', rank' := step.0, step.1;
    hit := None;
    var next := sl.nodes[cur'].links[i].forward;
    if next.Some? {
      ghost var q := FollowLink(sl, order, rank', i);
      if EntryOf(sl.nodes[next.value]) == k {
        assert Entries(sl, order)[q - 1] == k;
        hit := Some(rank' + sl.nodes[cur'].links[i].span - 1);
      }
    }
  }

  /** `zsl_get_rank` as intended: the 0-based rank of the pair (`score`,
      `value`), found by the key-ordered descent. A match on any level is the
      node `span` steps ahead of the current rank, so its 0-based rank is
      `rank + span - 1`. The answer is present exactly when the pair is
      stored, and it indexes that pair. */
  method GetRank(sl: ZSkipList, ghost order: seq<Handle>, score: real, value: int) returns (r: Option<nat>)
    requires Valid(sl, order)
    ensures r.Some? <==> Entry(score, value) in Entries(sl, order)
    ensures r.Some? ==> r.value < |order| && Entries(sl, order)[r.value] == Entry(score, value)
  {
    var k := Entry(score, value);
    var rank: nat := 0;
    var cur := HeadHandle;
    var i := sl.curLevel;
    while i > 0
      invariant 0 <= i <= sl.curLevel
      invariant rank <= |order| && cur == HandleAt(order, rank)
      invariant BeforeKey(sl, order, rank, k)
      invariant i <= Active(sl, order, rank)
      invariant i < sl.curLevel ==> i < Active(sl, order, rank) && StopsPastKey(sl, order, rank, i, k)
    {
      i := i - 1;
      var hit;
      cur, rank, hit := RankLevel(sl, order, cur, rank, i, k);
      if hit.Some? {
        return hit;
      }
    }
    KeyAbsent(sl, order, rank, k);
    return None;
  }

  /** Where a descent for `k` stops on some level: on level 0 the next pair
      is `k` itself whenever `k` is stored, and when `k` is the first pair the
      descent never leaves the head. */
  lemma StoppedOnKey(sl: ZSkipList, order: seq<Handle>, rk: nat, j: nat, k: Entry)
    requires Valid(sl, order) && rk <= |order| && BeforeKey(sl, order, rk, k)
    requires j < Active(sl, order, rk) && StopsAtKey(sl, order, rk, j, k)
    ensures j == 0 && k in Entries(sl, order) ==>
      rk < |order| && Entries(sl, order)[rk] == k && LinkAt(sl, order, rk, 0).forward == Some(order[rk])
    ensures 0 < |order| && Entries(sl, order)[0] == k ==> rk == 0
  {
    var es := Entries(sl, order);
    if j == 0 && k in es {
      KeyPartition(sl, order, rk, k);
      var t :| 0 <= t < |es| && es[t] == k;
      SortedBefore(es, rk, t);
      Level0Step(sl, order, rk);
    }
    if 0 < |order| && es[0] == k && rk > 0 {
      SortedBefore(es, 0, rk - 1);
    }
  }

  /** `zsl_get_rank` as written: the same descent, but on each level a node
      whose value equals `k`'s is taken as the answer at once, reporting the
      rank of the node in front of it (from the head only on level 0, where
      it reports 0). The value alone is compared, and on a level above 0 the
      node in front may be several positions back. What does hold is that an
      answer never lies past a node carrying the value, that a stored pair
      always gets an answer once level 0 is still to come, and that the
      first pair, asked for from the head, gets 0. */
  function RankAsWrittenFrom(sl: ZSkipList, ghost order: seq<Handle>, cur: Handle, rank: nat, i: nat, k: Entry)
    : (r: Option<nat>)
    requires Valid(sl, order) && rank <= |order| && cur == HandleAt(order, rank)
    requires i <= Active(sl, order, rank) && BeforeKey(sl, order, rank, k)
    ensures r.Some? ==> exists j :: r.value <= j < |order| && Entries(sl, order)[j].value == k.value
    ensures 0 < i && k in Entries(sl, order) ==> r.Some?
    ensures 0 < i && rank == 0 && 0 < |order| && Entries(sl, order)[0] == k ==> r == Some(0)
    decreases i
  {
    if i == 0 then
      None
    else
      var j := i - 1;
      var step := SkipKeysBelow(sl, order, cur, rank, j, k);
      var c, rk := step.0, step.1;
      assert c == HandleAt(order, rk);
      StoppedOnKey(sl, order, rk, j, k);
      var next := sl.nodes[c].links[j].forward;
      if next.None? then
        RankAsWrittenFrom(sl, order, c, rk, j, k)
      else
        assert rk + sl.nodes[c].links[j].span == FollowLink(sl, order, rk, j);
        if sl.nodes[c].val.Some? && sl.nodes[next.value].val.value == k.value then
          Some(rk)
        else if j == 0 && sl.nodes[next.value].val.value == k.value then
          Some(0)
        else
          RankAsWrittenFrom(sl, order, c, rk, j, k)
  }

  /** `zsl_get_rank(score, value)` as written. A stored pair always gets an
      answer (not always the right one), and the first pair gets 0. */
  function GetRankAsWritten(sl: ZSkipList, ghost order: seq<Handle>, score: real, value: int): (r: Option<nat>)
    requires Valid(sl, order)
    ensures r.Some? ==> exists j :: r.value <= j < |order| && Entries(sl, order)[j].value == value
    ensures Entry(score, value) in Entries(sl, order) ==> r.Some?
    ensures 0 < |order| && Entries(sl, order)[0] == Entry(score, value) ==> r == Some(0)
  {
    NonEmptyHasLevel(sl, order);
    RankAsWrittenFrom(sl, order, HeadHandle, 0, sl.curLevel, Entry(score, value))
  }

  /** A three-node list (1.0, 1), (2.0, 2), (3.0, 3) whose first and last
      nodes reach level 1: the head and the first node link over the middle
      node on that level. */
  function ThreeNodeList(): ZSkipList {
    var head := Node(None, MaxLevel - 1, 0.0, None,
                     [Link(Some(1), 1), Link(Some(1), 1)] + EmptyTower(MaxLevel - 2));
    var n1 := Node(Some(1), 2, 1.0, None, [Link(Some(2), 1), Link(Some(3), 2), Link(None, 0)]);
    var n2 := Node(Some(2), 1, 2.0, Some(1), [Link(Some(3), 1), Link(None, 0)]);
    var n3 := Node(Some(3), 2, 3.0, Some(2), [Link(None, 0), Link(None, 0), Link(None, 0)]);
    ZSkipList([head, n1, n2, n3], 3, 2, 3)
  }

  lemma ThreeNodeListShaped()
    ensures Shaped(ThreeNodeList(), [1, 2, 3])
    ensures Entries(ThreeNodeList(), [1, 2, 3]) == [Entry(1.0, 1), Entry(2.0, 2), Entry(3.0, 3)]
  {
    var sl, order := ThreeNodeList(), [1, 2, 3];
    assert NodeShaped(sl.nodes[1], 2) && NodeShaped(sl.nodes[2], 2) && NodeShaped(sl.nodes[3], 2);
  }

  lemma ThreeNodeListLink(p: nat, i: nat)
    requires Shaped(ThreeNodeList(), [1, 2, 3]) && p <= 3 && i < Active(ThreeNodeList(), [1, 2, 3], p)
    ensures LinkOk(ThreeNodeList(), [1, 2, 3], p, i)
  {
    var sl, order := ThreeNodeList(), [1, 2, 3];
    assert Hgt(sl, order, 1) == 2 && Hgt(sl, order, 2) == 1 && Hgt(sl, order, 3) == 2;
  }

  lemma ThreeNodeListValid()
    ensures Valid(ThreeNodeList(), [1, 2, 3])
    ensures Entries(ThreeNodeList(), [1, 2, 3]) == [Entry(1.0, 1), Entry(2.0, 2), Entry(3.0, 3)]
  {
    var sl, order := ThreeNodeList(), [1, 2, 3];
    ThreeNodeListShaped();
    forall p, i | 0 <= p <= |order| && 0 <= i < Active(sl, order, p)
      ensures LinkOk(sl, order, p, i)
    {
      ThreeNodeListLink(p, i);
    }
  }

  /** On that list, asking for (3.0, 3) — the pair at 0-based rank 2 — makes
      the written descent stop on level 1 in front of the last node and
      report rank 1, the rank of (2.0, 2). */
  lemma GetRankAsWrittenMisranks()
    ensures Valid(ThreeNodeList(), [1, 2, 3])
    ensures GetRankAsWritten(ThreeNodeList(), [1, 2, 3], 3.0, 3) == Some(1)
    ensures Entries(ThreeNodeList(), [1, 2, 3])[1] != Entry(3.0, 3)
    ensures Entries(ThreeNodeList(), [1, 2, 3])[2] == Entry(3.0, 3)
  {
    ThreeNodeListValid();
    var sl, order, k := ThreeNodeList(), [1, 2, 3], Entry(3.0, 3);
    assert SkipKeysBelow(sl, order, 1, 1, 1, k) == (1, 1);
    assert SkipKeysBelow(sl, order, 0, 0, 1, k) == (1, 1);
  }
}

=== FILE: zskiplist_state.dfy ===
/** The state of the sorted-set skip list (`src/collection/skiplist/zskiplist.rs`)
    and the invariant that ties its arena of nodes to the level-0 order.

    Nodes live in an arena `nodes`; handle 0 is the head. The ghost sequence
    `order` lists the handles of the real nodes in level-0 order, so the node
    at 1-based position `t` is `order[t - 1]` and position 0 is the head. */
module ZSkipListState {
  import opened Wrappers
  import opened ZSkipNode
  import LevelGenerator

  /** ZSKIPLIST_MAXLEVEL, taken to be 16 (see `LevelGenerator.MaxLevel`). */
  const MaxLevel: nat := LevelGenerator.MaxLevel

  const HeadHandle: Handle := 0

  datatype ZSkipList = ZSkipList(nodes: seq<Node>, tail: Handle, curLevel: nat, len: nat)

  /** A stored (score, value) pair. */
  datatype Entry = Entry(score: real, value: int)

  /** The insertion order: by score, then by value. */
  predicate EntryLt(a: Entry, b: Entry) {
    a.score < b.score || (a.score == b.score && a.value < b.value)
  }

  predicate EntryLe(a: Entry, b: Entry) {
    !EntryLt(b, a)
  }

  ghost predicate Sorted(es: seq<Entry>) {
    forall a, b :: 0 <= a < b < |es| ==> EntryLe(es[a], es[b])
  }

  /** A real node: it holds a value, its level lies in [1, curLevel], and its
      tower has the `level + 1` slots `ZSkipNode::new` allocates, the top one
      unused. */
  predicate NodeShaped(n: Node, curLevel: nat) {
    && n.val.Some?
    && 1 <= n.level <= curLevel
    && |n.links| == n.level + 1
    && n.links[n.level] == Link(None, 0)
  }

  /** Handles and towers are where the invariant expects them. */
  ghost predicate Shaped(sl: ZSkipList, order: seq<Handle>) {
    && |sl.nodes| >= 1
    && sl.nodes[HeadHandle].val.None?
    && |sl.nodes[HeadHandle].links| == MaxLevel
    && sl.curLevel <= MaxLevel
    && sl.len == |order|
    && (forall t :: 0 <= t < |order| ==> 1 <= order[t] < |sl.nodes|)
    && (forall a, b :: 0 <= a < b < |order| ==> order[a] != order[b])
    && (forall t :: 0 <= t < |order| ==> NodeShaped(sl.nodes[order[t]], sl.curLevel))
  }

  /** The handle at 1-based position `p`; position 0 is the head. */
  function HandleAt(order: seq<Handle>, p: nat): Handle
    requires p <= |order|
  {
    if p == 0 then HeadHandle else order[p - 1]
  }

  /** The number of levels in use at position `p`: `curLevel` for the head,
      the node's level otherwise. */
  ghost function Active(sl: ZSkipList, order: seq<Handle>, p: nat): nat
    requires Shaped(sl, order) && p <= |order|
  {
    if p == 0 then sl.curLevel else sl.nodes[order[p - 1]].level
  }

  /** The level of the real node at 1-based position `t`. */
  ghost function Hgt(sl: ZSkipList, order: seq<Handle>, t: nat): nat
    requires Shaped(sl, order) && 1 <= t <= |order|
  {
    sl.nodes[order[t - 1]].level
  }

  ghost function LinkAt(sl: ZSkipList, order: seq<Handle>, p: nat, i: nat): Link
    requires Shaped(sl, order) && p <= |order| && i < Active(sl, order, p)
  {
    sl.nodes[HandleAt(order, p)].links[i]
  }

  /** The level-`i` link of position `p` points at the first later position
      whose node reaches above level `i`, and its span is the distance to it;
      with no such position the link is empty and its span is the distance to
      the end, `len - p`. */
  ghost predicate LinkOk(sl: ZSkipList, order: seq<Handle>, p: nat, i: nat)
    requires Shaped(sl, order) && p <= |order| && i < Active(sl, order, p)
  {
    var l := LinkAt(sl, order, p, i);
    var n := |order|;
    if l.forward.None? then
      && l.span == n - p
      && (forall t :: p < t <= n ==> Hgt(sl, order, t) <= i)
    else
      && p < p + l.span <= n
      && l.forward.value == order[p + l.span - 1]
      && Hgt(sl, order, p + l.span) > i
      && (forall t :: p < t < p + l.span ==> Hgt(sl, order, t) <= i)
  }

  function EntryOf(n: Node): Entry
    requires n.val.Some?
  {
    Entry(n.score, n.val.value)
  }

  /** The stored pairs in level-0 order. */
  ghost function Entries(sl: ZSkipList, order: seq<Handle>): (es: seq<Entry>)
    requires Shaped(sl, order)
    ensures |es| == |order|
    ensures forall t :: 0 <= t < |order| ==> es[t] == EntryOf(sl.nodes[order[t]])
  {
    seq(|order|, t requires 0 <= t < |order| => EntryOf(sl.nodes[order[t]]))
  }

  /** The stored values in level-0 order. */
  ghost function Values(sl: ZSkipList, order: seq<Handle>): (vs: seq<int>)
    requires Shaped(sl, order)
    ensures |vs| == |order|
    ensures forall t :: 0 <= t < |order| ==> vs[t] == sl.nodes[order[t]].val.value
  {
    seq(|order|, t requires 0 <= t < |order| => sl.nodes[order[t]].val.value)
  }

  /** The skip-list invariant: order, spans, backward links, tail, level bound. */
  ghost predicate Valid(sl: ZSkipList, order: seq<Handle>) {
    && Shaped(sl, order)
    && Sorted(Entries(sl, order))
    && (forall p, i :: 0 <= p <= |order| && 0 <= i < Active(sl, order, p) ==> LinkOk(sl, order, p, i))
    && (forall i :: sl.curLevel <= i < MaxLevel ==> sl.nodes[HeadHandle].links[i].forward == None)
    && (forall t :: 0 <= t < |order| ==>
          sl.nodes[order[t]].backward == (if t == 0 then None else Some(order[t - 1])))
    && sl.tail == (if |order| == 0 then HeadHandle else order[|order| - 1])
  }

  /** The values are in non-decreasing order along the list: the condition
      under which the value-only comparisons of `contains` and `zsl_delete`
      agree with the (score, value) order. */
  ghost predicate ValueSorted(sl: ZSkipList, order: seq<Handle>)
    requires Shaped(sl, order)
  {
    forall a, b :: 0 <= a < b < |order| ==> Values(sl, order)[a] <= Values(sl, order)[b]
  }

  /** Following a level-0 link moves exactly one position. */
  lemma Level0Step(sl: ZSkipList, order: seq<Handle>, p: nat)
    requires Valid(sl, order) && p <= |order| && 0 < Active(sl, order, p)
    ensures p < |order| ==> LinkAt(sl, order, p, 0) == Link(Some(order[p]), 1)
    ensures p == |order| ==> LinkAt(sl, order, p, 0) == Link(None, 0)
  {
    assert LinkOk(sl, order, p, 0);
    if p < |order| {
      assert NodeShaped(sl.nodes[order[p]], sl.curLevel);
      assert Hgt(sl, order, p + 1) >= 1;
    }
  }

  /** Following the level-`i` link of position `p` lands on the position
      `q = p + span`, whose node is real, reaches above level `i` and has a
      well-formed level-`i` link of its own. */
  ghost function FollowLink(sl: ZSkipList, order: seq<Handle>, p: nat, i: nat): (q: nat)
    requires Valid(sl, order) && p <= |order| && i < Active(sl, order, p)
    requires sl.nodes[HandleAt(order, p)].links[i].forward.Some?
    ensures q == p + sl.nodes[HandleAt(order, p)].links[i].span
    ensures p < q <= |order|
    ensures sl.nodes[HandleAt(order, p)].links[i].forward == Some(order[q - 1])
    ensures HandleAt(order, q) == order[q - 1] < |sl.nodes|
    ensures sl.nodes[order[q - 1]].val.Some?
    ensures i < Active(sl, order, q) && LinkOk(sl, order, q, i)
  {
    assert LinkOk(sl, order, p, i);
    var q := p + LinkAt(sl, order, p, i).span;
    assert NodeShaped(sl.nodes[order[q - 1]], sl.curLevel);
    q
  }

  /** A non-empty list has its head on level 0, hence `curLevel >= 1`. */
  lemma NonEmptyHasLevel(sl: ZSkipList, order: seq<Handle>)
    requires Shaped(sl, order)
    ensures |order| > 0 ==> sl.curLevel >= 1
  {
    if |order| > 0 {
      assert NodeShaped(sl.nodes[order[0]], sl.curLevel);
    }
  }

  /** In a sorted list, position order and entry order agree. */
  lemma SortedBefore(es: seq<Entry>, a: nat, b: nat)
    requires Sorted(es) && a <= b < |es|
    ensures EntryLe(es[a], es[b])
  {
    if a < b {
    }
  }
}

=== FILE: zskiplist_unlink.dfy ===
/** Taking one node out of the skip list, as `zsl_delete` must once it has
    found the node: on every level below `curLevel`, the recorded node either
    linked to the removed node, and now takes over its link and span, or
    passed over it, and its span shrinks by one. The node after the removed
    one points back past it, or the tail moves back. */
module ZSkipListUnlink {
  import opened Wrappers
  import opened ZSkipNode
  import opened ZSkipListState
  import opened ZSkipListInsert

  /** What the unlink needs to be well defined on the arena `nodes` for the
      node `x`: every recorded node below `top` is another node with a link
      on its level, a span of at least one, and, where it links to `x`, `x`
      has that level too. */
  ghost predicate UnlinkFrame(nodes: seq<Node>, update: seq<Handle>, x: Handle, top: nat) {
    && |update| == MaxLevel && top <= MaxLevel && x < |nodes| && 0 < |nodes[x].links|
    && forall j :: 0 <= j < top ==>
         && update[j] < |nodes| && update[j] != x && j < |nodes[update[j]].links|
         && (update[j] == HeadHandle || j < nodes[update[j]].level)
         && 1 <= nodes[update[j]].links[j].span
         && (nodes[update[j]].links[j].forward == Some(x) ==> j < |nodes[x].links|)
  }

  /** The level-`j` link of handle `h` once `x` is unlinked. */
  ghost function UnlinkedLink(nodes: seq<Node>, update: seq<Handle>, x: Handle, top: nat, h: Handle, j: nat): Link
    requires UnlinkFrame(nodes, update, x, top) && h < |nodes| && j < |nodes[h].links|
  {
    if j < top && h == update[j] then
      var u := nodes[h].links[j];
      if u.forward == Some(x) then Link(nodes[x].links[j].forward, u.span + nodes[x].links[j].span - 1)
      else u.(span := u.span - 1)
    else
      nodes[h].links[j]
  }

  /** The arena `nodes` has the unlinked links on levels `i` and up and those
      of `n0` below. */
  ghost predicate UnlinkedAbove(n0: seq<Node>, update: seq<Handle>, x: Handle, top: nat, nodes: seq<Node>, i: nat)
    requires UnlinkFrame(n0, update, x, top)
  {
    && |nodes| == |n0|
    && (forall h :: 0 <= h < |n0| ==> SameButLinks(nodes[h], n0[h]))
    && (forall h, j :: 0 <= h < |n0| && 0 <= j < |n0[h].links| ==>
          nodes[h].links[j] == if i <= j then UnlinkedLink(n0, update, x, top, h, j) else n0[h].links[j])
  }

  /** The level loop, from the top level down: bypass `x` where the recorded
      node links to it, otherwise count one node less under the span. */
  method UnlinkLevels(n0: seq<Node>, update: seq<Handle>, x: Handle, top: nat) returns (nodes: seq<Node>)
    requires UnlinkFrame(n0, update, x, top)
    ensures UnlinkedAbove(n0, update, x, top, nodes, 0)
  {
    nodes := n0;
    var i := top;
    while i > 0
      invariant 0 <= i <= top
      invariant UnlinkedAbove(n0, update, x, top, nodes, i)
    {
      i := i - 1;
      var u := update[i];
      var un := nodes[u];
      var ul := un.links[i];
      if ul.forward == Some(x) {
        var xl := nodes[x].links[i];
        nodes := nodes[u := un.(links := un.links[i := Link(xl.forward, ul.span + xl.span - 1)])];
      } else {
        nodes := nodes[u := un.(links := un.links[i := ul.(span := ul.span - 1)])];
      }
    }
  }

  /** The node after `x` on level 0, if any, points back where `x` did. */
  function Relink(n0: seq<Node>, update: seq<Handle>, x: Handle, top: nat, nodes: seq<Node>): (r: seq<Node>)
    requires UnlinkFrame(n0, update, x, top) && UnlinkedAbove(n0, update, x, top, nodes, 0)
    ensures |r| == |nodes|
    ensures forall h :: 0 <= h < |r| ==> r[h].links == nodes[h].links && SameButLinks(nodes[h], n0[h])
    ensures forall h :: 0 <= h < |r| ==> r[h].val == nodes[h].val && r[h].level == nodes[h].level
                                          && r[h].score == nodes[h].score
    ensures forall h :: 0 <= h < |r| ==>
              r[h].backward == if h != x && n0[x].links[0].forward == Some(h) then n0[x].backward else n0[h].backward
  {
    var xn := nodes[x];
    assert xn.links[0] == n0[x].links[0];
    match xn.links[0].forward
    case Some(f) =>
      if f < |nodes| && f != x then nodes[f := nodes[f].(backward := xn.backward)] else nodes
    case None => nodes
  }

  /** The tail once `x` is out: where `x`'s backward link pointed (the head
      when it had none) if nothing followed `x`, else unchanged. */
  function TailAfter(sl: ZSkipList, x: Handle): (t: Handle)
    requires x < |sl.nodes| && 0 < |sl.nodes[x].links|
    ensures sl.nodes[x].links[0].forward.Some? ==> t == sl.tail
  {
    var xn := sl.nodes[x];
    if xn.links[0].forward.None? then
      (if xn.backward.None? then HeadHandle else xn.backward.value)
    else sl.tail
  }

  /** `sl2` is `sl1` with `x` unlinked and one pair fewer. */
  ghost predicate Deleted(sl1: ZSkipList, update: seq<Handle>, x: Handle, sl2: ZSkipList)
    requires UnlinkFrame(sl1.nodes, update, x, sl1.curLevel)
  {
    var n0 := sl1.nodes;
    && |sl2.nodes| == |n0| && sl2.curLevel == sl1.curLevel && sl2.len + 1 == sl1.len
    && (forall h :: 0 <= h < |n0| ==>
          && sl2.nodes[h].val == n0[h].val && sl2.nodes[h].level == n0[h].level
          && sl2.nodes[h].score == n0[h].score && |sl2.nodes[h].links| == |n0[h].links|)
    && (forall h, j :: 0 <= h < |n0| && 0 <= j < |n0[h].links| ==>
          sl2.nodes[h].links[j] == UnlinkedLink(n0, update, x, sl1.curLevel, h, j))
    && (forall h :: 0 <= h < |n0| ==>
          sl2.nodes[h].backward ==
            if h != x && n0[x].links[0].forward == Some(h) then n0[x].backward else n0[h].backward)
    && sl2.tail == TailAfter(sl1, x)
  }

  /** The level-0 order without index `p0`. */
  function Del(order: seq<Handle>, p0: nat): (o: seq<Handle>)
    requires p0 < |order|
    ensures |o| + 1 == |order|
    ensures forall t :: 0 <= t < p0 ==> o[t] == order[t]
    ensures forall t :: p0 <= t < |o| ==> o[t] == order[t + 1]
  {
    order[..p0] + order[p0 + 1..]
  }

  /** The path recorded for the node at index `p0` satisfies what the unlink
      needs. */
  lemma DeleteFrame(sl: ZSkipList, order: seq<Handle>, p0: nat, update: seq<Handle>, rank: seq<nat>)
    requires Valid(sl, order) && p0 < |order| && PathTo(sl, order, p0, update, rank, sl.curLevel)
    ensures UnlinkFrame(sl.nodes, update, order[p0], sl.curLevel)
  {
    var x := order[p0];
    assert NodeShaped(sl.nodes[x], sl.curLevel);
    forall j | 0 <= j < sl.curLevel
      ensures update[j] < |sl.nodes| && update[j] != x && j < |sl.nodes[update[j]].links|
      ensures update[j] == HeadHandle || j < sl.nodes[update[j]].level
      ensures 1 <= sl.nodes[update[j]].links[j].span
      ensures sl.nodes[update[j]].links[j].forward == Some(x) ==> j < |sl.nodes[x].links|
    {
      var r := rank[j];
      assert UpdateAt(sl, order, p0, r, j) && update[j] == HandleAt(order, r);
      HandleAtInjective(sl, order, r, p0 + 1);
      if r > 0 {
        assert NodeShaped(sl.nodes[order[r - 1]], sl.curLevel);
      }
      assert LinkOk(sl, order, r, j);
      if sl.nodes[update[j]].links[j].forward == Some(x) {
        var q := r + LinkAt(sl, order, r, j).span;
        assert order[q - 1] == order[p0];
        assert q == p0 + 1;
      }
    }
  }

  /** Heights after the removal: positions up to `p0` keep theirs, later
      positions move down by one. */
  ghost predicate HgtDropped(sl1: ZSkipList, order: seq<Handle>, sl2: ZSkipList, o2: seq<Handle>, p0: nat)
    requires Shaped(sl1, order) && Shaped(sl2, o2) && |o2| + 1 == |order| && p0 < |order|
  {
    forall t {:trigger Hgt(sl2, o2, t)} :: 1 <= t <= |o2| ==>
      Hgt(sl2, o2, t) == if t <= p0 then Hgt(sl1, order, t) else Hgt(sl1, order, t + 1)
  }

  /** Each remaining node is as before, apart from links. */
  lemma DeletedShaped(sl1: ZSkipList, order: seq<Handle>, p0: nat, update: seq<Handle>, sl2: ZSkipList, o2: seq<Handle>)
    requires Shaped(sl1, order) && p0 < |order|
    requires UnlinkFrame(sl1.nodes, update, order[p0], sl1.curLevel) && Deleted(sl1, update, order[p0], sl2)
    requires |o2| + 1 == |order| && o2 == Del(order, p0)
    ensures Shaped(sl2, o2) && HgtDropped(sl1, order, sl2, o2, p0)
  {
    forall t | 0 <= t < |o2|
      ensures 1 <= o2[t] < |sl2.nodes| && NodeShaped(sl2.nodes[o2[t]], sl2.curLevel)
      ensures sl2.nodes[o2[t]].level == sl1.nodes[o2[t]].level
    {
      var h := o2[t];
      var t1 := if t < p0 then t else t + 1;
      assert h == order[t1];
      assert NodeShaped(sl1.nodes[h], sl1.curLevel);
      var lv := sl1.nodes[h].level;
      assert sl2.nodes[h].links[lv] == UnlinkedLink(sl1.nodes, update, order[p0], sl1.curLevel, h, lv);
    }
    forall a, b | 0 <= a < b < |o2|
      ensures o2[a] != o2[b]
    {
      var a1, b1 := if a < p0 then a else a + 1, if b < p0 then b else b + 1;
      assert o2[a] == order[a1] && o2[b] == order[b1];
    }
    assert Shaped(sl2, o2);
  }

  /** The recorded node linked to the removed one: it now takes over the
      removed node's link, with the two spans joined less the removed step. */
  lemma CaseBypass(sl1: ZSkipList, order: seq<Handle>, sl2: ZSkipList, o2: seq<Handle>, p0: nat, r: nat, i: nat)
    requires Shaped(sl1, order) && Shaped(sl2, o2) && p0 < |order| && |o2| + 1 == |order|
    requires o2 == Del(order, p0) && HgtDropped(sl1, order, sl2, o2, p0)
    requires r <= p0 && i < Active(sl1, order, r) && LinkOk(sl1, order, r, i)
    requires LinkAt(sl1, order, r, i).forward.Some? && r + LinkAt(sl1, order, r, i).span == p0 + 1
    requires i < Active(sl1, order, p0 + 1) && LinkOk(sl1, order, p0 + 1, i)
    requires i < Active(sl2, o2, r)
    requires LinkAt(sl2, o2, r, i)
          == Link(LinkAt(sl1, order, p0 + 1, i).forward, LinkAt(sl1, order, r, i).span + LinkAt(sl1, order, p0 + 1, i).span - 1)
    ensures LinkOk(sl2, o2, r, i)
  {
    var lx := LinkAt(sl1, order, p0 + 1, i);
    var end := if lx.forward.None? then |order| + 1 else p0 + 1 + lx.span;
    forall t | r < t < end - 1
      ensures Hgt(sl2, o2, t) <= i
    {
      if t <= p0 {
        assert Hgt(sl2, o2, t) == Hgt(sl1, order, t);
      } else {
        assert Hgt(sl2, o2, t) == Hgt(sl1, order, t + 1);
      }
    }
    if lx.forward.Some? {
      assert o2[end - 2] == order[end - 1];
      assert Hgt(sl2, o2, end - 1) == Hgt(sl1, order, end);
    }
  }

  /** The recorded node passed over the removed one: same target, one step
      shorter. */
  lemma CaseShrink(sl1: ZSkipList, order: seq<Handle>, sl2: ZSkipList, o2: seq<Handle>, p0: nat, r: nat, i: nat)
    requires Shaped(sl1, order) && Shaped(sl2, o2) && p0 < |order| && |o2| + 1 == |order|
    requires o2 == Del(order, p0) && HgtDropped(sl1, order, sl2, o2, p0)
    requires r <= p0 && i < Active(sl1, order, r) && LinkOk(sl1, order, r, i)
    requires LinkAt(sl1, order, r, i).forward.None? || r + LinkAt(sl1, order, r, i).span > p0 + 1
    requires i < Active(sl2, o2, r) && 1 <= LinkAt(sl1, order, r, i).span
    requires LinkAt(sl2, o2, r, i) == LinkAt(sl1, order, r, i).(span := LinkAt(sl1, order, r, i).span - 1)
    ensures LinkOk(sl2, o2, r, i)
  {
    var l := LinkAt(sl1, order, r, i);
    var end := if l.forward.None? then |order| + 1 else r + l.span;
    forall t | r < t < end - 1
      ensures Hgt(sl2, o2, t) <= i
    {
      if t <= p0 {
        assert Hgt(sl2, o2, t) == Hgt(sl1, order, t);
      } else {
        assert Hgt(sl2, o2, t) == Hgt(sl1, order, t + 1);
      }
    }
    if l.forward.Some? {
      assert o2[end - 2] == order[end - 1];
      assert Hgt(sl2, o2, end - 1) == Hgt(sl1, order, end);
    }
  }

  /** A link before the recorded node of its level ends at or before it, so
      it is untouched by the removal. */
  lemma CaseBefore(sl1: ZSkipList, order: seq<Handle>, sl2: ZSkipList, o2: seq<Handle>, p0: nat, p: nat, r: nat, i: nat)
    requires Shaped(sl1, order) && Shaped(sl2, o2) && p0 < |order| && |o2| + 1 == |order|
    requires o2 == Del(order, p0) && HgtDropped(sl1, order, sl2, o2, p0)
    requires r <= p0 && i < Active(sl1, order, r) && LinkOk(sl1, order, r, i)
    requires LinkAt(sl1, order, r, i).forward.None? || r + LinkAt(sl1, order, r, i).span > p0
    requires p <= p0 && p != r && i < Active(sl1, order, p) && LinkOk(sl1, order, p, i)
    requires i < Active(sl2, o2, p) && LinkAt(sl2, o2, p, i) == LinkAt(sl1, order, p, i)
    ensures LinkOk(sl2, o2, p, i)
  {
    if 0 < p {
      assert Active(sl1, order, p) == Hgt(sl1, order, p);
    }
    assert p < r;
    assert 0 < r && Hgt(sl1, order, r) > i;
    var l := LinkAt(sl1, order, p, i);
    assert l.forward.Some? && p + l.span <= r;
    forall t | p < t <= p + l.span
      ensures Hgt(sl2, o2, t) == Hgt(sl1, order, t)
    {
    }
    assert o2[p + l.span - 1] == order[p + l.span - 1];
  }

  /** A link after the removed node keeps its target, one position back. */
  lemma CaseAfter(sl1: ZSkipList, order: seq<Handle>, sl2: ZSkipList, o2: seq<Handle>, p0: nat, p2: nat, i: nat)
    requires Shaped(sl1, order) && Shaped(sl2, o2) && p0 < |order| && |o2| + 1 == |order|
    requires o2 == Del(order, p0) && HgtDropped(sl1, order, sl2, o2, p0)
    requires p0 < p2 <= |o2| && i < Active(sl1, order, p2 + 1) && LinkOk(sl1, order, p2 + 1, i)
    requires i < Active(sl2, o2, p2) && LinkAt(sl2, o2, p2, i) == LinkAt(sl1, order, p2 + 1, i)
    ensures LinkOk(sl2, o2, p2, i)
  {
    var l := LinkAt(sl1, order, p2 + 1, i);
    var end := if l.forward.None? then |order| + 1 else p2 + 1 + l.span;
    forall t | p2 < t < end - 1
      ensures Hgt(sl2, o2, t) <= i
    {
      assert Hgt(sl2, o2, t) == Hgt(sl1, order, t + 1);
    }
    if l.forward.Some? {
      assert o2[end - 2] == order[end - 1];
      assert Hgt(sl2, o2, end - 1) == Hgt(sl1, order, end);
    }
  }

  /** Everything the link proofs need about one removal: `sl1` is valid,
      the path recorded for index `p0` is `update`/`rank`, `sl2` is `sl1`
      with the node at `p0` unlinked and `o2` its level-0 order. */
  ghost predicate DeleteBase(sl1: ZSkipList, order: seq<Handle>, p0: nat, update: seq<Handle>, rank: seq<nat>,
                             sl2: ZSkipList, o2: seq<Handle>)
  {
    && Valid(sl1, order) && p0 < |order|
    && PathTo(sl1, order, p0, update, rank, sl1.curLevel)
    && UnlinkFrame(sl1.nodes, update, order[p0], sl1.curLevel)
    && Deleted(sl1, update, order[p0], sl2)
    && |o2| + 1 == |order| && o2 == Del(order, p0)
  }

  /** `DeleteBase` together with the shape of the new list. */
  ghost predicate DeleteStep(sl1: ZSkipList, order: seq<Handle>, p0: nat, update: seq<Handle>, rank: seq<nat>,
                             sl2: ZSkipList, o2: seq<Handle>)
  {
    && DeleteBase(sl1, order, p0, update, rank, sl2, o2)
    && Shaped(sl2, o2) && HgtDropped(sl1, order, sl2, o2, p0)
  }

  /** The level-`i` link at index `p2` of the new list is the unlinked link
      of the handle there. */
  lemma UnlinkedAt(sl1: ZSkipList, order: seq<Handle>, p0: nat, update: seq<Handle>, rank: seq<nat>,
                   sl2: ZSkipList, o2: seq<Handle>, p2: nat, i: nat)
    requires DeleteStep(sl1, order, p0, update, rank, sl2, o2)
    requires p2 <= |o2| && i < Active(sl2, o2, p2)
    ensures HandleAt(o2, p2) < |sl1.nodes| && i < |sl1.nodes[HandleAt(o2, p2)].links|
    ensures LinkAt(sl2, o2, p2, i) == UnlinkedLink(sl1.nodes, update, order[p0], sl1.curLevel, HandleAt(o2, p2), i)
  {
    if p2 > 0 {
      assert NodeShaped(sl2.nodes[o2[p2 - 1]], sl2.curLevel);
    }
  }

  /** The recorded node of level `i`, at index `r`, either bypasses the
      removed node or counts one node less. */
  lemma RecordedCase(sl1: ZSkipList, order: seq<Handle>, p0: nat, update: seq<Handle>, r: nat,
                     sl2: ZSkipList, o2: seq<Handle>, i: nat)
    requires Shaped(sl1, order) && Shaped(sl2, o2) && p0 < |order| && |o2| + 1 == |order| && o2 == Del(order, p0)
    requires HgtDropped(sl1, order, sl2, o2, p0)
    requires UnlinkFrame(sl1.nodes, update, order[p0], sl1.curLevel) && Deleted(sl1, update, order[p0], sl2)
    requires i < sl1.curLevel && r <= p0 && update[i] == HandleAt(order, r)
    requires i < Active(sl1, order, r) && LinkOk(sl1, order, r, i)
    requires LinkAt(sl1, order, r, i).forward.None? || r + LinkAt(sl1, order, r, i).span > p0
    requires i < Active(sl1, order, p0 + 1) ==> LinkOk(sl1, order, p0 + 1, i)
    requires i < Active(sl2, o2, r)
    ensures LinkOk(sl2, o2, r, i)
  {
    var x := order[p0];
    assert HandleAt(o2, r) == update[i];
    var u := LinkAt(sl1, order, r, i);
    assert LinkAt(sl2, o2, r, i) == UnlinkedLink(sl1.nodes, update, x, sl1.curLevel, update[i], i);
    if u.forward == Some(x) {
      var q := r + u.span;
      assert order[q - 1] == order[p0];
      HandleAtInjective(sl1, order, q, p0 + 1);
      assert q == p0 + 1;
      CaseBypass(sl1, order, sl2, o2, p0, r, i);
    } else {
      if u.forward.Some? {
        assert order[r + u.span - 1] != order[p0];
      }
      CaseShrink(sl1, order, sl2, o2, p0, r, i);
    }
  }

  /** The recorded node of level `i` keeps a correct link. */
  lemma RecordedLink(sl1: ZSkipList, order: seq<Handle>, p0: nat, update: seq<Handle>, rank: seq<nat>,
                     sl2: ZSkipList, o2: seq<Handle>, i: nat)
    requires DeleteStep(sl1, order, p0, update, rank, sl2, o2)
    requires i < sl1.curLevel && i < Active(sl2, o2, rank[i])
    ensures LinkOk(sl2, o2, rank[i], i)
  {
    var r := rank[i];
    assert UpdateAt(sl1, order, p0, r, i) && update[i] == HandleAt(order, r);
    assert LinkOk(sl1, order, r, i);
    if i < Active(sl1, order, p0 + 1) {
      assert LinkOk(sl1, order, p0 + 1, i);
    }
    RecordedCase(sl1, order, p0, update, r, sl2, o2, i);
  }

  /** A link of a node before the recorded node of its level is unchanged. */
  lemma UntouchedLink(sl1: ZSkipList, order: seq<Handle>, p0: nat, update: seq<Handle>, rank: seq<nat>,
                      sl2: ZSkipList, o2: seq<Handle>, p2: nat, i: nat)
    requires DeleteStep(sl1, order, p0, update, rank, sl2, o2)
    requires p2 <= p0 && i < Active(sl2, o2, p2) && i < sl1.curLevel && p2 != rank[i]
    ensures LinkOk(sl2, o2, p2, i)
  {
    var r := rank[i];
    UnlinkedAt(sl1, order, p0, update, rank, sl2, o2, p2, i);
    assert HandleAt(o2, p2) == HandleAt(order, p2);
    assert UpdateAt(sl1, order, p0, r, i) && update[i] == HandleAt(order, r);
    HandleAtInjective(sl1, order, p2, r);
    assert Active(sl2, o2, p2) == Active(sl1, order, p2);
    assert LinkOk(sl1, order, r, i);
    assert LinkOk(sl1, order, p2, i);
    CaseBefore(sl1, order, sl2, o2, p0, p2, r, i);
  }

  /** The links of the head and of the nodes before the removed one are
      correct. */
  lemma EarlierLink(sl1: ZSkipList, order: seq<Handle>, p0: nat, update: seq<Handle>, rank: seq<nat>,
                    sl2: ZSkipList, o2: seq<Handle>, p2: nat, i: nat)
    requires DeleteStep(sl1, order, p0, update, rank, sl2, o2)
    requires p2 <= p0 && i < Active(sl2, o2, p2)
    ensures LinkOk(sl2, o2, p2, i)
  {
    assert Active(sl2, o2, p2) <= sl2.curLevel by {
      if p2 > 0 {
        assert NodeShaped(sl2.nodes[o2[p2 - 1]], sl2.curLevel);
      }
    }
    if p2 == rank[i] {
      RecordedLink(sl1, order, p0, update, rank, sl2, o2, i);
    } else {
      UntouchedLink(sl1, order, p0, update, rank, sl2, o2, p2, i);
    }
  }

  /** A node after the removed one keeps its links, one position back. */
  lemma LaterKept(sl1: ZSkipList, order: seq<Handle>, p0: nat, update: seq<Handle>, r: nat,
                  sl2: ZSkipList, o2: seq<Handle>, p2: nat, i: nat)
    requires Shaped(sl1, order) && Shaped(sl2, o2) && p0 < |order| && |o2| + 1 == |order| && o2 == Del(order, p0)
    requires HgtDropped(sl1, order, sl2, o2, p0)
    requires UnlinkFrame(sl1.nodes, update, order[p0], sl1.curLevel) && Deleted(sl1, update, order[p0], sl2)
    requires i < sl1.curLevel ==> r <= p0 && update[i] == HandleAt(order, r)
    requires p0 < p2 <= |o2| && i < Active(sl2, o2, p2)
    ensures i < Active(sl1, order, p2 + 1) && LinkAt(sl2, o2, p2, i) == LinkAt(sl1, order, p2 + 1, i)
  {
    var h := order[p2];
    assert o2[p2 - 1] == h;
    assert Hgt(sl2, o2, p2) == Hgt(sl1, order, p2 + 1);
    assert NodeShaped(sl1.nodes[h], sl1.curLevel);
    if i < sl1.curLevel {
      HandleAtInjective(sl1, order, p2 + 1, r);
    }
    assert sl2.nodes[h].links[i] == UnlinkedLink(sl1.nodes, update, order[p0], sl1.curLevel, h, i);
  }

  /** The links of the nodes after the removed one are correct. */
  lemma LaterLink(sl1: ZSkipList, order: seq<Handle>, p0: nat, update: seq<Handle>, rank: seq<nat>,
                  sl2: ZSkipList, o2: seq<Handle>, p2: nat, i: nat)
    requires DeleteStep(sl1, order, p0, update, rank, sl2, o2)
    requires p0 < p2 <= |o2| && i < Active(sl2, o2, p2)
    ensures LinkOk(sl2, o2, p2, i)
  {
    var r := if i < sl1.curLevel then rank[i] else 0;
    if i < sl1.curLevel {
      assert UpdateAt(sl1, order, p0, r, i) && update[i] == HandleAt(order, r);
    }
    LaterKept(sl1, order, p0, update, r, sl2, o2, p2, i);
    assert LinkOk(sl1, order, p2 + 1, i);
    CaseAfter(sl1, order, sl2, o2, p0, p2, i);
  }

  /** Every link of the new list is correct. */
  lemma DeletedLinks(sl1: ZSkipList, order: seq<Handle>, p0: nat, update: seq<Handle>, rank: seq<nat>,
                     sl2: ZSkipList, o2: seq<Handle>)
    requires DeleteStep(sl1, order, p0, update, rank, sl2, o2)
    ensures forall p, i :: 0 <= p <= |o2| && 0 <= i < Active(sl2, o2, p) ==> LinkOk(sl2, o2, p, i)
  {
    forall p2, i | 0 <= p2 <= |o2| && 0 <= i < Active(sl2, o2, p2)
      ensures LinkOk(sl2, o2, p2, i)
    {
      if p2 <= p0 {
        EarlierLink(sl1, order, p0, update, rank, sl2, o2, p2, i);
      } else {
        LaterLink(sl1, order, p0, update, rank, sl2, o2, p2, i);
      }
    }
  }

  /** The stored pairs after the removal: those of `sl1` without index `p0`. */
  lemma DeletedEntries(sl1: ZSkipList, order: seq<Handle>, p0: nat, update: seq<Handle>, sl2: ZSkipList, o2: seq<Handle>)
    requires Shaped(sl1, order) && Shaped(sl2, o2) && p0 < |order|
    requires UnlinkFrame(sl1.nodes, update, order[p0], sl1.curLevel) && Deleted(sl1, update, order[p0], sl2)
    requires |o2| + 1 == |order| && o2 == Del(order, p0)
    ensures Entries(sl2, o2) == Entries(sl1, order)[..p0] + Entries(sl1, order)[p0 + 1..]
  {
    var es1, es2 := Entries(sl1, order), Entries(sl2, o2);
    var want := es1[..p0] + es1[p0 + 1..];
    forall t | 0 <= t < |o2|
      ensures es2[t] == want[t]
    {
      var t1 := if t < p0 then t else t + 1;
      assert o2[t] == order[t1];
    }
  }

  /** Removing an index keeps a sequence sorted. */
  lemma RemoveKeepsSorted(es: seq<Entry>, p0: nat)
    requires Sorted(es) && p0 < |es|
    ensures Sorted(es[..p0] + es[p0 + 1..])
  {
    var s := es[..p0] + es[p0 + 1..];
    forall a, b | 0 <= a < b < |s|
      ensures EntryLe(s[a], s[b])
    {
      var a1, b1 := if a < p0 then a else a + 1, if b < p0 then b else b + 1;
      assert s[a] == es[a1] && s[b] == es[b1];
    }
  }

  /** Backward links after the removal: the node after the removed one
      points back where the removed one did. */
  lemma DeletedBackward(sl1: ZSkipList, order: seq<Handle>, p0: nat, update: seq<Handle>, sl2: ZSkipList,
                        o2: seq<Handle>, t: nat)
    requires Shaped(sl1, order) && p0 < |order|
    requires forall t :: 0 <= t < |order| ==> sl1.nodes[order[t]].backward == (if t == 0 then None else Some(order[t - 1]))
    requires UnlinkFrame(sl1.nodes, update, order[p0], sl1.curLevel) && Deleted(sl1, update, order[p0], sl2)
    requires |o2| + 1 == |order| && o2 == Del(order, p0) && t < |o2|
    requires sl1.nodes[order[p0]].links[0].forward == if p0 + 1 < |order| then Some(order[p0 + 1]) else None
    ensures sl2.nodes[o2[t]].backward == if t == 0 then None else Some(o2[t - 1])
  {
    var x := order[p0];
    var t1 := if t < p0 then t else t + 1;
    var h := order[t1];
    assert o2[t] == h && h != x;
    assert sl1.nodes[h].backward == if t1 == 0 then None else Some(order[t1 - 1]);
    if t == p0 {
      assert sl1.nodes[x].links[0].forward == Some(h);
      assert sl1.nodes[x].backward == if p0 == 0 then None else Some(order[p0 - 1]);
    } else {
      assert sl1.nodes[x].links[0].forward != Some(h) by {
        if p0 + 1 < |order| {
          assert order[p0 + 1] != h;
        }
      }
      if t > p0 {
        assert o2[t - 1] == order[t];
      }
    }
  }

  /** The removed node's level-0 link and backward link, as validity fixes
      them. */
  lemma RemovedNeighbours(sl1: ZSkipList, order: seq<Handle>, p0: nat)
    requires Valid(sl1, order) && p0 < |order|
    ensures sl1.nodes[order[p0]].links[0].forward == if p0 + 1 < |order| then Some(order[p0 + 1]) else None
    ensures sl1.nodes[order[p0]].backward == if p0 == 0 then None else Some(order[p0 - 1])
  {
    assert NodeShaped(sl1.nodes[order[p0]], sl1.curLevel);
    Level0Step(sl1, order, p0 + 1);
  }

  /** The tail after the removal: unchanged unless the last node went, in
      which case it moves back one node. */
  lemma DeletedTail(sl1: ZSkipList, order: seq<Handle>, p0: nat, update: seq<Handle>, sl2: ZSkipList, o2: seq<Handle>)
    requires Shaped(sl1, order) && p0 < |order|
    requires sl1.tail == order[|order| - 1]
    requires sl1.nodes[order[p0]].links[0].forward == if p0 + 1 < |order| then Some(order[p0 + 1]) else None
    requires sl1.nodes[order[p0]].backward == if p0 == 0 then None else Some(order[p0 - 1])
    requires UnlinkFrame(sl1.nodes, update, order[p0], sl1.curLevel) && Deleted(sl1, update, order[p0], sl2)
    requires |o2| + 1 == |order| && o2 == Del(order, p0)
    ensures sl2.tail == if |o2| == 0 then HeadHandle else o2[|o2| - 1]
  {
  }

  /** Backward links, the tail and the head's unused levels after the
      removal. */
  lemma DeletedEnds(sl1: ZSkipList, order: seq<Handle>, p0: nat, update: seq<Handle>, rank: seq<nat>,
                    sl2: ZSkipList, o2: seq<Handle>)
    requires DeleteBase(sl1, order, p0, update, rank, sl2, o2)
    ensures forall i :: sl2.curLevel <= i < MaxLevel ==> sl2.nodes[HeadHandle].links[i].forward == None
    ensures forall t :: 0 <= t < |o2| ==>
              sl2.nodes[o2[t]].backward == (if t == 0 then None else Some(o2[t - 1]))
    ensures sl2.tail == if |o2| == 0 then HeadHandle else o2[|o2| - 1]
  {
    forall i | sl2.curLevel <= i < MaxLevel
      ensures sl2.nodes[HeadHandle].links[i].forward == None
    {
      assert sl2.nodes[HeadHandle].links[i] == sl1.nodes[HeadHandle].links[i];
    }
    RemovedNeighbours(sl1, order, p0);
    forall t | 0 <= t < |o2|
      ensures sl2.nodes[o2[t]].backward == if t == 0 then None else Some(o2[t - 1])
    {
      DeletedBackward(sl1, order, p0, update, sl2, o2, t);
    }
    DeletedTail(sl1, order, p0, update, sl2, o2);
  }

  /** The removal keeps the list valid, and the stored pairs are the old ones
      without index `p0`. */
  lemma DeletedValid(sl1: ZSkipList, order: seq<Handle>, p0: nat, update: seq<Handle>, rank: seq<nat>,
                     sl2: ZSkipList, o2: seq<Handle>)
    requires DeleteBase(sl1, order, p0, update, rank, sl2, o2)
    ensures Valid(sl2, o2)
    ensures Entries(sl2, o2) == Entries(sl1, order)[..p0] + Entries(sl1, order)[p0 + 1..]
  {
    DeletedShaped(sl1, order, p0, update, sl2, o2);
    DeletedEntries(sl1, order, p0, update, sl2, o2);
    RemoveKeepsSorted(Entries(sl1, order), p0);
    DeletedLinks(sl1, order, p0, update, rank, sl2, o2);
    DeletedEnds(sl1, order, p0, update, rank, sl2, o2);
  }

  /** Take the node at index `p0` out of the list along the recorded path:
      unlink it on every level in use, point the node after it back past it
      (or move the tail back), and count one pair fewer. */
  method UnlinkNode(sl: ZSkipList, ghost order: seq<Handle>, ghost p0: nat, update: seq<Handle>, ghost rank: seq<nat>,
                    x: Handle)
    returns (sl': ZSkipList, ghost order': seq<Handle>)
    requires Valid(sl, order) && p0 < |order| && PathTo(sl, order, p0, update, rank, sl.curLevel) && x == order[p0]
    ensures Valid(sl', order')
    ensures Entries(sl', order') == Entries(sl, order)[..p0] + Entries(sl, order)[p0 + 1..]
    ensures sl'.len + 1 == sl.len && sl'.curLevel == sl.curLevel && |sl'.nodes| == |sl.nodes|
  {
    DeleteFrame(sl, order, p0, update, rank);
    var nodes := UnlinkLevels(sl.nodes, update, x, sl.curLevel);
    var fixed := Relink(sl.nodes, update, x, sl.curLevel, nodes);
    sl' := ZSkipList(fixed, TailAfter(sl, x), sl.curLevel, sl.len - 1);
    order' := Del(order, p0);
    assert Deleted(sl, update, x, sl');
    DeletedValid(sl, order, p0, update, rank, sl', order');
  }
}

=== FILE: zskipnode.dfy ===
/** The skip-list node (`src/collection/skiplist/zskipnode.rs`), with the
    fields the engine in `zskiplist.rs` uses: a score, a backward link and a
    (forward, span) pair per level. Nodes live in an arena and links are arena
    handles instead of `NonNull` addresses. */
module ZSkipNode {
  import opened Wrappers

  /** An index into the node arena; handle 0 is the list's head. */
  type Handle = nat

  /** One level of a node's tower: the next node on that level, if any, and the
      number of level-0 steps that link skips. */
  datatype Link = Link(forward: Option<Handle>, span: nat)

  datatype Node = Node(
    val: Option<int>,
    level: nat,
    score: real,
    backward: Option<Handle>,
    links: seq<Link>)

  /** A tower of `count` empty levels. */
  function EmptyTower(count: nat): (t: seq<Link>)
    ensures |t| == count
    ensures forall i :: 0 <= i < count ==> t[i] == Link(None, 0)
  {
    seq(count, _ => Link(None, 0))
  }

  /** `ZSkipNode::head(level_bound)`: the value-less sentinel with level
      `level_bound - 1` and `level_bound` empty links (the subtraction is on
      `usize`, so a zero bound is refused). Its score is 0. */
  function Head(levelBound: nat): (h: Node)
    requires levelBound >= 1
    ensures h.val == None && h.backward == None && h.score == 0.0
    ensures h.level + 1 == levelBound && |h.links| == levelBound
    ensures forall i :: 0 <= i < |h.links| ==> h.links[i].forward == None
  {
    Node(None, levelBound - 1, 0.0, None, EmptyTower(levelBound))
  }

  /** `ZSkipNode::new(item, level)` with the score the engine passes: the node
      holds `Some(item)`, records `level`, and has `level + 1` empty links. */
  function New(item: int, level: nat, score: real): (n: Node)
    ensures n.val == Some(item) && n.level == level && n.score == score
    ensures n.backward == None
    ensures |n.links| == level + 1
    ensures forall i :: 0 <= i < |n.links| ==> n.links[i] == Link(None, 0)
  {
    Node(Some(item), level, score, None, EmptyTower(level + 1))
  }
}
